=== FILE: README.md ===
# cat-repo-auditor core, modelled in Dafny

This project models the decision logic of the cat-repo-auditor tool set.
The tools inspect a user's GitHub repositories, either through local
clones that sit next to each other in one parent directory or through the
GitHub REST API. Four components are modelled:

- **github_local_checker**: runs git in each sibling directory and decides
  whether the clone belongs to the configured GitHub user. It then
  classifies the clone as `pullable`, `diverged`, `up_to_date` or
  `unknown`, counts the buckets, and optionally fast-forwards the pullable
  ones.
- **sync_workflows**: the planner takes, for each synchronised file, the
  majority digest across the target repositories, finds the outliers and
  picks a copy source (a named master repository or a majority holder).
  The application builds the per-repository copy plan, asks for a `y/N`
  confirmation and visits the planned repositories in sorted order. A
  repository whose plan would copy its own file onto itself stops the run
  there, because the copy raises. The
  line-ending helpers normalise CRLF and CR to LF and count each kind.
- **check_local_workflows**: checks that every target repository holds
  the same copy of each synchronised file. A missing copy counts as a
  mismatch. It also installs the newest `check-large-files.toml` into
  repositories that lack it, and computes the exit code.
- **cat_repo_auditor**:
  - the README checks: DeepWiki mentions, README statistics, and the
    `google*.html`, `AGENTS.md`, workflow and Jekyll probes;
  - the API auditor, which lists repositories and probes paths;
  - the CLI, which sets the exit code and lays out the table.

The repository also ships single-file copies of three tools at its top
level: `github_local_checker.py`, `sync_workflows.py` and
`check_local_workflows.py`. They repeat the `src/` functions nearly line
for line. For example, `classify` is at `github_local_checker.py:164-181`
and `find_master_repo` at `sync_workflows.py:187-215`. The model follows
the `src/` package, and every row below cites it.

## Modules

Each module is one file:

- `Wrappers` (wrappers.dfy): `Option` and `Result`.
- `Seqs` (seqs.dfy): list-comprehension filtering.
- `PyStr` (pystr.dfy): the Python `str` behaviour the tools rely on:
  - `strip`, `split` and `splitlines`;
  - `lower`, `in`, `startswith` and `str.join`;
  - `int()` on decimal text.
- `Ordering` (ordering.dfy): code-point order on strings, `sorted`, and
  distinct lists.
- `RepoState` (repo_state.dfy): `classify`.
- `GitUtils` (git_utils.dfy): each git call, given its return code and its
  output.
- `LocalChecker` (local_checker.dfy): `check_repo`.
- `LocalApp` (local_app.dfy): the local checker's `main`.
- `LineEndings` (line_endings.dfy): `bytes.replace`/`bytes.count` and the
  three line-ending helpers.
- `Planner` (planner.dfy): the synchroniser's planner.
- `SyncPlan` (sync_plan.dfy): the synchroniser's `main`, including the
  stop on a self-copy, and what one synchronisation round does to the
  repositories.
- `Agreement` (agreement.dfy): check_local_workflows.
- `Checkers` (checkers.dfy): the cat_repo_auditor README checks.
- `Auditor` (auditor.dfy): the API auditor.
- `AuditCli` (audit_cli.dfy): the API auditor's CLI.

The model replaces anything the tools read from outside with an input:
- Repositories are values.
- A file's SHA-256 digest is an opaque string.
- The outcome of each git process is a `GitRun(rc, stdout, stderr)`.
- The GitHub API is a pair of functions from request to status (and
  body).
- The answers typed at the confirmation prompts are strings.

## Model

| member | source | states |
|---|---|---|
| RepoState.Classify | src/github_local_checker/checker.py:37-54 | A negative count gives `unknown`. Both counts positive gives `diverged`, whether dirty or not. `behind == 0` gives `up_to_date`. Behind with `ahead == 0` gives `pullable` exactly when the tree is clean, otherwise `unknown`. |
| RepoState.ClassifyTable | src/github_local_checker/checker.py:37-54 | Each of the four statuses holds if and only if its condition holds, so the four conditions partition all inputs. |
| RepoState.PullableIsFastForward | src/github_local_checker/checker.py:39-54 | A `pullable` repository is clean, strictly behind and not ahead, which is the precondition `pull_repo` documents. |
| RepoState.DirtyMattersOnlyWhenPullable | src/github_local_checker/checker.py:50-54 | Dirtiness changes the status exactly when the clone is behind and not ahead. |
| GitUtils.Captured | src/github_local_checker/git_utils.py:5-13 | `run_git` keeps the return code. Stripped output is empty exactly when the raw output was all whitespace. |
| GitUtils.IsGitRepo | src/github_local_checker/git_utils.py:16-18 | A directory is a git repository exactly when `rev-parse --git-dir` exits 0. Its output is ignored. |
| GitUtils.GetRemoteUrl | src/github_local_checker/git_utils.py:21-23 | No URL when git fails or prints only whitespace; otherwise the non-empty stripped output. |
| GitUtils.GetCurrentBranch | src/github_local_checker/git_utils.py:48-50 | A branch name exactly when git exits 0, and then it is the stripped output (`HEAD` when detached). |
| GitUtils.IsDirty | src/github_local_checker/git_utils.py:42-45 | Dirty exactly when git fails or the porcelain status has non-whitespace output. |
| GitUtils.FetchRemote | src/github_local_checker/git_utils.py:53-62 | Succeeds exactly on return code 0, with no message. On failure the message starts with the fixed "fetch failed" text, and is just that text when stderr is empty. |
| GitUtils.PullRepo | src/github_local_checker/git_utils.py:65-74 | Succeeds exactly on return code 0. The message is never empty. It falls back to the fixed texts when the relevant stream is empty. |
| GitUtils.GetBehindAhead | src/github_local_checker/git_utils.py:77-92 | `(-1, -1)` when git fails or the output does not split into two words. Otherwise it gives both parsed integers, or a `ValueError` exactly when one of them is not an integer literal. |
| GitUtils.BehindAheadRoundTrip | src/github_local_checker/git_utils.py:77-92 | The `behind<TAB>ahead` line that `rev-list --count` prints parses back to exactly `(behind, ahead)`. |
| GitUtils.IsTargetRepo | src/github_local_checker/git_utils.py:26-39 | A URL without `github.com` (case-insensitively) is never a target. |
| GitUtils.IsTargetRepoIff | src/github_local_checker/git_utils.py:26-39 | Target exactly when the lower-cased URL contains `github.com/<user>/` or `github.com:<user>/` for the lower-cased user. |
| GitUtils.HttpsRemoteOwner | src/github_local_checker/git_utils.py:26-39 | Take an `https://github.com/<owner>/<repo>` remote whose owner and repo contain no `/` or `:`. It is a target exactly when the owner equals the user, ignoring case. |
| LocalChecker.Messages | src/github_local_checker/checker.py:118-135 | The error list is empty exactly when the fetch succeeded and a tracking branch exists. The fetch message comes first. The missing-tracking message comes last. |
| LocalChecker.Finish | src/github_local_checker/checker.py:114-137 | Covers the report for a target on a branch: its status is `classify` of the observed values, and counts are recorded only when a tracking branch exists. The error field is the fetch message and the tracking message joined with ` / `, for each combination of the two failures. |
| LocalChecker.CheckRepo | src/github_local_checker/checker.py:57-137 | The report keeps path and name. The check raises (models `ValueError`) exactly when a target on a branch gets an unparsable `rev-list` count. |
| LocalChecker.CheckRepoNonTarget | src/github_local_checker/checker.py:88-102 | Three early exits, each with the blank report: not a git repository (with its error), no origin (with its error), and another owner's remote (with only the URL filled in). |
| LocalChecker.CheckRepoTarget | src/github_local_checker/checker.py:104-137 | A detached HEAD or missing branch gives `unknown` with its error. Otherwise every field of the report is fixed: the path, the name and the observed remote URL are kept, and the rest follows from the branch, the dirty flag, the fetch outcome and the two counts. |
| LocalChecker.CheckRepoWellFormed | src/github_local_checker/checker.py:57-137 | Non-targets carry no git state beyond the URL. Targets always have a status. The counts are present together. `behind` is non-negative, while `ahead` may be any integer `int()` accepts, such as `-1`. The counts are what the status was classified from. No branch, or unreadable counts, gives `unknown`. A target without an error has counts. The report is a target exactly when the remote belongs to the user. |
| LocalChecker.FetchMessageShape | src/github_local_checker/checker.py:118-121 | The message recorded for a failed fetch always starts with the "fetch failed" text. |
| LocalApp.Siblings | src/github_local_checker/app.py:80-87 | The scanned directories are sorted and are exactly the directory entries other than the current directory, each once when the directory listing names each entry once. |
| LocalApp.Scan | src/github_local_checker/app.py:94-98 | One report per sibling, in order, each equal to `check_repo` of that sibling. The scan fails exactly when some `check_repo` raises. |
| LocalApp.ScanWellFormed | src/github_local_checker/app.py:94-98 | Every scanned report is well formed. |
| LocalApp.MakeSummary | src/github_local_checker/app.py:122-127 | The summary holds the number scanned, the number of targets and the size of each status bucket. SummaryPartition states how these relate. |
| LocalApp.SummaryPartition | src/github_local_checker/app.py:122-175 | The four bucket counts add up to the number of targets, which is at most the number scanned. Every target lands in the bucket of its own status. |
| LocalApp.BucketSizes | src/github_local_checker/app.py:123-127 | Filtering by the four statuses splits any list of classified reports without loss or overlap. |
| LocalApp.Detail | src/github_local_checker/app.py:107-114 | The detail is `clean` exactly when the report is not dirty, not behind and not ahead. Otherwise it starts with `dirty`, `behind N` or `ahead N`, whichever is first. |
| LocalApp.DetailAllParts | src/github_local_checker/app.py:107-114 | Dirty, behind and ahead together render as `dirty, behind B, ahead A`. |
| LocalApp.DetailExact | src/github_local_checker/app.py:107-114 | For every combination of the three parts, the detail is the present parts among `dirty`, `behind B` and `ahead A`, in that order and separated by `, `. With none present it is `clean`. |
| LocalApp.PullSelection | src/github_local_checker/app.py:124-155 | Nothing is pulled without `--pull`. With it, exactly the target repositories whose status is `pullable` are pulled. |
| LocalApp.PullSelectionInOrder | src/github_local_checker/app.py:124-155 | The selection keeps the scan order: selecting from a concatenation concatenates the selections. |
| LocalApp.PulledAreFastForward | src/github_local_checker/app.py:148-158 | Every repository that is pulled is clean, strictly behind and not ahead. |
| LocalApp.PullResults | src/github_local_checker/app.py:149-158 | The keys are exactly the names of the pulled repositories. Each name maps to the `pull_repo` outcome of the last pulled repository with that name, as repeated dict assignment leaves it. |
| LocalApp.RunChecker | src/github_local_checker/app.py:73-175 | An empty user name exits 1 before scanning. Otherwise the run fails exactly when the scan does. On success it exits 0 and has one report per sibling. The summary is the summary of those reports, and its buckets partition the targets. The pull results are those of pulling the selection, so there are none without `--pull`. |
| LineEndings.Count | src/sync_workflows/file_utils.py:27-33 | `bytes.count`: an empty pattern counts `len + 1`. Non-overlapping matches of a non-empty pattern fit in the data. |
| LineEndings.Replace | src/sync_workflows/file_utils.py:22-33 | `bytes.replace` changes the length by the number of matches times the length difference. |
| LineEndings.CountByte | src/sync_workflows/file_utils.py:27-33 | Counting a one-byte pattern counts the occurrences of that byte. |
| LineEndings.Normalize | src/sync_workflows/file_utils.py:22-24 | Two chained `replace` calls: CRLF becomes LF, then every remaining CR becomes LF. NormalizeIsRef and the lemmas after it state what this computes. |
| LineEndings.NormalizeRef | src/sync_workflows/file_utils.py:22-24 | The one-pass reference normaliser, which turns CRLF into LF and a lone CR into LF, leaves no CR. |
| LineEndings.NormalizeIsRef | src/sync_workflows/file_utils.py:22-24 | The source's two chained `replace` calls equal the one-pass reference on every input. |
| LineEndings.NormalizeNoCR | src/sync_workflows/file_utils.py:22-24 | Normalised data contains no CR. |
| LineEndings.NormalizeIdentity | src/sync_workflows/file_utils.py:22-24 | Data without CR is left unchanged. |
| LineEndings.NormalizeIdempotent | src/sync_workflows/file_utils.py:22-24 | Normalising twice is normalising once. |
| LineEndings.DeletePairs | src/sync_workflows/file_utils.py:27-33 | Every CR and LF is either in a CRLF pair or left over once the pairs are deleted. |
| LineEndings.CountLineEndings | src/sync_workflows/file_utils.py:27-33 | The CRLF count, then the LF and CR counts of the data once the CRLF pairs are deleted. CountLineEndingsTotal and NormalizedLFCount relate the three counts. |
| LineEndings.CountLineEndingsTotal | src/sync_workflows/file_utils.py:27-33 | Twice the CRLF count plus the LF and CR counts equals the total number of CR and LF bytes. |
| LineEndings.NormalizedLFCount | src/sync_workflows/file_utils.py:22-33 | After normalising, the number of LFs equals the sum of the three counts. Each line ending becomes exactly one LF. |
| LineEndings.IsLineEndingOnlyDiff | src/sync_workflows/file_utils.py:36-38 | The inputs differ but normalise to the same bytes. The lemmas that follow characterise it. |
| LineEndings.LineEndingOnlyDiffIff | src/sync_workflows/file_utils.py:36-38 | A line-ending-only difference holds exactly when the data differ but normalise to the same bytes. |
| LineEndings.LineEndingOnlyDiffSymmetric | src/sync_workflows/file_utils.py:36-38 | The relation is symmetric and irreflexive. |
| LineEndings.LineEndingOnlyDiffExample | src/sync_workflows/file_utils.py:36-38 | `a CRLF b` against `a LF b` is a line-ending-only difference. Identical data is not. |
| Planner.MostCommon | src/sync_workflows/planner.py:22-24 | `Counter.most_common(1)`: a digest of maximal count. Among equally common digests, the one first seen wins. |
| Planner.MostCommonUnique | src/sync_workflows/planner.py:22-24 | That choice is unique, so the majority is well defined. |
| Planner.Hashes | src/sync_workflows/planner.py:17-21 | The collected digests are exactly those of the repositories that hold the file. |
| Planner.MajorityHash | src/sync_workflows/planner.py:12-24 | `None` exactly when no repository holds the file. Otherwise the most common digest, which some holder has. |
| Planner.AllSameMajority | src/sync_workflows/planner.py:12-24 | When every repository holds the same digest, that digest is the majority. |
| Planner.DetectOutliers | src/sync_workflows/planner.py:82-109 | Returns the majority digest. With no majority there are no outliers. Otherwise the outliers are the repositories that lack the file or hold another digest, in their original order and each once. |
| Planner.NoOutliersMeansAgreement | src/sync_workflows/planner.py:82-109 | There is a majority with no outliers exactly when the list is non-empty and every repository holds the same digest. |
| Planner.FindMasterRepo | src/sync_workflows/planner.py:27-56 | A named master that holds the file is returned. Otherwise the first majority holder is returned. `None` exactly when there is no majority. Any result is a listed repository that holds the file. |
| Planner.SourceAlwaysFound | src/sync_workflows/planner.py:45-56 | Whenever a majority exists, a copy source is found. |
| Planner.UncommittedVsRemote | src/sync_workflows/planner.py:59-79 | Lists, in configuration order, exactly the paths present both locally and at the remote whose digests differ. Each entry records both digests and the remote bytes. |
| SyncPlan.Append | src/sync_workflows/app.py:210-233 | A `defaultdict(list)` append: the key is added if new, the item goes at the end of that key's list only, and keys stay distinct. |
| SyncPlan.AddOutliers | src/sync_workflows/app.py:230-233 | After the loop over outliers, each outlier's list ends with the new item and other keys are unchanged. |
| SyncPlan.BuildCopyPlan | src/sync_workflows/app.py:210-233 | The plan's repository keys are distinct. |
| SyncPlan.CopyPlanIsPerRepoPlan | src/sync_workflows/app.py:213-233 | For every repository the plan holds exactly the copies an independent per-repository definition gives: one per path that has outliers, a source and this repository among the outliers, in path order. A repository is planned exactly when that list is non-empty. |
| SyncPlan.AgreeingPathAddsNothing | src/sync_workflows/app.py:213-216 | A path on which all repositories agree leaves the plan unchanged. |
| SyncPlan.ConfirmAction | src/sync_workflows/app.py:106-113 | The typed answer confirms when, stripped and lower-cased, it is `y`. ConfirmActionIff characterises the answers that confirm. |
| SyncPlan.ConfirmActionIff | src/sync_workflows/app.py:106-113 | Confirmed exactly when the stripped answer is `y` or `Y`. |
| SyncPlan.ConfirmActionAccepts | src/sync_workflows/app.py:106-113 | `y`, `Y` and ` y ` confirm. |
| SyncPlan.ConfirmActionRejects | src/sync_workflows/app.py:106-113 | `yes` and the empty answer do not. |
| SyncPlan.RunSync | src/sync_workflows/app.py:165-262 | No target repositories exits 1. A refused first prompt exits 0 without copying. The second question is asked exactly when the plan is non-empty. Phase 3 runs only when it is confirmed, and then the outcome is PhaseThree of the plan. Without phase 3 nothing is synced. The exit code is 1 exactly when there were no targets or phase 3 stopped on a self-copy. |
| SyncPlan.FirstSelfCopy | src/sync_workflows/app.py:139-162 | The position of the first repository, in visiting order, whose planned copies include one from itself. No earlier repository has such a copy. |
| SyncPlan.PhaseThree | src/sync_workflows/app.py:139-162 | Visits the planned repositories in sorted order. Each one is synced until one whose copies include a copy from itself, where `shutil.copy2` raises `SameFileError` and the run ends with exit 1. The synced names are sorted, distinct and planned, and none of them copies from itself. Every planned repository is either synced or sorts at or after the one that failed. |
| SyncPlan.PlannedSelfCopy | src/sync_workflows/app.py:213-233 | A path's plan gives a repository a copy from itself exactly when that repository is the chosen source and is among the outliers. |
| SyncPlan.NoMasterNoSelfCopy | src/sync_workflows/planner.py:45-56 | Without a named master, no repository is ever planned a copy from itself. |
| SyncPlan.NoMasterSyncsAll | src/sync_workflows/app.py:259-260 | Without a named master, phase 3 never stops early. When both prompts are confirmed, every planned repository is synced. |
| SyncPlan.DisagreeingMasterAborts | src/sync_workflows/app.py:259-260 | A named master that holds a synchronised file with a digest other than the majority's makes phase 3 stop with an error, once both prompts are confirmed. |
| SyncPlan.SyncRound | src/sync_workflows/app.py:213-260 | One round for one path keeps the number of repositories and never changes the source. It stops early (`SameFileError`) exactly when the chosen source is itself an outlier. |
| SyncPlan.SyncRoundShape | src/sync_workflows/app.py:213-260 | After one round, every majority holder is unchanged. An outlier gets the source's digest when the round did not stop, or when it is named before the source. An outlier named at or after the source in a stopped round is unchanged. |
| SyncPlan.SyncRoundConvergesIff | src/sync_workflows/app.py:213-260 | A round with outliers stops early exactly when the chosen source does not hold the majority digest. It leaves no outliers exactly when the source does hold it. |
| SyncPlan.MasterSelfCopyExample | src/sync_workflows/planner.py:34-98 | Take repositories A and B holding `a`, C without the file, the named master M holding `b`, and Z without the file. The outliers are C, M and Z. The round gives C the file `b`, then stops at M, so Z never receives the file. |
| SyncPlan.OutliersAgainstSource | src/sync_workflows/app.py:5-9 | The corrected outliers are exactly the repositories that lack the file or differ from the chosen source. |
| SyncPlan.SyncRoundFixed | src/sync_workflows/app.py:5-9 | The corrected round keeps the number of repositories and never changes the source. SyncRoundFixedConverges states that it converges. |
| SyncPlan.SyncRoundFixedConverges | src/sync_workflows/app.py:5-9 | One corrected round always converges: no outliers against the source and none against the majority. |
| SyncPlan.FixedAgreesWithMajoritySource | src/sync_workflows/planner.py:82-109 | When the source holds the majority digest, the corrected outliers are exactly the as-written outliers. |
| SyncPlan.MajoritySourceWithoutMaster | src/sync_workflows/planner.py:45-56 | Without a usable named master, the source holds the majority digest, so the correction changes nothing there. |
| Agreement.MissingIsNoDigest | src/check_local_workflows/checker.py:17-20 | The missing-file placeholder never equals a SHA-256 hex digest. |
| Agreement.CheckOne | src/check_local_workflows/checker.py:10-46 | A file passes exactly when there is at least one repository and every repository holds it with the same digest. |
| Agreement.CheckOneIff | src/check_local_workflows/checker.py:26-38 | The source's test, in which every recorded digest equals the most common present one, is equivalent to the specification above. |
| Agreement.CheckOneRejects | src/check_local_workflows/checker.py:10-46 | A missing copy, two different digests or no repositories fail. |
| Agreement.CheckOneAccepts | src/check_local_workflows/checker.py:10-46 | Any number of identical copies pass. |
| Agreement.FindLatest | src/check_local_workflows/installer.py:10-22 | `None` exactly when no repository has the config. Otherwise a repository holding it with the greatest mtime, the first such on ties, as `max` picks. |
| Agreement.LatestFrom | src/check_local_workflows/installer.py:16-22 | Continuing the scan from position `k` with the best candidate so far gives a holder of the config with the greatest mtime, the first such on ties. It gives `None` exactly when no repository has the config. |
| Agreement.FindLatestUnique | src/check_local_workflows/installer.py:10-22 | That index is the only one meeting the specification. |
| Agreement.Install | src/check_local_workflows/installer.py:25-52 | Fails, changing nothing, exactly when no repository has the config. Otherwise existing configs are untouched and every missing one becomes a copy of the newest. |
| Agreement.InstallIdempotent | src/check_local_workflows/installer.py:25-52 | Installing again changes nothing. |
| Agreement.InstallAddsNoNewContent | src/check_local_workflows/installer.py:25-52 | Every config after installation is one that existed before. |
| Agreement.CheckAll | src/check_local_workflows/app.py:47 | `all(...)` over a generator: true exactly when every path passes. It stops at the first failing path. |
| Agreement.CheckMain | src/check_local_workflows/app.py:27-57 | No targets exits 1. Installation runs exactly when the large-files workflow is listed. The exit code is 0 exactly when every path passes and, if installation ran, a source config existed. Otherwise it is 2. |
| Checkers.FirstPattern | src/cat_repo_auditor/checkers.py:35-40 | The first pattern, in list order, that occurs in the line, or none. |
| Checkers.FirstPatternIsFirst | src/cat_repo_auditor/checkers.py:35-40 | When pattern `k` occurs and no earlier one does, pattern `k` is the result. |
| Checkers.ScanFound | src/cat_repo_auditor/checkers.py:32-40 | The matched patterns are distinct and are exactly the patterns some line matched first. They are listed in the order in which they were first matched. |
| Checkers.ScanFoundInOrder | src/cat_repo_auditor/checkers.py:37-38 | When a pattern is listed before another, every line that matches the later one is preceded by a line that matches the earlier one. The list therefore follows the order of first matches. |
| Checkers.ScanOccurrences | src/cat_repo_auditor/checkers.py:33-39 | Each occurrence is the 1-based number of a matching line with its stripped text, in increasing line order. |
| Checkers.ScanOccurrencesCover | src/cat_repo_auditor/checkers.py:33-39 | Every matching line has an occurrence. |
| Checkers.CheckDeepwiki | src/cat_repo_auditor/checkers.py:30-45 | `has_deepwiki` holds exactly when some line mentions a pattern, exactly when there is an occurrence. Matched patterns come from the constant list. |
| Checkers.ScanVerdict | src/cat_repo_auditor/checkers.py:41-45 | Some pattern is found exactly when some line matches, exactly when there is an occurrence. |
| Checkers.DeepwikiPatternPriority | src/cat_repo_auditor/constants.py:13 | `deepwiki.com` is reported before `deepwiki`, which is reported before `DeepWiki`. `DeepWiki` is reported only for lines without the lower-case form. |
| Checkers.FindUrls | src/cat_repo_auditor/checkers.py:53 | Every `re.findall` match is `http://` or `https://` followed by a non-empty run of characters that are not whitespace, `)`, `]`, `"` or `'`. |
| Checkers.Headings | src/cat_repo_auditor/checkers.py:52 | One entry per line starting with `#`, in order, each that line stripped. |
| Checkers.AnalyzeReadme | src/cat_repo_auditor/checkers.py:48-61 | Gives the character and line counts. The non-empty count is the number of lines that are not all whitespace. The heading count is the number of lines starting with `#`. The first ten of those lines are kept, stripped. The URL count counts distinct URLs and never exceeds the number of matches. |
| Checkers.RepeatedUrlCountedOnce | src/cat_repo_auditor/checkers.py:53-60 | A URL written twice is matched twice but counted once. |
| Checkers.CheckGoogleHtml | src/cat_repo_auditor/checkers.py:64-68 | The matched files are exactly the root files whose lower-cased name fits `google*.html`, in listing order. The check holds exactly when there is one. |
| Checkers.GoogleHtmlExamples | src/cat_repo_auditor/checkers.py:64-68 | `google.html` and `GoogleABC.HTML` match. `google.htm` and `googl.html` do not. A directory named `google1.html` does not. |
| Checkers.CheckAgentsFile | src/cat_repo_auditor/checkers.py:71-81 | The found list holds `AGENTS.md` and `copilot-instructions.md` when each is listed at the root, in that order, then `.github/copilot-instructions.md` when it exists. It holds exactly when the list is non-empty. |
| Checkers.CheckWorkflows | src/cat_repo_auditor/checkers.py:84-92 | The listed workflows are the files ending in `.yml` or `.yaml`. The check holds exactly when there is one. |
| Checkers.CheckJekyllConfig | src/cat_repo_auditor/checkers.py:95-98 | Holds exactly when a root file, not a directory, is named `_config.yml`. |
| Auditor.PutGet | src/cat_repo_auditor/auditor.py:123 | Dict assignment: the assigned key reads back the new value and every other key is unchanged. |
| Auditor.GetItems | src/cat_repo_auditor/auditor.py:26 | `found.items()` lists exactly the pairs that lookup returns. |
| Auditor.MissingOf | src/cat_repo_auditor/auditor.py:23-26 | `missing` lists exactly the items recorded as absent. |
| Auditor.Missing | src/cat_repo_auditor/auditor.py:23-26 | An item is missing exactly when its lookup gives `False`. |
| Auditor.MissingAppend | src/cat_repo_auditor/auditor.py:23-26 | Adding an entry adds its key to `missing` exactly when it is absent, keeping order. |
| Auditor.ResolveToken | src/cat_repo_auditor/auditor.py:32-34 | An explicit non-empty token wins. Otherwise the environment's is used. |
| Auditor.Headers | src/cat_repo_auditor/auditor.py:36-43 | The Accept and User-Agent headers always come first. `Authorization: Bearer <token>` is added, last, exactly when the token is non-empty. |
| Auditor.ListRepositories | src/cat_repo_auditor/auditor.py:59-67 | An error status raises `HTTPError`. A non-JSON body raises `ValueError`. Otherwise there is one entry per record, in order, with the name (default empty) and `pushed_at`. |
| Auditor.PathExists | src/cat_repo_auditor/auditor.py:84-94 | 200 gives true. It raises exactly on an error status other than 404. Every other status gives false. |
| Auditor.BuildFound | src/cat_repo_auditor/auditor.py:123 | Fails exactly when some probe raises. Otherwise the keys are exactly the check items, in order when distinct, each mapped to whether its probe returned 200. |
| Auditor.AuditRepos | src/cat_repo_auditor/auditor.py:120-126 | Fails exactly when a probe for some repository fails. Otherwise one result per repository, in order, with its name, date and findings. |
| Auditor.AuditUserRepositories | src/cat_repo_auditor/auditor.py:97-126 | A failed listing fails the audit. Otherwise each result matches its listed repository and maps each check item to whether its probe returned 200. A failure after a successful listing comes from a failing probe. |
| Auditor.MissingOfBuild | src/cat_repo_auditor/auditor.py:23-26 | For distinct check items, `missing` of a fresh audit is the absent items in configuration order. |
| Auditor.AuditMissing | src/cat_repo_auditor/auditor.py:97-126 | The same holds for every result of `audit_user_repositories`. |
| AuditCli.Mark | src/cat_repo_auditor/cli.py:34 | `yes` exactly when the item was found, otherwise `no`. |
| AuditCli.ColumnWidthSoFar | src/cat_repo_auditor/cli.py:27-35 | The running maximum of the width loop is at least the header's length, bounds every cell seen so far and is attained. |
| AuditCli.ComputeWidths | src/cat_repo_auditor/cli.py:27-35 | Every column gets a width equal to the longest of its header and its cells. |
| AuditCli.LJust | src/cat_repo_auditor/cli.py:37-38 | `ljust` keeps the text and pads it with spaces up to the width. |
| AuditCli.Dashes | src/cat_repo_auditor/cli.py:41 | A run of exactly `w` dashes. |
| AuditCli.JoinLength | src/cat_repo_auditor/cli.py:38 | A joined line is as long as its parts plus one separator between each pair. |
| AuditCli.JoinPartAt | src/cat_repo_auditor/cli.py:38 | Part `j` sits at the sum of the earlier widths and separators. |
| AuditCli.JoinSepAt | src/cat_repo_auditor/cli.py:38 | The separator sits right after part `j`. |
| AuditCli.LineIsJoin | src/cat_repo_auditor/cli.py:37-47 | Line `t` is its padded cells joined by the column separator (space, bar, space), or by `-+-` for the divider. |
| AuditCli.RowLine | src/cat_repo_auditor/cli.py:42-45 | Body line `t` is `format_row` of result `t - 2`. |
| AuditCli.LineLength | src/cat_repo_auditor/cli.py:37-47 | Every line has the same length: the widths plus three characters per separator. |
| AuditCli.SlotAt | src/cat_repo_auditor/cli.py:37-47 | Column `j` of every line sits at the same offset and holds that line's cell, padded. |
| AuditCli.SeparatorAt | src/cat_repo_auditor/cli.py:37-47 | The separators sit at the same offsets on every line. |
| AuditCli.WidthsFit | src/cat_repo_auditor/cli.py:27-41 | The computed widths fit every cell, so the layout lemmas apply. |
| AuditCli.LineLaidOut | src/cat_repo_auditor/cli.py:37-47 | Every line consists of its cells at the column offsets, with the separators between them. |
| AuditCli.FormatTable | src/cat_repo_auditor/cli.py:25-47 | Gives the header, the divider and one line per result, joined by newlines. Widths are the column maxima, and every line lays its cells out in aligned columns. |
| AuditCli.RunCli | src/cat_repo_auditor/cli.py:71-110 | Calls the updater exactly when self-update is on. Covers the configuration-error and no-items messages, each with exit 1. The exit code is 0 exactly when the audit succeeds. An audit error prints `Audit failed: ...`. An empty result prints the no-repositories message. Otherwise the table is printed, ending in a newline. |
| PyStr.Strip | src/github_local_checker/git_utils.py:13 | `str.strip()`: the input with its leading and trailing whitespace removed. The result sits in the input with only whitespace before and after it, is empty exactly when the text is all whitespace, and otherwise has no whitespace at either end. |
| PyStr.StripUnique | src/github_local_checker/git_utils.py:13 | Any cut of the text into whitespace, a part with non-whitespace at both ends, and whitespace gives exactly `strip()`'s result. |
| PyStr.ContainsIff | src/github_local_checker/git_utils.py:34-38 | The substring test `in` holds exactly when the substring occurs at some position. |
| PyStr.Split | src/github_local_checker/git_utils.py:89 | `str.split()` yields only non-empty words without whitespace. |
| PyStr.SplitRoundTrip | src/github_local_checker/git_utils.py:89 | The text is its words with whitespace runs between them and at either end. The inner runs are non-empty, so the words are maximal. |
| PyStr.SplitLines | src/cat_repo_auditor/checkers.py:34 | `str.splitlines()` is empty exactly for empty text, and gives lines without line breaks. |
| PyStr.SplitLinesRoundTrip | src/cat_repo_auditor/checkers.py:34 | The text is its lines, each followed by its line break (`\r\n`, or one break character). Only the last line may have none. No line and its break are both empty, and a `\r` break is never followed by `\n`. |
| PyStr.LowerIsLower | src/github_local_checker/git_utils.py:32-33 | Lower-casing gives lower-case text and is idempotent. |
| PyStr.Lower | src/github_local_checker/git_utils.py:32-33 | Keeps the length and lower-cases each character on its own. |
| PyStr.ParseNatToString | src/github_local_checker/git_utils.py:92 | `int()` reads back the decimal text of any natural number. Python's 4300-digit limit is not modelled. |
| PyStr.ParseInt | src/github_local_checker/git_utils.py:92 | `int()` on a token: an optional sign, then digits with single underscores between them. Anything else is a `ValueError`. |
| Ordering.Sort | src/github_local_checker/app.py:85 | `sorted` gives an ordered permutation of its input. |
| Ordering.SortedUnique | src/sync_workflows/app.py:259 | Two ordered permutations of the same list are equal, so the visiting order is determined. |

## Left out

- I/O is replaced by inputs: the file system, the git subprocesses, HTTP
  requests, `input()` prompts, printing, colours and the JSON result
  file. Repositories, `GitRun` records, API functions and answer strings
  stand in for them.
- SHA-256 is an opaque digest string. Two files are taken to have equal
  content exactly when their digests are equal.
- Argument parsing, TOML configuration loading, repository discovery
  (`collect_target_repos`), difft/diff display, the cache, the
  auto-updater's internals, and the sync tool's git add/commit/push
  helpers are not part of this model.
- PyStr.Lower: lower-cases ASCII letters only. Python's `str.lower` also
  maps other alphabets, which GitHub user names and hosts do not use.
- PyStr.ParseInt: accepts an optional sign, ASCII digits and single
  underscores between digits. That covers what `rev-list --count`
  prints; other `int()` forms (surrounding whitespace, non-ASCII digits)
  are treated as a `ValueError`. Python also refuses decimal text of more
  than 4300 digits; the model reads text of any length, which no git
  count reaches.
- Auditor.ListRepositories: `raise_for_status` raises for statuses 400 to
  599, as the `requests` library does. Statuses of 600 and above are not
  errors there.
- Auditor.PathExists: the same 400–599 range applies to the non-404
  error case.
- Auditor.Headers: the headers are computed, but the API functions do not
  depend on them. The `limit` and `sort` parameters only reach the
  server.
- Exceptions other than `HTTPError` and `ValueError` (timeouts,
  connection errors) are not modelled.
- AuditCli.RunCli: `check_items` is taken to be a list of strings, and a
  configuration that is not a list is not modelled. The updater is
  called, and any exception it raises is ignored. After `Audit failed: `
  the model prints the exception's class name (`HTTPError` or
  `ValueError`); the program prints `str(exc)`, whose text comes from the
  `requests` and `json` libraries. A successful self-update restarts the
  process with `os.execv` (src/cat_repo_auditor/auto_updater.py:115-118 and 160-161), so the
  rest of `main` never runs in that process; the model always goes on to
  the audit.
- SyncPlan.RunSync: phase 1a (committing local changes) is represented by
  whether it found anything and by the answer to its prompt. The
  individual commits are not modelled. When phase 3 stops on a self-copy,
  the model records which repositories were synced and where it stopped.
  The copies of earlier paths already written into the failing
  repository's worktree before the error are not modelled, and neither
  are the git add/commit/push steps of the synced repositories.
- Agreement.CheckMain: `check_one`'s listing of the mismatching
  repositories is output only and is not modelled. Modification times
  are integers, and a config's path is identified with its repository.
  An empty `sync_filepaths` list makes the configuration loader exit 1
  (src/check_local_workflows/config_loader.py:23-25) before `main` runs,
  so the model's exit code for an empty path list is never reached.
  Whether the large-files workflow is listed is decided by string
  equality, whereas the program compares `Path` objects, which treat
  `./a` and `a` as the same path.
- Checkers.CheckGoogleHtml: the `fnmatch` pattern `google*.html` is
  modelled directly as a prefix and suffix test on the lower-cased name.
- `fetch_readme_ja` (base64 decoding of the API response) and
  `github_api` are not part of this model. The checks take the decoded
  README text and the directory listings as inputs.

## Findings

| source | as written | input that shows it | evidently intended | confidence | as-written member | corrected member |
|---|---|---|---|---|---|---|
| src/sync_workflows/app.py:213-260 with src/sync_workflows/planner.py:34-98 and src/sync_workflows/file_utils.py:16-19 | Outliers are measured against the majority digest, but the copy comes from the chosen source. A named master that disagrees with the majority is therefore its own outlier. The plan copies its file onto itself, `shutil.copy2` raises `SameFileError` there, and nothing catches it. The run stops with an error: repositories sorted after the master never receive the file, and the majority holders are never updated. | Repositories A and B hold `a`, C and Z lack the file, and M holds `b` and is the named master. C receives `b`, the copy onto M raises, and Z is never visited. | The module docstring (app.py:5-9) says a file is copied when it is missing or differs from the copy source, master or majority. Outliers should be measured against the source's digest. Then the source is never its own outlier, and one round makes every repository agree. | not executed | SyncPlan.SyncRound, SyncPlan.MasterSelfCopyExample, SyncPlan.SyncRoundConvergesIff, SyncPlan.DisagreeingMasterAborts | SyncPlan.SyncRoundFixed, SyncPlan.OutliersAgainstSource, SyncPlan.SyncRoundFixedConverges, SyncPlan.FixedAgreesWithMajoritySource, SyncPlan.MajoritySourceWithoutMaster |

=== FILE: agreement.dfy ===
/** The read-only agreement checker: for each synchronised path, do all
    target repositories hold the same copy; and the installer that gives
    every repository the newest check-large-files configuration. Hashing
    is abstracted to a hex-digest value per repository and path, and the
    filesystem to one record per repository. */
module Agreement {
  import opened Wrappers
  import opened Seqs
  import opened Planner

  // ---------------------------------------------------------------------
  // Digests and the missing-file sentinel

  predicate IsHexChar(c: char) {
    '0' <= c <= '9' || 'a' <= c <= 'f'
  }

  /** What `hexdigest()` of SHA-256 returns: 64 lower-case hex digits. */
  predicate IsHexDigest(s: string) {
    |s| == 64 && forall k :: 0 <= k < |s| ==> IsHexChar(s[k])
  }

  type HexDigest = s: string | IsHexDigest(s) witness seq(64, _ => '0')

  /** Recorded in place of a digest for a repository lacking the file. */
  const Missing: string := "(欠落)"

  /** No real digest can be mistaken for the sentinel. */
  lemma MissingIsNoDigest(d: HexDigest)
    ensures d != Missing
  {
    assert |Missing| == 4;
  }

  /** The `hashes` values, one per repository in order. */
  function Recorded(present: seq<Option<HexDigest>>): (hs: seq<string>)
    ensures |hs| == |present|
    ensures forall i :: 0 <= i < |present| ==>
      hs[i] == (if present[i].Some? then present[i].value else Missing)
  {
    seq(|present|, i requires 0 <= i < |present| =>
      if present[i].Some? then present[i].value else Missing)
  }

  function NotMissing(h: string): bool {
    h != Missing
  }

  /** `check_one` for one path, given per repository the digest of its copy
      or None when the file is absent: the most common real digest is the
      reference, and every recorded value must equal it. */
  function CheckOne(present: seq<Option<HexDigest>>): (ok: bool)
    ensures ok <==>
      (|present| > 0
       && forall i :: 0 <= i < |present| ==> present[i].Some? && present[i] == present[0])
  {
    var hs := Recorded(present);
    var existing := Filter(hs, NotMissing);
    if |existing| == 0 then
      false
    else
      var majority := MostCommon(existing);
      var ok := forall i :: 0 <= i < |hs| ==> hs[i] == majority;
      CheckOneIff(present, hs, existing, majority);
      ok
  }

  lemma CheckOneIff(present: seq<Option<HexDigest>>, hs: seq<string>, existing: seq<string>, majority: string)
    requires hs == Recorded(present) && existing == Filter(hs, NotMissing)
    requires majority in existing
    ensures (forall i :: 0 <= i < |hs| ==> hs[i] == majority) <==>
      (|present| > 0
       && forall i :: 0 <= i < |present| ==> present[i].Some? && present[i] == present[0])
  {
    assert |present| > 0;
    if forall i :: 0 <= i < |hs| ==> hs[i] == majority {
      forall i | 0 <= i < |present|
        ensures present[i].Some? && present[i] == present[0]
      {
        assert hs[i] == majority && hs[0] == majority;
      }
    }
    if forall i :: 0 <= i < |present| ==> present[i].Some? && present[i] == present[0] {
      var m :| 0 <= m < |hs| && hs[m] == majority;
      forall i | 0 <= i < |hs|
        ensures hs[i] == majority
      {
        assert hs[i] == present[0].value == hs[m];
      }
    }
  }

  /** One repository missing the file fails even though the holders
      agree; two different contents fail; no repository at all fails. */
  lemma CheckOneRejects(d: HexDigest, e: HexDigest)
    requires d != e
    ensures !CheckOne([Some(d), Some(d), None])
    ensures !CheckOne([Some(d), Some(e)])
    ensures !CheckOne([])
  {
    var p := [Some(d), Some(d), None];
    assert p[2].None?;
    var q := [Some(d), Some(e)];
    assert q[1] != q[0];
  }

  /** Identical copies everywhere pass. */
  lemma CheckOneAccepts(d: HexDigest, n: nat)
    requires n > 0
    ensures CheckOne(seq(n, _ => Some(d)))
  {
    var p := seq(n, _ => Some(d));
    assert forall i :: 0 <= i < n ==> p[i] == Some(d);
  }

  // ---------------------------------------------------------------------
  // The check-large-files configuration

  /** A repository's copy of the configuration: its bytes and its
      modification time, which only ever is compared. */
  datatype Config = Config(content: seq<int>, mtime: int)

  /** `find_latest_large_files_toml`: the position of the holder with the
      greatest mtime, the first one on ties as `max` keeps; None when no
      repository holds the file. */
  function FindLatest(configs: seq<Option<Config>>): (r: Option<nat>)
    ensures r.None? <==> forall i :: 0 <= i < |configs| ==> configs[i].None?
    ensures r.Some? ==> r.value < |configs| && configs[r.value].Some?
    ensures r.Some? ==> forall i :: 0 <= i < |configs| && configs[i].Some? ==>
      configs[i].value.mtime <= configs[r.value].value.mtime
    ensures r.Some? ==> forall i :: 0 <= i < r.value && configs[i].Some? ==>
      configs[i].value.mtime < configs[r.value].value.mtime
  {
    LatestFrom(configs, 0, None)
  }

  /** The scan behind `FindLatest`: `best` is the answer for the first `k`
      entries. */
  function LatestFrom(configs: seq<Option<Config>>, k: nat, best: Option<nat>): (r: Option<nat>)
    requires k <= |configs|
    requires best.None? <==> forall i :: 0 <= i < k ==> configs[i].None?
    requires best.Some? ==> best.value < k && configs[best.value].Some?
    requires best.Some? ==> forall i :: 0 <= i < k && configs[i].Some? ==>
      configs[i].value.mtime <= configs[best.value].value.mtime
    requires best.Some? ==> forall i :: 0 <= i < best.value && configs[i].Some? ==>
      configs[i].value.mtime < configs[best.value].value.mtime
    ensures r.None? <==> forall i :: 0 <= i < |configs| ==> configs[i].None?
    ensures r.Some? ==> r.value < |configs| && configs[r.value].Some?
    ensures r.Some? ==> forall i :: 0 <= i < |configs| && configs[i].Some? ==>
      configs[i].value.mtime <= configs[r.value].value.mtime
    ensures r.Some? ==> forall i :: 0 <= i < r.value && configs[i].Some? ==>
      configs[i].value.mtime < configs[r.value].value.mtime
    decreases |configs| - k
  {
    if k == |configs| then best
    else if configs[k].None? then LatestFrom(configs, k + 1, best)
    else if best.None? || configs[k].value.mtime > configs[best.value].value.mtime then
      LatestFrom(configs, k + 1, Some(k))
    else LatestFrom(configs, k + 1, best)
  }

  /** The latest holder is unique: the description fixes the position. */
  lemma FindLatestUnique(configs: seq<Option<Config>>, j: nat)
    requires j < |configs| && configs[j].Some?
    requires forall i :: 0 <= i < |configs| && configs[i].Some? ==>
      configs[i].value.mtime <= configs[j].value.mtime
    requires forall i :: 0 <= i < j && configs[i].Some? ==>
      configs[i].value.mtime < configs[j].value.mtime
    ensures FindLatest(configs) == Some(j)
  {
    var r := FindLatest(configs).value;
    assert configs[r].Some?;
  }

  /** `install_large_files_toml`: without a source, report failure and copy
      nothing; otherwise copy the source (content and mtime, as `copy2`
      does) into every repository lacking the file and report success. */
  function Install(configs: seq<Option<Config>>): (r: (bool, seq<Option<Config>>))
    ensures !r.0 <==> forall i :: 0 <= i < |configs| ==> configs[i].None?
    ensures !r.0 ==> r.1 == configs
    ensures |r.1| == |configs|
    ensures r.0 ==> forall i :: 0 <= i < |configs| ==> r.1[i].Some?
    ensures forall i :: 0 <= i < |configs| && configs[i].Some? ==> r.1[i] == configs[i]
    ensures r.0 ==> forall i :: 0 <= i < |configs| && configs[i].None? ==>
      r.1[i] == configs[FindLatest(configs).value]
  {
    match FindLatest(configs)
    case None => (false, configs)
    case Some(src) =>
      (true, seq(|configs|, i requires 0 <= i < |configs| =>
                if configs[i].Some? then configs[i] else configs[src]))
  }

  /** A second install finds nothing to do. */
  lemma InstallIdempotent(configs: seq<Option<Config>>)
    requires Install(configs).0
    ensures Install(Install(configs).1) == (true, Install(configs).1)
  {
    var after := Install(configs).1;
    assert |configs| > 0 && after[0].Some?;
    assert Install(after).1 == after;
  }

  /** After a successful install the repositories hold at most the
      contents they held before: the source's content is one of them. */
  lemma InstallAddsNoNewContent(configs: seq<Option<Config>>)
    ensures forall i :: 0 <= i < |configs| && Install(configs).1[i].Some? ==>
      exists j :: 0 <= j < |configs| && configs[j] == Install(configs).1[i]
  {
    var after := Install(configs).1;
    forall i | 0 <= i < |configs| && after[i].Some?
      ensures exists j :: 0 <= j < |configs| && configs[j] == after[i]
    {
      if configs[i].None? {
        var src := FindLatest(configs).value;
        assert configs[src] == after[i];
      } else {
        assert configs[i] == after[i];
      }
    }
  }

  // ---------------------------------------------------------------------
  // main

  /** One target repository as the checker sees it: the digest of each
      synchronised path it holds, and its configuration file. */
  datatype LocalRepo = LocalRepo(digests: map<string, HexDigest>, config: Option<Config>)

  /** The sync path that triggers the configuration install. */
  const CallCheckLargeFilesWf: string := ".github/workflows/call-check-large-files.yml"

  function DigestsOf(repos: seq<LocalRepo>, path: string): (present: seq<Option<HexDigest>>)
    ensures |present| == |repos|
    ensures forall i :: 0 <= i < |repos| ==>
      present[i] == (if path in repos[i].digests then Some(repos[i].digests[path]) else None)
  {
    seq(|repos|, i requires 0 <= i < |repos| =>
      if path in repos[i].digests then Some(repos[i].digests[path]) else None)
  }

  function ConfigsOf(repos: seq<LocalRepo>): (cs: seq<Option<Config>>)
    ensures |cs| == |repos| && forall i :: 0 <= i < |repos| ==> cs[i] == repos[i].config
  {
    seq(|repos|, i requires 0 <= i < |repos| => repos[i].config)
  }


  /** `all(check(fp) for fp in paths)`: the paths actually checked, in
      order, stopping after the first failure, and the verdict. */
  function CheckAll(paths: seq<string>, check: string -> bool): (r: (seq<string>, bool))
    ensures r.1 <==> forall k :: 0 <= k < |paths| ==> check(paths[k])
    ensures r.1 ==> r.0 == paths
    ensures !r.1 ==> 0 < |r.0| <= |paths| && r.0 == paths[..|r.0|]
    ensures !r.1 ==> !check(paths[|r.0| - 1])
    ensures !r.1 ==> forall k :: 0 <= k < |r.0| - 1 ==> check(paths[k])
  {
    if |paths| == 0 then ([], true)
    else if !check(paths[0]) then ([paths[0]], false)
    else
      var tail := paths[1..];
      var (checked, ok) := CheckAll(tail, check);
      assert forall k :: 1 <= k < |paths| ==> paths[k] == tail[k - 1];
      if ok then ([paths[0]] + checked, ok)
      else
        assert [paths[0]] + tail[..|checked|] == paths[..|checked| + 1];
        ([paths[0]] + checked, ok)
  }

  /** `check_one` for `path` over the repositories. */
  predicate Passes(repos: seq<LocalRepo>, path: string) {
    CheckOne(DigestsOf(repos, path))
  }

  function PassesFor(repos: seq<LocalRepo>): string -> bool {
    (path: string) => Passes(repos, path)
  }

  /** What `main` ends with: the exit code, the paths checked, whether the
      installer ran, and the configurations afterwards. */
  datatype CheckOutcome = CheckOutcome(
    exitCode: int, checked: seq<string>, installRan: bool, configs: seq<Option<Config>>)

  /** `main` after discovery. No target repository exits 1 before anything
      is checked. The installer runs exactly when the workflow path is
      synchronised, even after a mismatch, and both must succeed for exit
      code 0; otherwise the exit code is 2. */
  function CheckMain(repos: seq<LocalRepo>, paths: seq<string>): (o: CheckOutcome)
    ensures |repos| == 0 ==> o == CheckOutcome(1, [], false, [])
    ensures |repos| > 0 ==> (o.installRan <==> CallCheckLargeFilesWf in paths)
    ensures |repos| > 0 ==> o.checked == CheckAll(paths, PassesFor(repos)).0
    ensures |repos| > 0 ==>
      (o.exitCode == 0 <==>
        ((forall k :: 0 <= k < |paths| ==> Passes(repos, paths[k]))
         && (CallCheckLargeFilesWf in paths ==> exists i :: 0 <= i < |repos| && repos[i].config.Some?)))
    ensures |repos| > 0 ==> o.exitCode in {0, 2}
    ensures !o.installRan ==> o.configs == ConfigsOf(repos)
  {
    if |repos| == 0 then CheckOutcome(1, [], false, [])
    else
      var (checked, filesOk) := CheckAll(paths, PassesFor(repos));
      var configs := ConfigsOf(repos);
      if CallCheckLargeFilesWf in paths then
        var (tomlOk, after) := Install(configs);
        assert tomlOk <==> exists i :: 0 <= i < |repos| && repos[i].config.Some? by {
          if !tomlOk {
            forall i | 0 <= i < |repos|
              ensures repos[i].config.None?
            {
              assert configs[i].None?;
            }
          } else {
            var i :| 0 <= i < |configs| && configs[i].Some?;
            assert repos[i].config.Some?;
          }
        }
        CheckOutcome(if filesOk && tomlOk then 0 else 2, checked, true, after)
      else
        CheckOutcome(if filesOk then 0 else 2, checked, false, configs)
  }
}

=== FILE: audit_cli.dfy ===
/** The auditor's command line: the plain-text results table and the exit
    code of a run. Argument parsing, configuration loading and the
    self-updater are inputs here: their outcomes are parameters. */
module AuditCli {
  import opened Wrappers
  import opened PyStr
  import opened Auditor

  // ---------------------------------------------------------------------
  // Cells

  /** The table's columns: the repository, its update time, then one per
      configured item. */
  function Columns(items: seq<string>): (cols: seq<string>)
    ensures |cols| == |items| + 2
  {
    ["Repository", "Updated"] + items
  }

  /** "yes" when the item was found, "no" when it was not or was never
      probed. */
  function Mark(found: Found, item: string): (m: string)
    ensures m == "yes" <==> Get(found, item) == Some(true)
    ensures m == "yes" || m == "no"
  {
    if Get(found, item) == Some(true) then "yes" else "no"
  }

  /** The text of result `r` in column `j`; an absent update time shows as
      an empty cell. */
  function Cell(items: seq<string>, r: AuditResult, j: nat): string
    requires j < |items| + 2
  {
    if j == 0 then r.repository
    else if j == 1 then r.updatedAt.GetOr("")
    else Mark(r.found, items[j - 2])
  }

  function Row(items: seq<string>, r: AuditResult): (cells: seq<string>)
    ensures |cells| == |items| + 2
    ensures forall j :: 0 <= j < |items| + 2 ==> cells[j] == Cell(items, r, j)
  {
    seq(|items| + 2, j requires 0 <= j < |items| + 2 => Cell(items, r, j))
  }

  /** The cells of the table's body: one row per result. */
  function Grid(items: seq<string>, results: seq<AuditResult>): (grid: seq<seq<string>>)
    ensures |grid| == |results|
    ensures forall i :: 0 <= i < |results| ==> grid[i] == Row(items, results[i])
  {
    seq(|results|, i requires 0 <= i < |results| => Row(items, results[i]))
  }

  // ---------------------------------------------------------------------
  // Column widths

  function Max(a: nat, b: nat): nat {
    if a < b then b else a
  }

  /** `w` is the width of the columns named `name`: the longest of the
      name itself and of every cell in a column of that name. Columns that
      share a name share one width. */
  ghost predicate IsWidth(cols: seq<string>, grid: seq<seq<string>>, name: string, w: nat) {
    && w >= |name|
    && (forall i, j :: 0 <= i < |grid| && 0 <= j < |cols| && j < |grid[i]| && cols[j] == name ==>
          w >= |grid[i][j]|)
    && (|| w == |name|
        || exists i, j ::
             0 <= i < |grid| && 0 <= j < |cols| && j < |grid[i]| && cols[j] == name && w == |grid[i][j]|)
  }

  /** Cell (i', j) has been measured once the loop has done every column
      of the rows before `i` and the first `c` columns of row `i`. */
  predicate Measured(i': int, j: int, i: int, c: int) {
    i' < i || (i' == i && j < c)
  }

  /** Every measured cell of a column named `name` fits within `w`. */
  ghost predicate Bounds(cols: seq<string>, grid: seq<seq<string>>, name: string, w: nat, i: int, c: int) {
    forall i', j :: 0 <= i' < |grid| && 0 <= j < |cols| && j < |grid[i']| && Measured(i', j, i, c) && cols[j] == name ==>
      w >= |grid[i'][j]|
  }

  /** `w` is the length of `name` or of some measured cell of a column
      named `name`. */
  ghost predicate Attained(cols: seq<string>, grid: seq<seq<string>>, name: string, w: nat, i: int, c: int) {
    || w == |name|
    || exists i', j ::
         0 <= i' < |grid| && 0 <= j < |cols| && j < |grid[i']| && Measured(i', j, i, c) && cols[j] == name &&
         w == |grid[i'][j]|
  }

  /** Every row has one cell per column. */
  ghost predicate Rectangular(cols: seq<string>, grid: seq<seq<string>>) {
    forall i :: 0 <= i < |grid| ==> |grid[i]| == |cols|
  }

  /** Reference definition, one column name at a time: the width of
      `name` once the rows before `i` and the first `c` cells of row `i`
      are measured. */
  ghost function ColumnWidth(cols: seq<string>, grid: seq<seq<string>>, name: string, i: nat, c: nat): nat
    requires Rectangular(cols, grid) && i <= |grid| && c <= |cols| && (i == |grid| ==> c == 0)
    decreases i, c
  {
    if c > 0 then
      var w := ColumnWidth(cols, grid, name, i, c - 1);
      if cols[c - 1] == name then Max(w, |grid[i][c - 1]|) else w
    else if i > 0 then ColumnWidth(cols, grid, name, i - 1, |cols|)
    else |name|
  }

  /** The reference width covers the name and every measured cell of its
      columns, and is one of those lengths. */
  lemma {:induction false} ColumnWidthSoFar(cols: seq<string>, grid: seq<seq<string>>, name: string, i: nat, c: nat)
    requires Rectangular(cols, grid) && i <= |grid| && c <= |cols| && (i == |grid| ==> c == 0)
    ensures var w := ColumnWidth(cols, grid, name, i, c);
      w >= |name| && Bounds(cols, grid, name, w, i, c) && Attained(cols, grid, name, w, i, c)
    decreases i, c
  {
    if c > 0 {
      ColumnWidthSoFar(cols, grid, name, i, c - 1);
      ColumnStep(cols, grid, name, ColumnWidth(cols, grid, name, i, c - 1), i, c - 1);
    } else if i > 0 {
      ColumnWidthSoFar(cols, grid, name, i - 1, |cols|);
      RowStep(cols, grid, name, ColumnWidth(cols, grid, name, i - 1, |cols|), i - 1);
    }
  }

  /** Measuring cell (i, c) keeps the width covering and attained. */
  lemma ColumnStep(cols: seq<string>, grid: seq<seq<string>>, name: string, w: nat, i: nat, c: nat)
    requires i < |grid| && c < |cols| == |grid[i]|
    requires w >= |name| && Bounds(cols, grid, name, w, i, c) && Attained(cols, grid, name, w, i, c)
    ensures var nw := if cols[c] == name then Max(w, |grid[i][c]|) else w;
      nw >= |name| && Bounds(cols, grid, name, nw, i, c + 1) && Attained(cols, grid, name, nw, i, c + 1)
  {
    var nw := if cols[c] == name then Max(w, |grid[i][c]|) else w;
    if cols[c] == name && w < |grid[i][c]| {
      assert Measured(i, c, i, c + 1);
    } else if nw != |name| {
      var i', j :| 0 <= i' < |grid| && 0 <= j < |cols| && j < |grid[i']| &&
        Measured(i', j, i, c) && cols[j] == name && w == |grid[i'][j]|;
      assert Measured(i', j, i, c + 1);
    }
  }

  /** Finishing a row is starting the next. */
  lemma RowStep(cols: seq<string>, grid: seq<seq<string>>, name: string, w: nat, i: nat)
    requires Rectangular(cols, grid)
    requires Bounds(cols, grid, name, w, i, |cols|) && Attained(cols, grid, name, w, i, |cols|)
    ensures Bounds(cols, grid, name, w, i + 1, 0) && Attained(cols, grid, name, w, i + 1, 0)
  {
    if w != |name| {
      var i', j :| 0 <= i' < |grid| && 0 <= j < |cols| && j < |grid[i']| &&
        Measured(i', j, i, |cols|) && cols[j] == name && w == |grid[i'][j]|;
      assert Measured(i', j, i + 1, 0);
    }
  }

  /** The loop's map after the rows before `i` and the first `c` cells of
      row `i`: one entry per column name, holding its reference width. */
  ghost predicate Tracks(cols: seq<string>, grid: seq<seq<string>>, widths: map<string, nat>, i: nat, c: nat)
    requires Rectangular(cols, grid) && i <= |grid| && c <= |cols| && (i == |grid| ==> c == 0)
  {
    && (forall name :: name in widths <==> name in cols)
    && (forall name :: name in cols ==> widths[name] == ColumnWidth(cols, grid, name, i, c))
  }

  /** Before any row, every column is as wide as its header. */
  lemma TrackStart(cols: seq<string>, grid: seq<seq<string>>)
    requires Rectangular(cols, grid)
    ensures Tracks(cols, grid, map name | name in cols :: |name|, 0, 0)
  {
  }

  /** Measuring cell (i, c) raises its column's entry to the cell's length. */
  lemma TrackCell(cols: seq<string>, grid: seq<seq<string>>, widths: map<string, nat>, i: nat, c: nat)
    requires Rectangular(cols, grid) && i < |grid| && c < |cols|
    requires Tracks(cols, grid, widths, i, c)
    ensures Tracks(cols, grid, widths[cols[c] := Max(widths[cols[c]], |grid[i][c]|)], i, c + 1)
  {
  }

  /** Finishing a row is starting the next. */
  lemma TrackRow(cols: seq<string>, grid: seq<seq<string>>, widths: map<string, nat>, i: nat)
    requires Rectangular(cols, grid) && i < |grid|
    requires Tracks(cols, grid, widths, i, |cols|)
    ensures Tracks(cols, grid, widths, i + 1, 0)
  {
  }

  /** After the last row every width in the map is its column's width. */
  lemma AllMeasured(cols: seq<string>, grid: seq<seq<string>>, widths: map<string, nat>)
    requires Rectangular(cols, grid) && Tracks(cols, grid, widths, |grid|, 0)
    ensures forall name :: name in widths ==> IsWidth(cols, grid, name, widths[name])
  {
    forall name | name in widths
      ensures IsWidth(cols, grid, name, widths[name])
    {
      ColumnWidthSoFar(cols, grid, name, |grid|, 0);
    }
  }

  /** After the last cell of result `i` comes the first of result `i + 1`. */
  lemma ResultMeasured(items: seq<string>, results: seq<AuditResult>, i: nat, widths: map<string, nat>)
    requires i < |results| && Rectangular(Columns(items), Grid(items, results))
    requires Tracks(Columns(items), Grid(items, results), widths, i, 2 + |items|)
    ensures Tracks(Columns(items), Grid(items, results), widths, i + 1, 0)
  {
    TrackRow(Columns(items), Grid(items, results), widths, i);
  }

  /** After every result the map holds every column's width. */
  lemma AllResultsMeasured(items: seq<string>, results: seq<AuditResult>, widths: map<string, nat>)
    requires Rectangular(Columns(items), Grid(items, results))
    requires Tracks(Columns(items), Grid(items, results), widths, |results|, 0)
    ensures forall name :: name in widths <==> name in Columns(items)
    ensures forall name :: name in widths ==> IsWidth(Columns(items), Grid(items, results), name, widths[name])
  {
    AllMeasured(Columns(items), Grid(items, results), widths);
  }

  /** Measuring the repository and update-time cells of result `i` is the
      loop's first two steps of row `i`. */
  lemma FixedMeasured(items: seq<string>, results: seq<AuditResult>, i: nat, widths: map<string, nat>)
    requires i < |results| && Rectangular(Columns(items), Grid(items, results))
    requires Tracks(Columns(items), Grid(items, results), widths, i, 0)
    ensures var r := results[i];
      var w1 := widths["Repository" := Max(widths["Repository"], |r.repository|)];
      Tracks(Columns(items), Grid(items, results), w1["Updated" := Max(w1["Updated"], |r.updatedAt.GetOr("")|)], i, 2)
  {
    var cols := Columns(items);
    var grid := Grid(items, results);
    assert cols[0] == "Repository" && cols[1] == "Updated";
    assert grid[i][0] == results[i].repository && grid[i][1] == results[i].updatedAt.GetOr("");
    TrackCell(cols, grid, widths, i, 0);
    var w1 := widths["Repository" := Max(widths["Repository"], |results[i].repository|)];
    TrackCell(cols, grid, w1, i, 1);
  }

  /** Measuring item `k` of result `i` is the loop's step for its cell. */
  lemma ItemMeasured(items: seq<string>, results: seq<AuditResult>, i: nat, k: nat, widths: map<string, nat>)
    requires i < |results| && k < |items| && Rectangular(Columns(items), Grid(items, results))
    requires Tracks(Columns(items), Grid(items, results), widths, i, 2 + k)
    ensures Tracks(Columns(items), Grid(items, results),
                   widths[items[k] := Max(widths[items[k]], |Mark(results[i].found, items[k])|)], i, 2 + (k + 1))
  {
    var cols := Columns(items);
    var grid := Grid(items, results);
    assert cols[2 + k] == items[k];
    assert grid[i][2 + k] == Mark(results[i].found, items[k]);
    TrackCell(cols, grid, widths, i, 2 + k);
  }

  /** The width computation of `_format_table`: every column starts at
      its header's length, then each result widens the repository and
      update-time columns and each item's column in turn. */
  method ComputeWidths(items: seq<string>, results: seq<AuditResult>) returns (widths: map<string, nat>)
    ensures forall name :: name in widths <==> name in Columns(items)
    ensures forall name :: name in widths ==> IsWidth(Columns(items), Grid(items, results), name, widths[name])
  {
    var cols := Columns(items);
    var grid := Grid(items, results);
    assert Rectangular(cols, grid);
    widths := map name | name in cols :: |name|;
    TrackStart(cols, grid);
    for i := 0 to |results|
      invariant Tracks(cols, grid, widths, i, 0)
    {
      var r := results[i];
      FixedMeasured(items, results, i, widths);
      widths := widths["Repository" := Max(widths["Repository"], |r.repository|)];
      widths := widths["Updated" := Max(widths["Updated"], |r.updatedAt.GetOr("")|)];
      for k := 0 to |items|
        invariant Tracks(cols, grid, widths, i, 2 + k)
      {
        var mark := Mark(r.found, items[k]);
        ItemMeasured(items, results, i, k, widths);
        widths := widths[items[k] := Max(widths[items[k]], |mark|)];
      }
      ResultMeasured(items, results, i, widths);
    }
    AllResultsMeasured(items, results, widths);
  }

  // ---------------------------------------------------------------------
  // Fixed-width layout

  /** `s.ljust(w)`. */
  function LJust(s: string, w: nat): (r: string)
    ensures |r| == Max(|s|, w)
    ensures r[..|s|] == s
    ensures forall k :: |s| <= k < |r| ==> r[k] == ' '
  {
    if |s| < w then s + seq(w - |s|, _ => ' ') else s
  }

  function Dashes(w: nat): (r: string)
    ensures |r| == w && forall k :: 0 <= k < w ==> r[k] == '-'
  {
    seq(w, _ => '-')
  }

  function Sum(ws: seq<nat>): nat {
    if |ws| == 0 then 0 else ws[0] + Sum(ws[1..])
  }

  /** Where part `j` starts when parts of widths `ws` are joined by a
      separator of length `sepLen`. */
  function Offset(ws: seq<nat>, sepLen: nat, j: nat): nat
    requires j <= |ws|
  {
    if j == 0 then 0 else ws[0] + sepLen + Offset(ws[1..], sepLen, j - 1)
  }

  ghost predicate HasWidths(parts: seq<string>, ws: seq<nat>) {
    |parts| == |ws| && forall j :: 0 <= j < |ws| ==> |parts[j]| == ws[j]
  }

  lemma SliceShift(a: string, b: string, x: nat, y: nat)
    requires x <= y <= |b|
    ensures (a + b)[|a| + x..|a| + y] == b[x..y]
  {
  }

  /** Joined parts of known widths add up to their widths and the
      separators between them. */
  lemma {:induction false} JoinLength(sep: string, parts: seq<string>, ws: seq<nat>)
    requires |parts| > 0 && HasWidths(parts, ws)
    ensures |Join(sep, parts)| == Sum(ws) + |sep| * (|parts| - 1)
    decreases |parts|
  {
    if |parts| > 1 {
      assert HasWidths(parts[1..], ws[1..]);
      JoinLength(sep, parts[1..], ws[1..]);
    }
  }

  /** Part `j` of joined parts of known widths starts at its offset. */
  lemma {:induction false} JoinPartAt(sep: string, parts: seq<string>, ws: seq<nat>, j: nat)
    requires j < |parts| && HasWidths(parts, ws)
    ensures Offset(ws, |sep|, j) + ws[j] <= |Join(sep, parts)|
    ensures Join(sep, parts)[Offset(ws, |sep|, j)..Offset(ws, |sep|, j) + ws[j]] == parts[j]
    decreases j
  {
    var whole := Join(sep, parts);
    if j == 0 {
      assert StartsWith(whole, parts[0]);
      assert |parts[0]| == ws[0];
    } else {
      var head := parts[0] + sep;
      var tail := Join(sep, parts[1..]);
      assert whole == head + tail;
      assert HasWidths(parts[1..], ws[1..]);
      JoinPartAt(sep, parts[1..], ws[1..], j - 1);
      var o := Offset(ws[1..], |sep|, j - 1);
      assert ws[1..][j - 1] == ws[j] && parts[1..][j - 1] == parts[j];
      assert Offset(ws, |sep|, j) == |head| + o;
      SliceShift(head, tail, o, o + ws[j]);
    }
  }

  /** The separator after part `j` follows it directly and ends where
      part `j + 1` starts. */
  lemma {:induction false} JoinSepAt(sep: string, parts: seq<string>, ws: seq<nat>, j: nat)
    requires j + 1 < |parts| && HasWidths(parts, ws)
    ensures Offset(ws, |sep|, j) + ws[j] + |sep| == Offset(ws, |sep|, j + 1) <= |Join(sep, parts)|
    ensures Join(sep, parts)[Offset(ws, |sep|, j) + ws[j]..Offset(ws, |sep|, j + 1)] == sep
    decreases j
  {
    var head := parts[0] + sep;
    var tail := Join(sep, parts[1..]);
    assert Join(sep, parts) == head + tail;
    assert HasWidths(parts[1..], ws[1..]);
    if j > 0 {
      JoinSepAt(sep, parts[1..], ws[1..], j - 1);
      var o := Offset(ws[1..], |sep|, j - 1);
      assert ws[1..][j - 1] == ws[j];
      assert Offset(ws, |sep|, j) == |head| + o;
      assert Offset(ws, |sep|, j + 1) == |head| + Offset(ws[1..], |sep|, j);
      SliceShift(head, tail, o + ws[j], o + ws[j] + |sep|);
    } else {
      assert Offset(ws[1..], |sep|, 0) == 0;
      assert |parts[0]| == ws[0];
      assert head[ws[0]..] == sep;
    }
  }

  // ---------------------------------------------------------------------
  // The table

  /** The width of each column, in column order. */
  function ColumnWidths(cols: seq<string>, widths: map<string, nat>): (ws: seq<nat>)
    requires forall name :: name in cols ==> name in widths
    ensures |ws| == |cols| && forall j :: 0 <= j < |cols| ==> ws[j] == widths[cols[j]]
  {
    seq(|cols|, j requires 0 <= j < |cols| => widths[cols[j]])
  }

  /** The values left-justified to their columns' widths. */
  function Padded(values: seq<string>, ws: seq<nat>): (ps: seq<string>)
    requires |values| == |ws|
    ensures |ps| == |ws| && forall j :: 0 <= j < |ws| ==> ps[j] == LJust(values[j], ws[j])
  {
    seq(|values|, j requires 0 <= j < |values| => LJust(values[j], ws[j]))
  }

  /** `format_row`: the padded values joined by " | ". */
  function FormatRow(values: seq<string>, ws: seq<nat>): string
    requires |values| == |ws|
  {
    Join(" | ", Padded(values, ws))
  }

  function DashParts(ws: seq<nat>): (ps: seq<string>)
    ensures |ps| == |ws| && forall j :: 0 <= j < |ws| ==> ps[j] == Dashes(ws[j])
  {
    seq(|ws|, j requires 0 <= j < |ws| => Dashes(ws[j]))
  }

  function Divider(ws: seq<nat>): string {
    Join("-+-", DashParts(ws))
  }

  /** The lines of the table: the header, the divider, one per result. */
  function TableLines(items: seq<string>, results: seq<AuditResult>, ws: seq<nat>): (lines: seq<string>)
    requires |ws| == |items| + 2
    ensures |lines| == |results| + 2
  {
    [FormatRow(Columns(items), ws), Divider(ws)]
      + seq(|results|, i requires 0 <= i < |results| => FormatRow(Row(items, results[i]), ws))
  }

  /** What line `t` of the table holds in column `j`: the header, the
      divider's dashes, or result `t - 2`'s cell, padded to the width. */
  function Slot(items: seq<string>, results: seq<AuditResult>, ws: seq<nat>, t: nat, j: nat): string
    requires t < |results| + 2 && j < |items| + 2 && |ws| == |items| + 2
  {
    if t == 0 then LJust(Columns(items)[j], ws[j])
    else if t == 1 then Dashes(ws[j])
    else LJust(Cell(items, results[t - 2], j), ws[j])
  }

  /** The separator line `t` puts between columns. */
  function Separator(t: nat): string {
    if t == 1 then "-+-" else " | "
  }

  /** Column widths that are the columns' widths. */
  ghost predicate Fits(items: seq<string>, results: seq<AuditResult>, ws: seq<nat>) {
    |ws| == |items| + 2 &&
    forall j :: 0 <= j < |ws| ==>
      ws[j] >= |Columns(items)[j]| &&
      forall i :: 0 <= i < |results| ==> ws[j] >= |Cell(items, results[i], j)|
  }

  /** The padded entries of line `t`, column by column. */
  function SlotParts(items: seq<string>, results: seq<AuditResult>, ws: seq<nat>, t: nat): (ps: seq<string>)
    requires t < |results| + 2 && |ws| == |items| + 2
    ensures |ps| == |ws| && forall j :: 0 <= j < |ws| ==> ps[j] == Slot(items, results, ws, t, j)
  {
    seq(|ws|, j requires 0 <= j < |ws| => Slot(items, results, ws, t, j))
  }

  /** With fitting widths, every padded entry is exactly as wide as its
      column. */
  lemma SlotWidths(items: seq<string>, results: seq<AuditResult>, ws: seq<nat>, t: nat)
    requires t < |results| + 2 && Fits(items, results, ws)
    ensures HasWidths(SlotParts(items, results, ws, t), ws)
  {
    forall j | 0 <= j < |ws|
      ensures |Slot(items, results, ws, t, j)| == ws[j]
    {
      if t >= 2 {
        assert ws[j] >= |Cell(items, results[t - 2], j)|;
      }
    }
  }

  /** Line `t` is its padded entries joined by its separator. */
  lemma LineIsJoin(items: seq<string>, results: seq<AuditResult>, ws: seq<nat>, t: nat)
    requires t < |results| + 2 && |ws| == |items| + 2
    ensures TableLines(items, results, ws)[t] == Join(Separator(t), SlotParts(items, results, ws, t))
  {
    var lines := TableLines(items, results, ws);
    if t == 0 {
      assert lines[0] == FormatRow(Columns(items), ws);
      HeaderIsJoin(items, results, ws);
    } else if t == 1 {
      assert lines[1] == Divider(ws);
      DividerIsJoin(items, results, ws);
    } else {
      RowLine(items, results, ws, t);
      RowIsJoin(items, results, ws, t);
    }
  }

  /** Line `t` past the header and the divider formats result `t - 2`. */
  lemma RowLine(items: seq<string>, results: seq<AuditResult>, ws: seq<nat>, t: nat)
    requires 2 <= t < |results| + 2 && |ws| == |items| + 2
    ensures TableLines(items, results, ws)[t] == FormatRow(Row(items, results[t - 2]), ws)
  {
    var body := seq(|results|, i requires 0 <= i < |results| => FormatRow(Row(items, results[i]), ws));
    assert TableLines(items, results, ws) == [FormatRow(Columns(items), ws), Divider(ws)] + body;
    assert body[t - 2] == FormatRow(Row(items, results[t - 2]), ws);
  }

  lemma HeaderIsJoin(items: seq<string>, results: seq<AuditResult>, ws: seq<nat>)
    requires |ws| == |items| + 2
    ensures Padded(Columns(items), ws) == SlotParts(items, results, ws, 0)
  {
    var padded := Padded(Columns(items), ws);
    var parts := SlotParts(items, results, ws, 0);
    forall j | 0 <= j < |ws|
      ensures padded[j] == parts[j]
    {
    }
    SameParts(padded, parts);
  }

  lemma DividerIsJoin(items: seq<string>, results: seq<AuditResult>, ws: seq<nat>)
    requires |ws| == |items| + 2
    ensures DashParts(ws) == SlotParts(items, results, ws, 1)
  {
    var dashes := DashParts(ws);
    var parts := SlotParts(items, results, ws, 1);
    forall j | 0 <= j < |ws|
      ensures dashes[j] == parts[j]
    {
    }
    SameParts(dashes, parts);
  }

  lemma RowIsJoin(items: seq<string>, results: seq<AuditResult>, ws: seq<nat>, t: nat)
    requires 2 <= t < |results| + 2 && |ws| == |items| + 2
    ensures Padded(Row(items, results[t - 2]), ws) == SlotParts(items, results, ws, t)
  {
    var padded := Padded(Row(items, results[t - 2]), ws);
    var parts := SlotParts(items, results, ws, t);
    forall j | 0 <= j < |ws|
      ensures padded[j] == parts[j]
    {
    }
    SameParts(padded, parts);
  }

  /** Sequences that agree everywhere are equal. */
  lemma SameParts(a: seq<string>, b: seq<string>)
    requires |a| == |b| && forall j :: 0 <= j < |a| ==> a[j] == b[j]
    ensures a == b
  {
  }

  /** Every line of the table has the same length. */
  lemma LineLength(items: seq<string>, results: seq<AuditResult>, ws: seq<nat>, t: nat)
    requires t < |results| + 2 && Fits(items, results, ws)
    ensures |TableLines(items, results, ws)[t]| == Sum(ws) + 3 * (|items| + 1)
  {
    LineIsJoin(items, results, ws, t);
    SlotWidths(items, results, ws, t);
    JoinLength(Separator(t), SlotParts(items, results, ws, t), ws);
  }

  /** Column `j` of line `t` sits at the column's offset. */
  lemma SlotAt(items: seq<string>, results: seq<AuditResult>, ws: seq<nat>, t: nat, j: nat)
    requires t < |results| + 2 && j < |items| + 2 && Fits(items, results, ws)
    ensures var line := TableLines(items, results, ws)[t];
      Offset(ws, 3, j) + ws[j] <= |line| &&
      line[Offset(ws, 3, j)..Offset(ws, 3, j) + ws[j]] == Slot(items, results, ws, t, j)
  {
    LineIsJoin(items, results, ws, t);
    SlotWidths(items, results, ws, t);
    JoinPartAt(Separator(t), SlotParts(items, results, ws, t), ws, j);
  }

  /** Between columns `j` and `j + 1`, line `t` holds its separator. */
  lemma SeparatorAt(items: seq<string>, results: seq<AuditResult>, ws: seq<nat>, t: nat, j: nat)
    requires t < |results| + 2 && j + 1 < |items| + 2 && Fits(items, results, ws)
    ensures var line := TableLines(items, results, ws)[t];
      Offset(ws, 3, j) + ws[j] + 3 == Offset(ws, 3, j + 1) <= |line| &&
      line[Offset(ws, 3, j) + ws[j]..Offset(ws, 3, j + 1)] == Separator(t)
  {
    LineIsJoin(items, results, ws, t);
    SlotWidths(items, results, ws, t);
    JoinSepAt(Separator(t), SlotParts(items, results, ws, t), ws, j);
  }

  /** `_format_table`: a header line, a divider, then one line per
      result, joined by newlines. Every column is as wide as its longest
      entry; every line has the same length, with each column at the same
      offset holding its entry left-justified and the separators between. */
  method FormatTable(items: seq<string>, results: seq<AuditResult>)
    returns (ws: seq<nat>, lines: seq<string>, table: string)
    ensures |ws| == |items| + 2
    ensures forall j :: 0 <= j < |ws| ==> IsWidth(Columns(items), Grid(items, results), Columns(items)[j], ws[j])
    ensures lines == TableLines(items, results, ws) && table == Join("\n", lines)
    ensures forall t :: 0 <= t < |lines| ==> LaidOut(items, results, ws, t, lines[t])
  {
    var widths := ComputeWidths(items, results);
    var cols := Columns(items);
    ws := ColumnWidths(cols, widths);
    lines := TableLines(items, results, ws);
    table := Join("\n", lines);
    WidthsFit(items, results, widths, ws);
    forall t | 0 <= t < |lines|
      ensures LaidOut(items, results, ws, t, lines[t])
    {
      LineLaidOut(items, results, ws, t);
    }
  }

  /** Line `t` has the table's common length and holds each column's padded
      entry at the column's offset. */
  ghost predicate LaidOut(items: seq<string>, results: seq<AuditResult>, ws: seq<nat>, t: nat, line: string)
    requires t < |results| + 2 && |ws| == |items| + 2
  {
    |line| == Sum(ws) + 3 * (|items| + 1) &&
    forall j :: 0 <= j < |items| + 2 ==>
      Offset(ws, 3, j) + ws[j] <= |line| &&
      line[Offset(ws, 3, j)..Offset(ws, 3, j) + ws[j]] == Slot(items, results, ws, t, j)
  }

  /** With fitting widths, every line of the table is laid out. */
  lemma LineLaidOut(items: seq<string>, results: seq<AuditResult>, ws: seq<nat>, t: nat)
    requires t < |results| + 2 && Fits(items, results, ws)
    ensures LaidOut(items, results, ws, t, TableLines(items, results, ws)[t])
  {
    var line := TableLines(items, results, ws)[t];
    LineLength(items, results, ws, t);
    forall j | 0 <= j < |items| + 2
      ensures Offset(ws, 3, j) + ws[j] <= |line|
      ensures line[Offset(ws, 3, j)..Offset(ws, 3, j) + ws[j]] == Slot(items, results, ws, t, j)
    {
      SlotAt(items, results, ws, t, j);
    }
  }

  /** The computed widths fit every header and cell. */
  lemma WidthsFit(items: seq<string>, results: seq<AuditResult>, widths: map<string, nat>, ws: seq<nat>)
    requires forall name :: name in widths <==> name in Columns(items)
    requires forall name :: name in widths ==> IsWidth(Columns(items), Grid(items, results), name, widths[name])
    requires ws == ColumnWidths(Columns(items), widths)
    ensures Fits(items, results, ws)
    ensures forall j :: 0 <= j < |ws| ==> IsWidth(Columns(items), Grid(items, results), Columns(items)[j], ws[j])
  {
    var cols := Columns(items);
    var grid := Grid(items, results);
    forall j | 0 <= j < |ws|
      ensures ws[j] >= |cols[j]|
      ensures forall i :: 0 <= i < |results| ==> ws[j] >= |Cell(items, results[i], j)|
    {
      assert IsWidth(cols, grid, cols[j], ws[j]);
      forall i | 0 <= i < |results|
        ensures ws[j] >= |Cell(items, results[i], j)|
      {
        assert grid[i][j] == Cell(items, results[i], j);
      }
    }
  }

  // ---------------------------------------------------------------------
  // main

  /** What a run leaves behind: its exit code, what it wrote, and whether
      it asked the self-updater. */
  datatype CliOutcome = CliOutcome(exitCode: int, output: string, updaterCalled: bool)

  /** `main` once the arguments are parsed. `updater` is what the
      self-updater did (returned, or raised); `config` is the loaded
      configuration's `check_items`, or the ConfigError's message. */
  method RunCli(selfUpdate: bool, updater: Result<bool>, config: Result<Option<seq<string>>>,
                api: Api, user: string, limit: int)
    returns (o: CliOutcome)
    ensures o.updaterCalled == selfUpdate
    ensures o.exitCode == 0 || o.exitCode == 1
    ensures config.Failure? ==>
      o == CliOutcome(1, "Failed to load configuration: " + config.exception + "\n", selfUpdate)
    ensures config.Success? && (config.value.None? || config.value.value == []) ==>
      o == CliOutcome(1, "No check_items configured.\n", selfUpdate)
    ensures o.exitCode == 0 <==>
      && config.Success? && config.value.Some? && config.value.value != []
      && AuditUserRepositories(api, user, config.value.value, limit).Success?
    ensures config.Success? && config.value.Some? && config.value.value != [] ==>
      var audit := AuditUserRepositories(api, user, config.value.value, limit);
      && (audit.Failure? ==> o.output == "Audit failed: " + audit.exception + "\n")
      && (audit.Success? && audit.value == [] ==> o.output == "No repositories found for the user.\n")
      && (audit.Success? && audit.value != [] ==> |o.output| > 0 && o.output[|o.output| - 1] == '\n')
    ensures config.Success? && config.value.Some? && config.value.value != [] ==>
      var items := config.value.value;
      var audit := AuditUserRepositories(api, user, items, limit);
      audit.Success? && audit.value != [] ==>
        exists ws: seq<nat> ::
          && |ws| == |items| + 2
          && (forall j :: 0 <= j < |ws| ==> IsWidth(Columns(items), Grid(items, audit.value), Columns(items)[j], ws[j]))
          && o.output == Join("\n", TableLines(items, audit.value, ws)) + "\n"
  {
    var called := false;
    if selfUpdate {
      called := true;
      match updater
      case Success(_) =>
      case Failure(_) =>
    }
    if config.Failure? {
      return CliOutcome(1, "Failed to load configuration: " + config.exception + "\n", called);
    }
    var items := config.value.GetOr([]);
    if items == [] {
      return CliOutcome(1, "No check_items configured.\n", called);
    }
    var audit := AuditUserRepositories(api, user, items, limit);
    if audit.Failure? {
      return CliOutcome(1, "Audit failed: " + audit.exception + "\n", called);
    }
    if audit.value == [] {
      return CliOutcome(0, "No repositories found for the user.\n", called);
    }
    var ws, _, table := FormatTable(items, audit.value);
    assert table + "\n" == Join("\n", TableLines(items, audit.value, ws)) + "\n";
    return CliOutcome(0, table + "\n", called);
  }
}

=== FILE: auditor.dfy ===
/** The auditor's GitHub client and its per-repository audit: which of
    the configured paths each of a user's repositories holds. The GitHub
    REST API is a parameter: for every request it stands for the status
    code and, for the repository listing, the decoded JSON body. */
module Auditor {
  import opened Wrappers
  import opened Seqs
  import opened Ordering

  // ---------------------------------------------------------------------
  // The `found` dictionary

  /** A Python `dict[str, bool]`: its items in insertion order. */
  type Found = seq<(string, bool)>

  /** The keys of a list of key/value pairs, in order: a dict's keys, or
      the names of a header list. */
  function Keys<V>(f: seq<(string, V)>): (ks: seq<string>)
    ensures |ks| == |f| && forall k :: 0 <= k < |f| ==> ks[k] == f[k].0
  {
    if |f| == 0 then [] else [f[0].0] + Keys(f[1..])
  }

  /** No key occurs twice, as in every Python dict. */
  ghost predicate UniqueKeys(f: Found) {
    forall a, b :: 0 <= a < b < |f| ==> f[a].0 != f[b].0
  }

  /** `f.get(key)`. */
  function Get(f: Found, key: string): (r: Option<bool>)
    ensures r.None? <==> key !in Keys(f)
    ensures r.Some? ==> (key, r.value) in f
  {
    if |f| == 0 then None
    else if f[0].0 == key then Some(f[0].1)
    else Get(f[1..], key)
  }

  /** `f[key] = v`: a present key keeps its place and takes the new value;
      a new key goes last. */
  function Put(f: Found, key: string, v: bool): (r: Found)
    ensures key !in Keys(f) ==> r == f + [(key, v)]
    ensures Keys(r) == if key in Keys(f) then Keys(f) else Keys(f) + [key]
    decreases |f|
  {
    if |f| == 0 then [(key, v)]
    else if f[0].0 == key then [(key, v)] + f[1..]
    else
      assert Keys(f) == [f[0].0] + Keys(f[1..]);
      [f[0]] + Put(f[1..], key, v)
  }

  /** After `f[key] = v`, looking `key` up gives `v` and every other key
      gives what it gave before. */
  lemma {:induction false} PutGet(f: Found, key: string, v: bool)
    ensures Get(Put(f, key, v), key) == Some(v)
    ensures forall k :: k != key ==> Get(Put(f, key, v), k) == Get(f, k)
    decreases |f|
  {
    if |f| > 0 {
      var r := Put(f, key, v);
      if f[0].0 == key {
        assert r == [(key, v)] + f[1..];
        assert r[1..] == f[1..];
      } else {
        PutGet(f[1..], key, v);
        assert r == [f[0]] + Put(f[1..], key, v);
        assert r[1..] == Put(f[1..], key, v);
      }
    }
  }

  /** Assigning keeps the keys unique. */
  lemma PutUnique(f: Found, key: string, v: bool)
    requires UniqueKeys(f)
    ensures UniqueKeys(Put(f, key, v))
  {
    var r := Put(f, key, v);
    assert forall a, b :: 0 <= a < b < |r| ==> r[a].0 == Keys(r)[a] && r[b].0 == Keys(r)[b];
    assert forall a, b :: 0 <= a < b < |f| ==> Keys(f)[a] != Keys(f)[b];
  }

  // ---------------------------------------------------------------------
  // AuditResult

  datatype AuditResult = AuditResult(repository: string, updatedAt: Option<string>, found: Found)

  /** The keys whose value is false, in key order. */
  function MissingOf(f: Found): (ms: seq<string>)
    ensures |ms| <= |f|
    ensures forall m :: m in ms <==> (m, false) in f
  {
    if |f| == 0 then []
    else (if f[0].1 then [] else [f[0].0]) + MissingOf(f[1..])
  }

  /** In a dict, an item is present exactly when looking its key up gives
      its value. */
  lemma {:induction false} GetItems(f: Found)
    requires UniqueKeys(f)
    ensures forall key, v :: (key, v) in f <==> Get(f, key) == Some(v)
    decreases |f|
  {
    if |f| > 0 {
      GetItems(f[1..]);
      forall key, v
        ensures (key, v) in f <==> Get(f, key) == Some(v)
      {
        if (key, v) in f && key != f[0].0 {
          assert (key, v) in f[1..];
        }
      }
    }
  }

  /** `AuditResult.missing`: the keys looked up as false, each once, in
      key order. */
  function Missing(r: AuditResult): (ms: seq<string>)
    requires UniqueKeys(r.found)
    ensures forall m :: m in ms <==> Get(r.found, m) == Some(false)
    ensures |ms| <= |r.found|
  {
    GetItems(r.found);
    MissingOf(r.found)
  }

  // ---------------------------------------------------------------------
  // The GitHub client

  /** `Response.raise_for_status` raises for client (4xx) and server
      (5xx) error statuses and for no other. */
  predicate IsHttpError(status: int) {
    400 <= status < 600
  }

  /** A repository object of the listing: its `name` and `pushed_at`
      fields, when present. */
  datatype RepoRecord = RepoRecord(name: Option<string>, pushedAt: Option<string>)

  /** The answer to the listing request: its status, and its body when it
      decodes as JSON. */
  datatype Listing = Listing(status: int, body: Option<seq<RepoRecord>>)

  /** The API: the listing answer for (user, per_page), and the status of
      the contents request for (owner, repository, path). */
  datatype Api = Api(listing: (string, int) -> Listing, contents: (string, string, string) -> int)

  /** The record `list_repositories` makes of a repository. */
  datatype RepoInfo = RepoInfo(name: string, updatedAt: Option<string>)

  const AcceptHeader: (string, string) := ("Accept", "application/vnd.github.v3+json")
  const UserAgentHeader: (string, string) := ("User-Agent", "cat-repo-auditor/0.1")

  /** Python truthiness of an optional string. */
  predicate Truthy(t: Option<string>) {
    t.Some? && |t.value| > 0
  }

  /** `token or os.getenv("GITHUB_TOKEN")`, the environment's value given. */
  function ResolveToken(explicit: Option<string>, env: Option<string>): (t: Option<string>)
    ensures Truthy(t) <==> Truthy(explicit) || Truthy(env)
    ensures Truthy(explicit) ==> t == explicit
    ensures !Truthy(explicit) ==> t == env
  {
    if Truthy(explicit) then explicit else env
  }

  /** `_headers`: the two fixed headers, then a bearer authorisation
      exactly when the token is a non-empty string. */
  function Headers(token: Option<string>): (h: seq<(string, string)>)
    ensures |h| >= 2 && h[0] == AcceptHeader && h[1] == UserAgentHeader
    ensures "Authorization" in Keys(h) <==> Truthy(token)
    ensures Truthy(token) ==> h[|h| - 1] == ("Authorization", "Bearer " + token.value)
  {
    var base := [AcceptHeader, UserAgentHeader];
    assert Keys(base) == ["Accept", "User-Agent"];
    if Truthy(token) then
      var h := base + [("Authorization", "Bearer " + token.value)];
      assert Keys(h)[2] == "Authorization";
      h
    else base
  }

  /** `list_repositories`: an error status raises HTTPError, a body that is
      not JSON raises ValueError, otherwise one record per repository in
      the listing's order, its name defaulting to "" and its update time
      being the push time. */
  function ListRepositories(api: Api, user: string, limit: int): (r: Result<seq<RepoInfo>>)
    ensures IsHttpError(api.listing(user, limit).status) ==> r == Failure("HTTPError")
    ensures !IsHttpError(api.listing(user, limit).status) && api.listing(user, limit).body.None? ==>
      r == Failure("ValueError")
    ensures r.Success? <==> !IsHttpError(api.listing(user, limit).status) && api.listing(user, limit).body.Some?
    ensures r.Success? ==> |r.value| == |api.listing(user, limit).body.value|
    ensures r.Success? ==> forall k :: 0 <= k < |r.value| ==>
      var rec := api.listing(user, limit).body.value[k];
      && (rec.name.Some? ==> r.value[k].name == rec.name.value)
      && (rec.name.None? ==> r.value[k].name == "")
      && r.value[k].updatedAt == rec.pushedAt
  {
    var resp := api.listing(user, limit);
    if IsHttpError(resp.status) then Failure("HTTPError")
    else match resp.body
      case None => Failure("ValueError")
      case Some(rs) => Success(seq(|rs|, k requires 0 <= k < |rs| => RepoInfo(rs[k].name.GetOr(""), rs[k].pushedAt)))
  }

  /** `path_exists`: 200 means present and 404 absent; any other error
      status raises HTTPError; every remaining status means absent. */
  function PathExists(api: Api, user: string, repo: string, path: string): (r: Result<bool>)
    ensures r == Success(true) <==> api.contents(user, repo, path) == 200
    ensures r.Failure? <==> IsHttpError(api.contents(user, repo, path)) && api.contents(user, repo, path) != 404
    ensures r.Failure? ==> r.exception == "HTTPError"
  {
    var status := api.contents(user, repo, path);
    if status == 200 then Success(true)
    else if status == 404 then Success(false)
    else if IsHttpError(status) then Failure("HTTPError")
    else Success(false)
  }

  /** Some probe of `items` in `repo` raises. */
  ghost predicate ProbeFails(api: Api, user: string, repo: string, items: seq<string>) {
    exists item :: item in items && PathExists(api, user, repo, item).Failure?
  }

  /** `{item: path_exists(user, repo, item) for item in items}`, probing
      the items in order and stopping at the first that raises. */
  function BuildFound(api: Api, user: string, repo: string, items: seq<string>): (r: Result<Found>)
    ensures r.Failure? <==> ProbeFails(api, user, repo, items)
    ensures r.Success? ==> UniqueKeys(r.value)
    ensures r.Success? ==> forall k :: k in Keys(r.value) <==> k in items
    ensures r.Success? ==> forall item :: item in items ==>
      Get(r.value, item) == Some(api.contents(user, repo, item) == 200)
    ensures r.Success? && Distinct(items) ==> Keys(r.value) == items
    decreases |items|
  {
    if |items| == 0 then Success([])
    else
      var n := |items|;
      var init := items[..n - 1];
      assert items == init + [items[n - 1]];
      var f :- BuildFound(api, user, repo, init);
      var v :- PathExists(api, user, repo, items[n - 1]);
      PutGet(f, items[n - 1], v);
      PutUnique(f, items[n - 1], v);
      Success(Put(f, items[n - 1], v))
  }

  /** The audit loop over the listed repositories, in order. */
  function AuditRepos(api: Api, user: string, repos: seq<RepoInfo>, items: seq<string>): (r: Result<seq<AuditResult>>)
    ensures r.Failure? <==> exists k :: 0 <= k < |repos| && ProbeFails(api, user, repos[k].name, items)
    ensures r.Success? ==> |r.value| == |repos|
    ensures r.Success? ==> forall k :: 0 <= k < |repos| ==>
      && r.value[k].repository == repos[k].name
      && r.value[k].updatedAt == repos[k].updatedAt
      && BuildFound(api, user, repos[k].name, items) == Success(r.value[k].found)
    decreases |repos|
  {
    if |repos| == 0 then Success([])
    else
      var f :- BuildFound(api, user, repos[0].name, items);
      var rest :- AuditRepos(api, user, repos[1..], items);
      Success([AuditResult(repos[0].name, repos[0].updatedAt, f)] + rest)
  }

  /** `audit_user_repositories`: list the repositories, then probe every
      configured path in each; the first exception ends the audit. */
  function AuditUserRepositories(api: Api, user: string, items: seq<string>, limit: int): (r: Result<seq<AuditResult>>)
    ensures ListRepositories(api, user, limit).Failure? ==> r.Failure?
    ensures r.Success? ==> |r.value| == |ListRepositories(api, user, limit).value|
    ensures r.Success? ==> forall k :: 0 <= k < |r.value| ==>
      var info := ListRepositories(api, user, limit).value[k];
      && r.value[k].repository == info.name
      && r.value[k].updatedAt == info.updatedAt
      && UniqueKeys(r.value[k].found)
      && (forall item :: item in Keys(r.value[k].found) <==> item in items)
      && (forall item :: item in items ==>
            Get(r.value[k].found, item) == Some(api.contents(user, info.name, item) == 200))
    ensures r.Failure? && ListRepositories(api, user, limit).Success? ==>
      exists k :: 0 <= k < |ListRepositories(api, user, limit).value| &&
        ProbeFails(api, user, ListRepositories(api, user, limit).value[k].name, items)
  {
    var repos :- ListRepositories(api, user, limit);
    AuditRepos(api, user, repos, items)
  }

  // ---------------------------------------------------------------------
  // What is missing

  lemma {:induction false} MissingAppend(f: Found, e: (string, bool))
    ensures MissingOf(f + [e]) == MissingOf(f) + (if e.1 then [] else [e.0])
    decreases |f|
  {
    var tail: seq<string> := if e.1 then [] else [e.0];
    if |f| == 0 {
      assert f + [e] == [e] && [e][1..] == [];
      assert MissingOf([e]) == tail + [];
    } else {
      var head: seq<string> := if f[0].1 then [] else [f[0].0];
      assert (f + [e])[0] == f[0];
      assert (f + [e])[1..] == f[1..] + [e];
      MissingAppend(f[1..], e);
      calc {
        MissingOf(f + [e]);
        head + MissingOf(f[1..] + [e]);
        head + (MissingOf(f[1..]) + tail);
        (head + MissingOf(f[1..])) + tail;
        MissingOf(f) + tail;
      }
    }
  }

  /** The test `missing` applies to an item of `repo`: its probe did not
      answer 200. */
  function Absent(api: Api, user: string, repo: string): string -> bool {
    item => api.contents(user, repo, item) != 200
  }

  /** The items that are missing from a repository are the configured
      items whose probe did not answer 200, in configuration order. */
  lemma {:induction false} MissingOfBuild(api: Api, user: string, repo: string, items: seq<string>)
    requires Distinct(items)
    requires BuildFound(api, user, repo, items).Success?
    ensures MissingOf(BuildFound(api, user, repo, items).value) == Filter(items, Absent(api, user, repo))
    decreases |items|
  {
    if |items| > 0 {
      var n := |items|;
      var init := items[..n - 1];
      var last := items[n - 1];
      DistinctInit(items);
      BuildFoundStep(api, user, repo, items);
      var f := BuildFound(api, user, repo, init).value;
      MissingOfBuild(api, user, repo, init);
      var v := PathExists(api, user, repo, last).value;
      MissingAppend(f, (last, v));
      assert items == init + [last];
      FilterConcat(init, [last], Absent(api, user, repo));
      assert Filter([last], Absent(api, user, repo)) == (if v then [] else [last]);
    }
  }

  /** A successful probe of a list is the probe of all but the last item
      with the last item's answer added after them. */
  lemma BuildFoundStep(api: Api, user: string, repo: string, items: seq<string>)
    requires |items| > 0 && items[|items| - 1] !in items[..|items| - 1]
    requires BuildFound(api, user, repo, items).Success?
    ensures BuildFound(api, user, repo, items[..|items| - 1]).Success?
    ensures PathExists(api, user, repo, items[|items| - 1]).Success?
    ensures BuildFound(api, user, repo, items).value
      == BuildFound(api, user, repo, items[..|items| - 1]).value
         + [(items[|items| - 1], PathExists(api, user, repo, items[|items| - 1]).value)]
  {
  }

  /** For an audit that completes, each result's `missing` lists the
      configured items the repository does not hold, in the configured
      order. */
  lemma AuditMissing(api: Api, user: string, items: seq<string>, limit: int, k: nat)
    requires Distinct(items)
    requires AuditUserRepositories(api, user, items, limit).Success?
    requires k < |AuditUserRepositories(api, user, items, limit).value|
    ensures var r := AuditUserRepositories(api, user, items, limit).value[k];
      Missing(r) == Filter(items, Absent(api, user, r.repository))
  {
    var repos := ListRepositories(api, user, limit).value;
    var r := AuditUserRepositories(api, user, items, limit).value[k];
    assert BuildFound(api, user, repos[k].name, items) == Success(r.found);
    MissingOfBuild(api, user, repos[k].name, items);
  }
}

=== FILE: checkers.dfy ===
/** The per-repository checks of the auditor: DeepWiki mentions and
    statistics of the Japanese README, and the root-listing checks for a
    Google site-verification page, agent instructions, workflows and a
    Jekyll configuration. Fetching the README and the listings is left
    out; their results are the inputs here. */
module Checkers {
  import opened Wrappers
  import opened Seqs
  import opened PyStr
  import opened Ordering

  // ---------------------------------------------------------------------
  // check_deepwiki

  /** The patterns searched for, in the order they are tried. */
  const DeepwikiPatterns: seq<string> := ["deepwiki.com", "deepwiki", "DeepWiki"]

  /** The first pattern, in list order, that `line` contains. */
  function FirstPattern(line: string, pats: seq<string>): (r: Option<string>)
    ensures r.None? <==> forall k :: 0 <= k < |pats| ==> !Contains(line, pats[k])
    ensures r.Some? ==> r.value in pats && Contains(line, r.value)
  {
    if |pats| == 0 then None
    else if Contains(line, pats[0]) then Some(pats[0])
    else FirstPattern(line, pats[1..])
  }

  /** The pattern found is the one at the first position whose pattern
      the line contains. */
  lemma {:induction false} FirstPatternIsFirst(line: string, pats: seq<string>, k: nat)
    requires k < |pats| && Contains(line, pats[k])
    requires forall j :: 0 <= j < k ==> !Contains(line, pats[j])
    ensures FirstPattern(line, pats) == Some(pats[k])
    decreases k
  {
    if k > 0 {
      FirstPatternIsFirst(line, pats[1..], k - 1);
    }
  }

  /** One recorded mention: its 1-based line number and the stripped line. */
  datatype Occurrence = Occurrence(line: nat, text: string)

  datatype DeepwikiResult = DeepwikiResult(
    hasDeepwiki: bool, matchedPatterns: seq<string>, occurrences: seq<Occurrence>)

  function LineNumbers(occ: seq<Occurrence>): (ns: seq<nat>)
    ensures |ns| == |occ| && forall k :: 0 <= k < |occ| ==> ns[k] == occ[k].line
  {
    if |occ| == 0 then [] else [occ[0].line] + LineNumbers(occ[1..])
  }

  /** Some line's first pattern is `p`. */
  ghost predicate Mentioned(lines: seq<string>, first: string -> Option<string>, p: string) {
    exists j :: 0 <= j < |lines| && first(lines[j]) == Some(p)
  }

  /** The scan over the lines, given the first-pattern test: per line at
      most one occurrence, for the line's first pattern; a pattern is
      recorded the first time it is some line's first pattern. */
  function ScanLines(lines: seq<string>, first: string -> Option<string>): (r: (seq<string>, seq<Occurrence>))
    ensures |r.1| <= |lines|
    decreases |lines|
  {
    if |lines| == 0 then ([], [])
    else
      var n := |lines|;
      var (found, occ) := ScanLines(lines[..n - 1], first);
      match first(lines[n - 1])
      case None => (found, occ)
      case Some(p) => (if p in found then found else found + [p], occ + [Occurrence(n, Strip(lines[n - 1]))])
  }

  /** The recorded patterns are duplicate-free and are exactly the first
      patterns of the lines. */
  lemma {:induction false} ScanFound(lines: seq<string>, first: string -> Option<string>)
    ensures Distinct(ScanLines(lines, first).0)
    ensures forall p :: p in ScanLines(lines, first).0 <==> Mentioned(lines, first, p)
    ensures FirstSeenOrder(lines, first, ScanLines(lines, first).0)
    decreases |lines|, 1
  {
    ScanFoundInOrder(lines, first);
    if |lines| > 0 {
      var n := |lines|;
      var init := lines[..n - 1];
      ScanFound(init, first);
      MentionedStep(lines, first);
      var found := ScanLines(init, first).0;
      match first(lines[n - 1])
      case None =>
        assert ScanLines(lines, first).0 == found;
      case Some(p) =>
        AddPattern(found, p);
        assert ScanLines(lines, first).0 == if p in found then found else found + [p];
    }
  }

  /** Some line before line `l` (0-based) has first pattern `p`. */
  ghost predicate MentionedBefore(lines: seq<string>, first: string -> Option<string>, p: string, l: int) {
    exists j :: 0 <= j < l && j < |lines| && first(lines[j]) == Some(p)
  }

  /** The patterns are recorded in the order of their first mentions: every
      line whose first pattern was recorded later is preceded by a line
      whose first pattern is any pattern recorded earlier. */
  ghost predicate FirstSeenOrder(lines: seq<string>, first: string -> Option<string>, found: seq<string>) {
    forall i, j, l :: 0 <= i < j < |found| && 0 <= l < |lines| && first(lines[l]) == Some(found[j]) ==>
      MentionedBefore(lines, first, found[i], l)
  }

  /** The recorded patterns are in first-mention order. */
  lemma {:induction false} ScanFoundInOrder(lines: seq<string>, first: string -> Option<string>)
    ensures FirstSeenOrder(lines, first, ScanLines(lines, first).0)
    decreases |lines|, 0
  {
    if |lines| > 0 {
      var n := |lines|;
      var init := lines[..n - 1];
      ScanFoundInOrder(init, first);
      ScanFound(init, first);
      var found := ScanLines(init, first).0;
      var found' := match first(lines[n - 1])
        case None => found
        case Some(p) => if p in found then found else found + [p];
      assert ScanLines(lines, first).0 == found';
      FirstSeenSnoc(lines, first, found, found');
    }
  }

  /** Scanning one more line keeps the recorded patterns in first-mention
      order. */
  lemma FirstSeenSnoc(lines: seq<string>, first: string -> Option<string>, found: seq<string>, found': seq<string>)
    requires |lines| > 0
    requires FirstSeenOrder(lines[..|lines| - 1], first, found)
    requires forall p :: p in found <==> Mentioned(lines[..|lines| - 1], first, p)
    requires found' == match first(lines[|lines| - 1])
      case None => found
      case Some(p) => if p in found then found else found + [p]
    ensures FirstSeenOrder(lines, first, found')
  {
    var n := |lines|;
    var init := lines[..n - 1];
    assert forall k :: 0 <= k < |found| ==> found'[k] == found[k];
    assert |found'| > |found| ==> |found'| == |found| + 1 && found'[|found|] !in found;
    forall i, j, l | 0 <= i < j < |found'| && 0 <= l < n && first(lines[l]) == Some(found'[j])
      ensures MentionedBefore(lines, first, found'[i], l)
    {
      assert i < |found| && found[i] in found;
      if l == n - 1 {
        MentionedBeforeLast(lines, first, found[i]);
      } else {
        MentionedInInit(lines, first, l);
        assert found'[j] in found;
        assert j < |found| && found[j] == found'[j];
        assert first(init[l]) == Some(found[j]);
        assert MentionedBefore(init, first, found[i], l);
        MentionedBeforeInit(lines, first, found[i], l);
      }
    }
  }

  /** A line other than the last mentions its first pattern in the list
      without the last line. */
  lemma MentionedInInit(lines: seq<string>, first: string -> Option<string>, l: nat)
    requires l < |lines| - 1 && first(lines[l]).Some?
    ensures Mentioned(lines[..|lines| - 1], first, first(lines[l]).value)
  {
    assert lines[..|lines| - 1][l] == lines[l];
  }

  /** A pattern mentioned before the last line is mentioned before it. */
  lemma MentionedBeforeLast(lines: seq<string>, first: string -> Option<string>, q: string)
    requires |lines| > 0 && Mentioned(lines[..|lines| - 1], first, q)
    ensures MentionedBefore(lines, first, q, |lines| - 1)
  {
    var init := lines[..|lines| - 1];
    var j :| 0 <= j < |init| && first(init[j]) == Some(q);
    assert lines[j] == init[j];
  }

  /** Mentions before line `l` of the list without its last line are
      mentions before line `l` of the whole list. */
  lemma MentionedBeforeInit(lines: seq<string>, first: string -> Option<string>, q: string, l: nat)
    requires l < |lines| - 1 && MentionedBefore(lines[..|lines| - 1], first, q, l)
    ensures MentionedBefore(lines, first, q, l)
  {
    var init := lines[..|lines| - 1];
    var j :| 0 <= j < l && j < |init| && first(init[j]) == Some(q);
    assert lines[j] == init[j];
  }

  /** Recording a pattern unless already recorded keeps the record
      duplicate-free and adds exactly that pattern. */
  lemma AddPattern(found: seq<string>, p: string)
    requires Distinct(found)
    ensures Distinct(if p in found then found else found + [p])
    ensures forall q :: q in (if p in found then found else found + [p]) <==> q in found || q == p
  {
  }

  /** Each occurrence names a line, 1-based, whose first pattern exists,
      and holds that line stripped. */
  ghost predicate OccurrencesFit(lines: seq<string>, first: string -> Option<string>, occ: seq<Occurrence>) {
    forall k :: 0 <= k < |occ| ==> Fit(lines, first, occ[k])
  }

  /** One occurrence names a line, 1-based, whose first pattern exists,
      and holds that line stripped. */
  ghost predicate Fit(lines: seq<string>, first: string -> Option<string>, o: Occurrence) {
    1 <= o.line <= |lines| && first(lines[o.line - 1]).Some? && o.text == Strip(lines[o.line - 1])
  }

  ghost predicate Increasing(occ: seq<Occurrence>) {
    forall a, b :: 0 <= a < b < |occ| ==> occ[a].line < occ[b].line
  }

  /** The occurrences are one per line whose first pattern exists, with
      strictly increasing 1-based line numbers and the stripped line. */
  lemma {:induction false} ScanOccurrences(lines: seq<string>, first: string -> Option<string>)
    ensures OccurrencesFit(lines, first, ScanLines(lines, first).1)
    ensures Increasing(ScanLines(lines, first).1)
    decreases |lines|
  {
    if |lines| > 0 {
      var n := |lines|;
      var init := lines[..n - 1];
      ScanOccurrences(init, first);
      var occ := ScanLines(init, first).1;
      FitKeep(lines, first, occ);
      if first(lines[n - 1]).Some? {
        var last := Occurrence(n, Strip(lines[n - 1]));
        assert ScanLines(lines, first).1 == occ + [last];
        FitStep(lines, first, occ);
        IncreasingStep(occ, last);
      } else {
        assert ScanLines(lines, first).1 == occ;
      }
    }
  }

  /** Occurrences that fit all but the last line fit all lines. */
  lemma FitKeep(lines: seq<string>, first: string -> Option<string>, occ: seq<Occurrence>)
    requires |lines| > 0 && OccurrencesFit(lines[..|lines| - 1], first, occ)
    ensures OccurrencesFit(lines, first, occ)
    ensures forall k :: 0 <= k < |occ| ==> occ[k].line < |lines|
  {
    var init := lines[..|lines| - 1];
    forall k | 0 <= k < |occ|
      ensures Fit(lines, first, occ[k]) && occ[k].line < |lines|
    {
      assert Fit(init, first, occ[k]);
      assert init[occ[k].line - 1] == lines[occ[k].line - 1];
    }
  }

  /** The last line's occurrence fits too. */
  lemma FitStep(lines: seq<string>, first: string -> Option<string>, occ: seq<Occurrence>)
    requires |lines| > 0 && OccurrencesFit(lines, first, occ) && first(lines[|lines| - 1]).Some?
    ensures OccurrencesFit(lines, first, occ + [Occurrence(|lines|, Strip(lines[|lines| - 1]))])
  {
    var last := Occurrence(|lines|, Strip(lines[|lines| - 1]));
    assert Fit(lines, first, last);
    AllSnoc(occ, last, o => Fit(lines, first, o));
  }

  /** A property of every element and of one more holds of every element
      of the longer list. */
  lemma AllSnoc<T>(s: seq<T>, x: T, p: T -> bool)
    requires forall k :: 0 <= k < |s| ==> p(s[k])
    requires p(x)
    ensures forall k :: 0 <= k < |s| + 1 ==> p((s + [x])[k])
  {
    forall k | 0 <= k < |s| + 1
      ensures p((s + [x])[k])
    {
      if k < |s| {
        assert (s + [x])[k] == s[k];
      }
    }
  }

  /** An occurrence after every earlier line keeps the line numbers
      increasing. */
  lemma IncreasingStep(occ: seq<Occurrence>, last: Occurrence)
    requires Increasing(occ) && forall k :: 0 <= k < |occ| ==> occ[k].line < last.line
    ensures Increasing(occ + [last])
  {
    var r := occ + [last];
    forall a, b | 0 <= a < b < |r|
      ensures r[a].line < r[b].line
    {
      assert r[a] == occ[a];
      if b < |occ| {
        assert r[b] == occ[b];
      }
    }
  }

  /** Every line whose first pattern exists has an occurrence, and no
      other line has. */
  ghost predicate Covers(lines: seq<string>, first: string -> Option<string>, occ: seq<Occurrence>) {
    forall j :: 0 <= j < |lines| ==> (first(lines[j]).Some? <==> j + 1 in LineNumbers(occ))
  }

  lemma {:induction false} ScanOccurrencesCover(lines: seq<string>, first: string -> Option<string>)
    ensures Covers(lines, first, ScanLines(lines, first).1)
    decreases |lines|
  {
    if |lines| > 0 {
      var n := |lines|;
      var init := lines[..n - 1];
      ScanOccurrencesCover(init, first);
      ScanOccurrences(init, first);
      var occ := ScanLines(init, first).1;
      NotYetNumbered(init, first, occ);
      var r := ScanLines(lines, first).1;
      if first(lines[n - 1]).Some? {
        var last := Occurrence(n, Strip(lines[n - 1]));
        assert r == occ + [last];
        LineNumbersAppend(occ, last);
        CoversStep(lines, first, occ, LineNumbers(occ) + [n]);
      } else {
        assert r == occ;
        CoversStep(lines, first, occ, LineNumbers(occ));
      }
    }
  }

  lemma NotYetNumbered(init: seq<string>, first: string -> Option<string>, occ: seq<Occurrence>)
    requires OccurrencesFit(init, first, occ)
    ensures |init| + 1 !in LineNumbers(occ)
  {
  }

  lemma LineNumbersAppend(occ: seq<Occurrence>, o: Occurrence)
    ensures LineNumbers(occ + [o]) == LineNumbers(occ) + [o.line]
  {
  }

  lemma CoversStep(lines: seq<string>, first: string -> Option<string>, occ: seq<Occurrence>, ln: seq<nat>)
    requires |lines| > 0
    requires Covers(lines[..|lines| - 1], first, occ)
    requires |lines| !in LineNumbers(occ)
    requires ln == (if first(lines[|lines| - 1]).Some? then LineNumbers(occ) + [|lines|] else LineNumbers(occ))
    ensures forall j :: 0 <= j < |lines| ==> (first(lines[j]).Some? <==> j + 1 in ln)
  {
    var init := lines[..|lines| - 1];
    forall j | 0 <= j < |lines|
      ensures first(lines[j]).Some? <==> j + 1 in ln
    {
      if j < |lines| - 1 {
        assert init[j] == lines[j];
      }
    }
  }

  /** Mentions in all lines are those in all but the last line, and the
      last line's own first pattern. */
  lemma MentionedStep(lines: seq<string>, first: string -> Option<string>)
    requires |lines| > 0
    ensures forall p :: Mentioned(lines, first, p) <==>
      Mentioned(lines[..|lines| - 1], first, p) || first(lines[|lines| - 1]) == Some(p)
  {
    var init := lines[..|lines| - 1];
    forall p | Mentioned(lines, first, p)
      ensures Mentioned(init, first, p) || first(lines[|lines| - 1]) == Some(p)
    {
      var j :| 0 <= j < |lines| && first(lines[j]) == Some(p);
      if j < |lines| - 1 {
        assert init[j] == lines[j];
      }
    }
    forall p | Mentioned(init, first, p)
      ensures Mentioned(lines, first, p)
    {
      var j :| 0 <= j < |init| && first(init[j]) == Some(p);
      assert lines[j] == init[j];
    }
  }

  function DeepwikiFirst(line: string): Option<string> {
    FirstPattern(line, DeepwikiPatterns)
  }

  /** `check_deepwiki`: found iff some line contains some pattern; one
      occurrence per such line. */
  function CheckDeepwiki(content: string): (r: DeepwikiResult)
    ensures r.hasDeepwiki <==> exists j :: 0 <= j < |SplitLines(content)| && DeepwikiFirst(SplitLines(content)[j]).Some?
    ensures r.hasDeepwiki <==> |r.occurrences| > 0
    ensures forall p :: p in r.matchedPatterns ==> p in DeepwikiPatterns
  {
    var lines := SplitLines(content);
    var (found, occ) := ScanLines(lines, DeepwikiFirst);
    ScanVerdict(lines, DeepwikiFirst);
    DeepwikiFoundPatterns(lines);
    DeepwikiResult(|found| > 0, found, occ)
  }

  /** Some line has a first pattern. */
  ghost predicate AnyHit(lines: seq<string>, first: string -> Option<string>) {
    exists j :: 0 <= j < |lines| && first(lines[j]).Some?
  }

  /** A pattern is recorded, and an occurrence is, exactly when some line
      has a first pattern. */
  lemma ScanVerdict(lines: seq<string>, first: string -> Option<string>)
    ensures |ScanLines(lines, first).0| > 0 <==> AnyHit(lines, first)
    ensures |ScanLines(lines, first).1| > 0 <==> AnyHit(lines, first)
  {
    ScanVerdictFound(lines, first);
    ScanVerdictOccurrences(lines, first);
  }

  lemma ScanVerdictFound(lines: seq<string>, first: string -> Option<string>)
    ensures |ScanLines(lines, first).0| > 0 <==> AnyHit(lines, first)
  {
    var found := ScanLines(lines, first).0;
    ScanFound(lines, first);
    if |found| > 0 {
      assert found[0] in found;
      assert Mentioned(lines, first, found[0]);
    }
    if AnyHit(lines, first) {
      var j :| 0 <= j < |lines| && first(lines[j]).Some?;
      assert Mentioned(lines, first, first(lines[j]).value);
    }
  }

  lemma ScanVerdictOccurrences(lines: seq<string>, first: string -> Option<string>)
    ensures |ScanLines(lines, first).1| > 0 <==> AnyHit(lines, first)
  {
    var occ := ScanLines(lines, first).1;
    if AnyHit(lines, first) {
      ScanOccurrencesCover(lines, first);
      var j :| 0 <= j < |lines| && first(lines[j]).Some?;
      assert j + 1 in LineNumbers(occ);
    }
    if |occ| > 0 {
      ScanOccurrences(lines, first);
      assert OccurrencesFit(lines, first, occ);
      var j := occ[0].line - 1;
      assert first(lines[j]).Some?;
    }
  }

  /** Every recorded pattern is one of the DeepWiki patterns. */
  lemma DeepwikiFoundPatterns(lines: seq<string>)
    ensures forall p :: p in ScanLines(lines, DeepwikiFirst).0 ==> p in DeepwikiPatterns
  {
    ScanFound(lines, DeepwikiFirst);
    forall p | p in ScanLines(lines, DeepwikiFirst).0
      ensures p in DeepwikiPatterns
    {
      assert Mentioned(lines, DeepwikiFirst, p);
      var j :| 0 <= j < |lines| && DeepwikiFirst(lines[j]) == Some(p);
    }
  }

  /** "deepwiki.com" contains "deepwiki", so a line with the full host name
      is recorded under "deepwiki.com" only; the bare word is recorded
      under "deepwiki", and the capitalised brand only when neither lower
      case form occurs. */
  lemma DeepwikiPatternPriority(line: string)
    ensures Contains(line, "deepwiki.com") ==> FirstPattern(line, DeepwikiPatterns) == Some("deepwiki.com")
    ensures !Contains(line, "deepwiki.com") && Contains(line, "deepwiki") ==>
      FirstPattern(line, DeepwikiPatterns) == Some("deepwiki")
    ensures FirstPattern(line, DeepwikiPatterns) == Some("DeepWiki") ==>
      !Contains(line, "deepwiki") && Contains(line, "DeepWiki")
  {
    assert DeepwikiPatterns[1..] == ["deepwiki", "DeepWiki"];
    assert DeepwikiPatterns[1..][1..] == ["DeepWiki"];
    if Contains(line, "deepwiki.com") {
      assert Contains("deepwiki.com", "deepwiki") by {
        assert StartsWith("deepwiki.com", "deepwiki");
      }
      ContainsTrans(line, "deepwiki.com", "deepwiki");
    }
  }

  // ---------------------------------------------------------------------
  // analyze_readme

  /** Characters that end a URL match: whitespace, ')', ']', '"' and '\''. */
  predicate UrlChar(c: char) {
    !IsSpace(c) && c != ')' && c != ']' && c != '"' && c != '\''
  }

  /** `https?://` at position `i`: the length of the scheme and separator,
      or 0. */
  function SchemeAt(s: string, i: nat): (n: nat)
    requires i <= |s|
    ensures n == 0 || n == 7 || n == 8
    ensures n > 0 ==> i + n <= |s|
  {
    if StartsWith(s[i..], "https://") then 8
    else if StartsWith(s[i..], "http://") then 7
    else 0
  }

  /** The length of the longest run of URL characters at position `i`. */
  function RunAt(s: string, i: nat): (n: nat)
    requires i <= |s|
    ensures i + n <= |s|
    ensures forall k :: i <= k < i + n ==> UrlChar(s[k])
    ensures i + n < |s| ==> !UrlChar(s[i + n])
    decreases |s| - i
  {
    if i == |s| || !UrlChar(s[i]) then 0 else 1 + RunAt(s, i + 1)
  }

  ghost predicate AllUrlChars(t: string) {
    forall k :: 0 <= k < |t| ==> UrlChar(t[k])
  }

  /** A string the URL pattern matches entirely. */
  ghost predicate IsUrl(u: string) {
    || (StartsWith(u, "https://") && |u| > 8 && AllUrlChars(u[8..]))
    || (StartsWith(u, "http://") && |u| > 7 && AllUrlChars(u[7..]))
  }

  /** `re.findall(r'https?://[^\s\)\]\"\']+', s[i..])`: at each position
      try the pattern, take the longest match and continue after it, or
      move one character on. */
  function FindUrls(s: string, i: nat): (r: seq<string>)
    requires i <= |s|
    ensures forall k :: 0 <= k < |r| ==> IsUrl(r[k])
    decreases |s| - i
  {
    if i == |s| then []
    else
      var p := SchemeAt(s, i);
      if p > 0 && RunAt(s, i + p) > 0 then
        var e := i + p + RunAt(s, i + p);
        MatchIsUrl(s, i, p, e);
        [s[i..e]] + FindUrls(s, e)
      else FindUrls(s, i + 1)
  }

  /** The text a match covers is a URL. */
  lemma MatchIsUrl(s: string, i: nat, p: nat, e: nat)
    requires i <= |s| && p == SchemeAt(s, i) && p > 0
    requires RunAt(s, i + p) > 0 && e == i + p + RunAt(s, i + p)
    ensures IsUrl(s[i..e])
  {
    var u := s[i..e];
    assert u[..p] == s[i..][..p];
    forall k | 0 <= k < |u[p..]|
      ensures UrlChar(u[p..][k])
    {
      assert u[p..][k] == s[i + p + k];
    }
    if p == 7 {
      assert StartsWith(s[i..], "http://");
    }
  }

  /** The distinct elements of a list. */
  function ToSet(s: seq<string>): (r: set<string>)
    ensures forall x :: x in r <==> x in s
  {
    set x | x in s
  }

  datatype ReadmeStats = ReadmeStats(
    charCount: nat, lineCount: nat, nonEmptyLines: nat,
    headingCount: nat, headings: seq<string>, urlCount: nat)

  predicate NonBlank(l: string) {
    |Strip(l)| > 0
  }

  predicate IsHeading(l: string) {
    StartsWith(l, "#")
  }

  /** The stripped heading lines, in order. */
  function Headings(lines: seq<string>): (hs: seq<string>)
    ensures |hs| == |Filter(lines, IsHeading)|
    ensures forall k :: 0 <= k < |hs| ==> hs[k] == Strip(Filter(lines, IsHeading)[k])
    ensures forall k :: 0 <= k < |hs| ==> StartsWith(hs[k], "#")
  {
    if |lines| == 0 then []
    else
      var rest := Headings(lines[1..]);
      if IsHeading(lines[0]) then
        assert Filter(lines, IsHeading) == [lines[0]] + Filter(lines[1..], IsHeading);
        HeadingStripped(lines[0]);
        HeadingsStep(lines[0], Filter(lines[1..], IsHeading), rest, Strip);
        [Strip(lines[0])] + rest
      else
        assert Filter(lines, IsHeading) == Filter(lines[1..], IsHeading);
        rest
  }

  /** One more heading line in front: its stripped text, `st` being the
      stripping function, goes in front. */
  lemma HeadingsStep(l: string, f: seq<string>, hs: seq<string>, st: string -> string)
    requires StartsWith(st(l), "#") && |hs| == |f|
    requires forall k :: 0 <= k < |hs| ==> hs[k] == st(f[k])
    requires forall k :: 0 <= k < |hs| ==> StartsWith(hs[k], "#")
    ensures forall k :: 0 <= k < |hs| + 1 ==> ([st(l)] + hs)[k] == st(([l] + f)[k])
    ensures forall k :: 0 <= k < |hs| + 1 ==> StartsWith(([st(l)] + hs)[k], "#")
  {
  }

  /** Stripping a heading keeps its leading '#'. */
  lemma HeadingStripped(l: string)
    requires StartsWith(l, "#")
    ensures StartsWith(Strip(l), "#")
  {
    assert !IsSpace(l[0]);
    assert LStrip(l) == l;
    var r := Strip(l);
    assert r == RStrip(l);
    assert |r| > 0;
  }

  /** `analyze_readme`. */
  function AnalyzeReadme(content: string): (r: ReadmeStats)
    ensures r.charCount == |content|
    ensures r.lineCount == |SplitLines(content)|
    ensures r.nonEmptyLines <= r.lineCount && r.headingCount <= r.lineCount
    ensures r.nonEmptyLines == |Filter(SplitLines(content), NonBlank)|
    ensures r.headingCount == |Filter(SplitLines(content), IsHeading)|
    ensures |r.headings| == if r.headingCount < 10 then r.headingCount else 10
    ensures forall k :: 0 <= k < |r.headings| ==>
      r.headings[k] == Strip(Filter(SplitLines(content), IsHeading)[k])
    ensures forall k :: 0 <= k < |r.headings| ==> StartsWith(r.headings[k], "#")
    ensures r.urlCount == |ToSet(FindUrls(content, 0))|
    ensures r.urlCount <= |FindUrls(content, 0)|
  {
    var lines := SplitLines(content);
    var headings := Headings(lines);
    var urls := FindUrls(content, 0);
    DistinctCard(urls);
    ReadmeStats(|content|, |lines|, |Filter(lines, NonBlank)|,
                |headings|, if |headings| < 10 then headings else headings[..10], |ToSet(urls)|)
  }

  /** A list has at most as many distinct elements as entries. */
  lemma {:induction false} DistinctCard(s: seq<string>)
    ensures |ToSet(s)| <= |s|
    decreases |s|
  {
    if |s| > 0 {
      DistinctCard(s[1..]);
      assert ToSet(s) == ToSet(s[1..]) + {s[0]};
    }
  }

  /** A URL followed by a space and the same URL again is counted once. */
  lemma RepeatedUrlCountedOnce(u: string)
    requires IsUrl(u)
    ensures FindUrls(u + " " + u, 0) == [u, u]
    ensures |ToSet(FindUrls(u + " " + u, 0))| == 1
  {
    var s := u + " " + u;
    RepeatedParts(u, s);
    TwoMatches(s, u);
    assert ToSet([u, u]) == {u};
  }

  /** A text made of a URL, a space and the URL again has two matches. */
  lemma TwoMatches(s: string, u: string)
    requires IsUrl(u) && |s| == 2 * |u| + 1
    requires s[0..|u|] == u && s[|u|] == ' ' && s[|u| + 1..|u| + 1 + |u|] == u
    ensures FindUrls(s, 0) == [u, u]
  {
    FirstOfTwo(s, u);
    SecondOfTwo(s, u);
    ChainTwo(FindUrls(s, 0), FindUrls(s, |u| + 1), u);
  }

  /** The first copy is matched, and the search resumes after the space. */
  lemma FirstOfTwo(s: string, u: string)
    requires IsUrl(u) && |s| == 2 * |u| + 1
    requires s[0..|u|] == u && s[|u|] == ' '
    ensures FindUrls(s, 0) == [u] + FindUrls(s, |u| + 1)
  {
    UrlAt(s, 0, u);
    SpaceSkipped(s, |u|);
  }

  /** The second copy is matched and ends the text. */
  lemma SecondOfTwo(s: string, u: string)
    requires IsUrl(u) && |s| == 2 * |u| + 1
    requires s[|u| + 1..|u| + 1 + |u|] == u
    ensures FindUrls(s, |u| + 1) == [u]
  {
    UrlAt(s, |u| + 1, u);
    assert FindUrls(s, |s|) == [];
  }

  /** One match followed by a text holding exactly that match again. */
  lemma ChainTwo<T>(a: seq<T>, b: seq<T>, x: T)
    requires a == [x] + b && b == [x]
    ensures a == [x, x]
  {
  }

  /** Where the two copies of `u` sit in `u + " " + u`. */
  lemma RepeatedParts(u: string, s: string)
    requires s == u + " " + u
    ensures |s| == 2 * |u| + 1
    ensures s[0..|u|] == u && s[|u|] == ' '
    ensures s[|u| + 1..|u| + 1 + |u|] == u
  {
    assert s[0..|u|] == u;
    assert s[|u| + 1..] == u;
  }

  /** No match starts at a space. */
  lemma SpaceSkipped(s: string, i: nat)
    requires i < |s| && s[i] == ' '
    ensures FindUrls(s, i) == FindUrls(s, i + 1)
  {
    assert s[i..][0] == ' ';
    assert SchemeAt(s, i) == 0;
  }

  /** The length of the scheme and separator a URL starts with. */
  function SchemeLength(u: string): nat {
    if StartsWith(u, "https://") then 8 else 7
  }

  /** A URL sitting at position `i`, followed by the end of the text or a
      space, is matched there in full. */
  lemma UrlAt(s: string, i: nat, u: string)
    requires IsUrl(u)
    requires i + |u| <= |s| && s[i..i + |u|] == u
    requires i + |u| == |s| || s[i + |u|] == ' '
    ensures FindUrls(s, i) == [u] + FindUrls(s, i + |u|)
  {
    UrlTailChars(s, i, u);
  }

  /** After its scheme, a URL placed at position `i` is a run of URL
      characters. */
  lemma UrlTailChars(s: string, i: nat, u: string)
    requires IsUrl(u)
    requires i + |u| <= |s| && s[i..i + |u|] == u
    ensures |u| > SchemeLength(u)
    ensures forall k :: i + SchemeLength(u) <= k < i + |u| ==> UrlChar(s[k])
  {
    var p := SchemeLength(u);
    if StartsWith(u, "https://") {
      assert u[4] == 's';
      assert !StartsWith(u, "http://") by {
        assert "http://"[4] == ':';
      }
    }
    forall k | i + p <= k < i + |u|
      ensures UrlChar(s[k])
    {
      assert s[k] == u[k - i];
      assert u[p..][k - i - p] == u[k - i];
    }
  }

  // ---------------------------------------------------------------------
  // Listing checks

  /** One entry of a GitHub contents listing: its name, and its `type`
      when the entry carries one. */
  datatype Entry = Entry(name: string, kind: Option<string>)

  predicate IsFile(e: Entry) {
    e.kind == Some("file")
  }

  /** The names of the file entries, in listing order. */
  function FileNames(entries: seq<Entry>): (ns: seq<string>)
    ensures forall n :: n in ns <==> exists k :: 0 <= k < |entries| && IsFile(entries[k]) && entries[k].name == n
    ensures |ns| <= |entries|
  {
    if |entries| == 0 then []
    else
      var rest := FileNames(entries[1..]);
      assert forall k :: 1 <= k < |entries| ==> entries[k] == entries[1..][k - 1];
      if IsFile(entries[0]) then [entries[0].name] + rest else rest
  }

  /** `fnmatch(lowered, "google*.html")`: the fixed prefix and suffix with
      anything (possibly nothing) between them. */
  predicate GoogleHtmlName(lowered: string) {
    |lowered| >= 11 && StartsWith(lowered, "google") && EndsWith(lowered, ".html")
  }

  predicate IsGoogleHtml(name: string) {
    GoogleHtmlName(Lower(name))
  }

  datatype ListingCheck = ListingCheck(present: bool, files: seq<string>)

  /** `check_google_html`: the file entries whose lower-cased name matches
      `google*.html`, in listing order. */
  function CheckGoogleHtml(rootFiles: seq<Entry>): (r: ListingCheck)
    ensures r.files == Filter(FileNames(rootFiles), IsGoogleHtml)
    ensures r.present <==> |r.files| > 0
    ensures forall n :: n in r.files <==>
      (exists k :: 0 <= k < |rootFiles| && IsFile(rootFiles[k]) && rootFiles[k].name == n) && IsGoogleHtml(n)
  {
    var matched := Filter(FileNames(rootFiles), IsGoogleHtml);
    ListingCheck(|matched| > 0, matched)
  }

  /** The prefix and suffix may not overlap: "google.html" is the shortest
      match, "google.htm" and a directory called "google1.html" do not
      count, and upper-case names match after lowering. */
  lemma GoogleHtmlExamples()
    ensures IsGoogleHtml("google.html")
    ensures IsGoogleHtml("GoogleABC.HTML")
    ensures !IsGoogleHtml("google.htm")
    ensures !IsGoogleHtml("googl.html")
    ensures CheckGoogleHtml([Entry("google1.html", Some("dir"))]) == ListingCheck(false, [])
  {
    GoogleHtmlShortest();
    GoogleHtmlUpper();
    GoogleHtmlPrefix();
    GoogleHtmlDirectory();
  }

  lemma GoogleHtmlShortest()
    ensures IsGoogleHtml("google.html")
    ensures !IsGoogleHtml("google.htm")
  {
    LowerOfLower("google.html");
    LowerOfLower("google.htm");
  }

  lemma GoogleHtmlUpper()
    ensures IsGoogleHtml("GoogleABC.HTML")
  {
    assert Lower("GoogleABC.HTML") == "googleabc.html";
  }

  lemma GoogleHtmlPrefix()
    ensures !IsGoogleHtml("googl.html")
  {
    LowerOfLower("googl.html");
    assert "googl.html"[..6][5] != "google"[5];
  }

  lemma GoogleHtmlDirectory()
    ensures CheckGoogleHtml([Entry("google1.html", Some("dir"))]) == ListingCheck(false, [])
  {
    assert FileNames([Entry("google1.html", Some("dir"))]) == [];
  }

  /** `check_agents_file`: the agent-instruction files found, in the fixed
      order AGENTS.md, copilot-instructions.md (both among any root entry,
      directories included), then .github/copilot-instructions.md as the
      remote probe reports it. */
  function CheckAgentsFile(rootFiles: seq<Entry>, githubCopilotExists: bool): (r: ListingCheck)
    ensures r.present <==> |r.files| > 0
    ensures r.files == Filter(["AGENTS.md", "copilot-instructions.md"], (n: string) => n in NamesOf(rootFiles))
                       + (if githubCopilotExists then [".github/copilot-instructions.md"] else [])
    ensures "AGENTS.md" in r.files <==> exists k :: 0 <= k < |rootFiles| && rootFiles[k].name == "AGENTS.md"
  {
    var names := NamesOf(rootFiles);
    var atRoot := (if "AGENTS.md" in names then ["AGENTS.md"] else [])
                  + (if "copilot-instructions.md" in names then ["copilot-instructions.md"] else []);
    FilterPair("AGENTS.md", "copilot-instructions.md", (n: string) => n in names);
    var found := atRoot + (if githubCopilotExists then [".github/copilot-instructions.md"] else []);
    assert "AGENTS.md" in found <==> "AGENTS.md" in names;
    ListingCheck(|found| > 0, found)
  }

  function NamesOf(entries: seq<Entry>): (ns: set<string>)
    ensures forall n :: n in ns <==> exists k :: 0 <= k < |entries| && entries[k].name == n
  {
    set k | 0 <= k < |entries| :: entries[k].name
  }

  predicate IsWorkflowFile(name: string) {
    EndsWith(name, ".yml") || EndsWith(name, ".yaml")
  }

  /** `check_workflows` over the `.github/workflows` listing: the file
      entries ending in ".yml" or ".yaml" (case-sensitive), in listing
      order. */
  function CheckWorkflows(entries: seq<Entry>): (r: ListingCheck)
    ensures r.files == Filter(FileNames(entries), IsWorkflowFile)
    ensures r.present <==> exists k :: 0 <= k < |entries| && IsFile(entries[k]) && IsWorkflowFile(entries[k].name)
  {
    var ymls := Filter(FileNames(entries), IsWorkflowFile);
    NonEmptyFilter(FileNames(entries), IsWorkflowFile);
    ListingCheck(|ymls| > 0, ymls)
  }

  /** A filter is non-empty exactly when some element passes it. */
  lemma NonEmptyFilter(s: seq<string>, p: string -> bool)
    ensures |Filter(s, p)| > 0 <==> exists n :: n in s && p(n)
  {
    if |Filter(s, p)| > 0 {
      assert Filter(s, p)[0] in Filter(s, p);
    }
  }

  /** `check_jekyll_config`: a file entry named exactly "_config.yml". */
  function CheckJekyllConfig(rootFiles: seq<Entry>): (present: bool)
    ensures present <==> exists k :: 0 <= k < |rootFiles| && IsFile(rootFiles[k]) && rootFiles[k].name == "_config.yml"
  {
    "_config.yml" in FileNames(rootFiles)
  }
}

=== FILE: git_utils.dfy ===
/** The parsing and fallback logic wrapped around each `git` call of the
    local checker. The call itself is not modelled: each function takes the
    finished process as a `GitRun` (return code and both raw streams). */
module GitUtils {
  import opened Wrappers
  import opened PyStr
  import opened Seqs

  /** A finished `git` process: return code, raw stdout, raw stderr. */
  datatype GitRun = GitRun(rc: int, stdout: string, stderr: string)

  /** `run_git` hands back both streams stripped of surrounding whitespace. */
  function Captured(g: GitRun): (c: GitRun)
    ensures c.rc == g.rc
    ensures |c.stdout| == 0 <==> AllSpace(g.stdout)
    ensures |c.stderr| == 0 <==> AllSpace(g.stderr)
  {
    GitRun(g.rc, Strip(g.stdout), Strip(g.stderr))
  }

  /** `rev-parse --git-dir` succeeded. */
  predicate IsGitRepo(g: GitRun) {
    g.rc == 0
  }

  /** `remote get-url origin`: the stripped URL, or None when git failed or
      printed nothing but whitespace. */
  function GetRemoteUrl(g: GitRun): (r: Option<string>)
    ensures r.None? <==> g.rc != 0 || AllSpace(g.stdout)
    ensures r.Some? ==> |r.value| > 0 && r.value == Strip(g.stdout)
  {
    var out := Captured(g).stdout;
    if g.rc == 0 && |out| > 0 then Some(out) else None
  }

  /** `rev-parse --abbrev-ref HEAD`: the branch name ("HEAD" when
      detached), or None when git failed. */
  function GetCurrentBranch(g: GitRun): (r: Option<string>)
    ensures r.Some? <==> g.rc == 0
    ensures r.Some? ==> r.value == Strip(g.stdout)
  {
    if g.rc == 0 then Some(Captured(g).stdout) else None
  }

  /** `status --porcelain`: a failed call counts as dirty, otherwise dirty
      means git listed at least one change. */
  function IsDirty(g: GitRun): (r: bool)
    ensures r <==> g.rc != 0 || !AllSpace(g.stdout)
  {
    if g.rc == 0 then |Captured(g).stdout| > 0 else true
  }

  const FetchFailed: string := "git fetch 失敗"
  const PullFailed: string := "git pull 失敗"
  const AlreadyUpToDate: string := "Already up to date."

  /** `fetch origin --quiet`: success, or failure with a message that
      carries git's stderr when there is any. */
  function FetchRemote(g: GitRun): (r: (bool, Option<string>))
    ensures r.0 <==> g.rc == 0
    ensures r.0 ==> r.1.None?
    ensures !r.0 ==> r.1.Some? && StartsWith(r.1.value, FetchFailed)
    ensures !r.0 && AllSpace(g.stderr) ==> r.1 == Some(FetchFailed)
  {
    var err := Captured(g).stderr;
    if g.rc != 0 then (false, Some(FetchMessage(err)))
    else (true, None)
  }

  /** The failure message of a fetch, from git's stripped stderr. */
  function FetchMessage(err: string): (m: string)
    ensures StartsWith(m, FetchFailed)
    ensures m == FetchFailed <==> |err| == 0
  {
    if |err| > 0 then
      StartsWithConcat(FetchFailed, ": " + err);
      FetchFailed + (": " + err)
    else FetchFailed
  }

  /** `pull --ff-only`: on failure git's stderr or a fixed message, on
      success git's stdout or "Already up to date.". The message is never
      empty. */
  function PullRepo(g: GitRun): (r: (bool, string))
    ensures r.0 <==> g.rc == 0
    ensures |r.1| > 0
    ensures !r.0 ==> r.1 == (if AllSpace(g.stderr) then PullFailed else Strip(g.stderr))
    ensures r.0 ==> r.1 == (if AllSpace(g.stdout) then AlreadyUpToDate else Strip(g.stdout))
  {
    var c := Captured(g);
    if g.rc != 0 then (false, if |c.stderr| > 0 then c.stderr else PullFailed)
    else (true, if |c.stdout| > 0 then c.stdout else AlreadyUpToDate)
  }

  /** `rev-list --left-right --count origin/<branch>...HEAD`: (behind,
      ahead) in the order git prints them, (-1, -1) when git failed or did
      not print exactly two tokens, and Python's ValueError when a token is
      not an integer. */
  function GetBehindAhead(g: GitRun): (r: Result<(int, int)>)
    ensures g.rc != 0 ==> r == Success((-1, -1))
    ensures g.rc == 0 && |Split(Strip(g.stdout))| != 2 ==> r == Success((-1, -1))
    ensures g.rc == 0 && |Split(Strip(g.stdout))| == 2 ==>
      var parts := Split(Strip(g.stdout));
      (r.Success? <==> ParseInt(parts[0]).Some? && ParseInt(parts[1]).Some?)
      && (r.Success? ==> r.value == (ParseInt(parts[0]).value, ParseInt(parts[1]).value))
  {
    if g.rc != 0 then Success((-1, -1))
    else
      var parts := Split(Captured(g).stdout);
      if |parts| != 2 then Success((-1, -1))
      else
        match ParseInt(parts[0])
        case None => Failure("ValueError")
        case Some(behind) =>
          match ParseInt(parts[1])
          case None => Failure("ValueError")
          case Some(ahead) => Success((behind, ahead))
  }

  /** What git prints for `rev-list --left-right --count`: the two counts
      separated by a tab, then a newline. */
  function RevListCountOutput(behind: nat, ahead: nat): string {
    NatToString(behind) + "\t" + NatToString(ahead) + "\n"
  }

  /** Parsing git's output recovers the counts git printed, in order. */
  lemma BehindAheadRoundTrip(behind: nat, ahead: nat)
    ensures GetBehindAhead(GitRun(0, RevListCountOutput(behind, ahead), "")) == Success((behind, ahead))
  {
    RevListTokens(behind, ahead);
    ParseNatToString(behind);
    ParseNatToString(ahead);
  }

  /** git's count line splits into the two printed numbers. */
  lemma RevListTokens(behind: nat, ahead: nat)
    ensures Split(Strip(RevListCountOutput(behind, ahead))) == [NatToString(behind), NatToString(ahead)]
  {
    var d1 := NatToString(behind);
    var d2 := NatToString(ahead);
    RevListStrip(d1, d2);
    assert RevListCountOutput(behind, ahead) == (d1 + "\t" + d2) + "\n";
    SplitTwoWords(d1, d2);
  }

  /** Stripping git's count line drops only the newline. */
  lemma RevListStrip(d1: string, d2: string)
    requires |d1| > 0 && |d2| > 0 && Digits(d1) && Digits(d2)
    ensures Strip((d1 + "\t" + d2) + "\n") == d1 + "\t" + d2
  {
    var line := d1 + "\t" + d2;
    DigitsNoSpace(d1);
    DigitsNoSpace(d2);
    assert line[0] == d1[0] && line[|line| - 1] == d2[|d2| - 1];
    StripDigitsLine(line);
  }

  /** Digits are never whitespace. */
  ghost predicate Digits(s: string) {
    forall k :: 0 <= k < |s| ==> '0' <= s[k] <= '9'
  }

  /** A line ending in a newline strips to its content when the content
      begins and ends with non-whitespace. */
  lemma StripDigitsLine(s: string)
    requires |s| > 0 && !IsSpace(s[0]) && !IsSpace(s[|s| - 1])
    ensures Strip(s + "\n") == s
  {
    var t := s + "\n";
    assert t[0] == s[0];
    assert LStrip(t) == t;
    assert t[|t| - 1] == '\n';
    assert t[..|t| - 1] == s;
    assert RStrip(t) == RStrip(s);
    assert RStrip(s) == s;
  }

  /** The maximal non-whitespace prefix of `w + rest` is `w` when `rest`
      starts with whitespace. */
  lemma {:induction false} WordOfConcat(w: string, rest: string)
    requires forall k :: 0 <= k < |w| ==> !IsSpace(w[k])
    requires |rest| == 0 || IsSpace(rest[0])
    ensures Word(w + rest) == w
    decreases |w|
  {
    if |w| > 0 {
      assert (w + rest)[1..] == w[1..] + rest;
      WordOfConcat(w[1..], rest);
      assert w == [w[0]] + w[1..];
    }
  }

  /** Two digit runs separated by a tab split into exactly those runs. */
  lemma SplitTwoWords(d1: string, d2: string)
    requires |d1| > 0 && |d2| > 0 && Digits(d1) && Digits(d2)
    ensures Split(d1 + "\t" + d2) == [d1, d2]
  {
    DigitsNoSpace(d1);
    DigitsNoSpace(d2);
    var t := "\t" + d2;
    assert d1 + "\t" + d2 == d1 + t;
    SplitWord(d1, t);
    assert t == ['\t'] + d2;
    SplitLeadingSpace('\t', d2);
    assert Split(t) == Split(d2);
    SplitWord(d2, "");
    assert d2 + "" == d2;
    assert Split("") == [];
    assert Split(d2) == [d2];
    assert Split(d1 + t) == [d1] + [d2];
    PairDisplay(d1, d2);
  }

  /** A word followed by whitespace (or nothing) is split off first. */
  lemma SplitWord(w: string, rest: string)
    requires IsWord(w)
    requires |rest| == 0 || IsSpace(rest[0])
    ensures Split(w + rest) == [w] + Split(rest)
  {
    var s := w + rest;
    assert LStrip(s) == s by {
      assert s[0] == w[0];
    }
    WordOfConcat(w, rest);
    assert s[|w|..] == rest;
  }

  /** Leading whitespace does not change the split. */
  lemma SplitLeadingSpace(c: char, s: string)
    requires IsSpace(c)
    ensures Split([c] + s) == Split(s)
  {
    assert ([c] + s)[1..] == s;
    assert LStrip([c] + s) == LStrip(s);
  }

  lemma DigitsNoSpace(d: string)
    requires Digits(d)
    ensures forall k :: 0 <= k < |d| ==> !IsSpace(d[k])
  {
  }

  // ---------------------------------------------------------------------
  // Owner matching

  /** `is_target_repo`: the remote URL, lower-cased, names github.com and
      contains "github.com/<user>/" (HTTPS) or "github.com:<user>/" (SSH)
      with the user name lower-cased too. */
  function IsTargetRepo(remoteUrl: string, user: string): (r: bool)
    ensures !Contains(Lower(remoteUrl), "github.com") ==> !r
  {
    var lower := Lower(remoteUrl);
    var userLow := Lower(user);
    if !Contains(lower, "github.com") then false
    else
      Contains(lower, "github.com/" + userLow + "/")
      || Contains(lower, "github.com:" + userLow + "/")
  }

  /** The "github.com" guard is implied by the owner patterns, so the
      decision is exactly "one of the two owner patterns occurs". */
  lemma IsTargetRepoIff(remoteUrl: string, user: string)
    ensures IsTargetRepo(remoteUrl, user) <==>
      (Contains(Lower(remoteUrl), "github.com/" + Lower(user) + "/")
       || Contains(Lower(remoteUrl), "github.com:" + Lower(user) + "/"))
  {
    var lower := Lower(remoteUrl);
    var https := "github.com/" + Lower(user) + "/";
    var ssh := "github.com:" + Lower(user) + "/";
    assert https[..10] == "github.com";
    assert ssh[..10] == "github.com";
    if Contains(lower, https) {
      ContainsTrans(lower, https, "github.com");
    }
    if Contains(lower, ssh) {
      ContainsTrans(lower, ssh, "github.com");
    }
  }

  /** Neither a path separator nor the SSH host separator. */
  ghost predicate NoSeparator(s: string) {
    forall k :: 0 <= k < |s| ==> s[k] != '/' && s[k] != ':'
  }

  lemma LowerConcat(a: string, b: string)
    ensures Lower(a + b) == Lower(a) + Lower(b)
  {
  }

  lemma LowerKeepsNoSeparator(s: string)
    requires NoSeparator(s)
    ensures NoSeparator(Lower(s))
  {
  }

  /** For an HTTPS remote "https://github.com/<owner>/<repo>", the
      repository is a target exactly when owner and user agree ignoring
      case; in particular a user name that is a proper prefix of the owner
      ("my" against "myuser") is rejected because the pattern ends in "/". */
  lemma HttpsRemoteOwner(owner: string, repo: string, user: string)
    requires NoSeparator(owner) && NoSeparator(repo)
    ensures IsTargetRepo("https://github.com/" + owner + "/" + repo, user)
      <==> Lower(owner) == Lower(user)
  {
    var url := "https://github.com/" + owner + "/" + repo;
    var lo := Lower(owner);
    var lr := Lower(repo);
    var lu := Lower(user);
    HttpsUrlLower(owner, repo);
    LowerKeepsNoSeparator(owner);
    LowerKeepsNoSeparator(repo);
    IsTargetRepoIff(url, user);
    if lo == lu {
      HttpsOwnerOccurs(lo, lr);
    } else {
      if Contains(Lower(url), "github.com/" + lu + "/") {
        HttpsOwnerOnly(lo, lr, lu);
      }
      HttpsNoSsh(lo, lr, lu);
    }
  }

  lemma HttpsUrlLower(owner: string, repo: string)
    ensures Lower("https://github.com/" + owner + "/" + repo)
      == "https://github.com/" + Lower(owner) + "/" + Lower(repo)
  {
    LowerConcat("https://github.com/" + owner + "/", repo);
    LowerConcat("https://github.com/" + owner, "/");
    LowerConcat("https://github.com/", owner);
  }

  /** The owner segment of an HTTPS remote matches the HTTPS pattern. */
  lemma HttpsOwnerOccurs(lo: string, lr: string)
    ensures Contains("https://github.com/" + lo + "/" + lr, "github.com/" + lo + "/")
  {
    var u := "https://github.com/" + lo + "/" + lr;
    var https := "github.com/" + lo + "/";
    assert u[8..8 + |https|] == https;
    ContainsAt(u, https, 8);
  }

  /** Only the owner segment itself matches the HTTPS pattern. */
  lemma HttpsOwnerOnly(lo: string, lr: string, lu: string)
    requires NoSeparator(lo) && NoSeparator(lr)
    requires Contains("https://github.com/" + lo + "/" + lr, "github.com/" + lu + "/")
    ensures lu == lo
  {
    var u := "https://github.com/" + lo + "/" + lr;
    var https := "github.com/" + lu + "/";
    ContainsIff(u, https);
    var p :| OccursAt(u, https, p);
    OccursAtChar(u, https, p, 10);
    HttpsSlashes(lo, lr, p + 10);
    OccursAtChar(u, https, p, 11 + |lu|);
    HttpsSlashes(lo, lr, p + 11 + |lu|);
    assert p == 8 && |lu| == |lo|;
    forall k | 0 <= k < |lu|
      ensures lu[k] == lo[k]
    {
      OccursAtChar(u, https, p, 11 + k);
      MiddleChar("github.com/", lu, "/", k);
      OwnerChar(lo, lr, k);
    }
  }

  /** The characters of the owner segment of an HTTPS remote. */
  lemma OwnerChar(lo: string, lr: string, k: int)
    requires 0 <= k < |lo|
    ensures ("https://github.com/" + lo + "/" + lr)[19 + k] == lo[k]
  {
  }

  /** The characters of the middle part of a three-part string. */
  lemma MiddleChar(a: string, m: string, b: string, k: int)
    requires 0 <= k < |m|
    ensures (a + m + b)[|a| + k] == m[k]
  {
  }

  /** An occurrence agrees with the text character by character. */
  lemma OccursAtChar(s: string, sub: string, p: int, k: int)
    requires OccursAt(s, sub, p) && 0 <= k < |sub|
    ensures 0 <= p + k < |s| && s[p + k] == sub[k]
  {
    assert s[p..p + |sub|][k] == sub[k];
  }

  /** An HTTPS remote never matches the SSH pattern. */
  lemma HttpsNoSsh(lo: string, lr: string, lu: string)
    requires NoSeparator(lo) && NoSeparator(lr)
    ensures !Contains("https://github.com/" + lo + "/" + lr, "github.com:" + lu + "/")
  {
    var u := "https://github.com/" + lo + "/" + lr;
    var ssh := "github.com:" + lu + "/";
    ContainsIff(u, ssh);
    if exists p :: OccursAt(u, ssh, p) {
      var p :| OccursAt(u, ssh, p);
      assert u[p + 10] == ssh[10] == ':';
      HttpsColons(lo, lr, p + 10);
      assert false;
    }
  }

  /** Where the slashes of a lower-cased HTTPS remote are. */
  lemma HttpsSlashes(lo: string, lr: string, k: int)
    requires NoSeparator(lo) && NoSeparator(lr)
    requires var u := "https://github.com/" + lo + "/" + lr; 0 <= k < |u| && u[k] == '/'
    ensures k == 6 || k == 7 || k == 18 || k == 19 + |lo|
  {
    var u := "https://github.com/" + lo + "/" + lr;
    if k < 19 {
      assert u[k] == "https://github.com/"[k];
    } else if k < 19 + |lo| {
    } else if k > 19 + |lo| {
    }
  }

  /** A lower-cased HTTPS remote has its only colon after the scheme. */
  lemma HttpsColons(lo: string, lr: string, k: int)
    requires NoSeparator(lo) && NoSeparator(lr)
    requires var u := "https://github.com/" + lo + "/" + lr; 0 <= k < |u| && u[k] == ':'
    ensures k == 5
  {
    var u := "https://github.com/" + lo + "/" + lr;
    if k < 19 {
      assert u[k] == "https://github.com/"[k];
    } else if k < 19 + |lo| {
    } else if k > 19 + |lo| {
    }
  }
}

=== FILE: line_endings.dfy ===
/** The line-ending utilities of the workflow synchroniser, over byte
    strings, together with Python's `bytes.replace` and `bytes.count`
    (left to right, non-overlapping) that they are built from. */
module LineEndings {

  newtype byte = x: int | 0 <= x < 256

  type Bytes = seq<byte>

  const CR: byte := 13
  const LF: byte := 10

  // ---------------------------------------------------------------------
  // bytes.replace and bytes.count

  /** Python `s.count(sub)`: non-overlapping occurrences, scanning left to
      right; the empty pattern occurs at every one of the |s| + 1 gaps. */
  function Count(s: Bytes, sub: Bytes): (n: nat)
    ensures |sub| == 0 ==> n == |s| + 1
    ensures |sub| > 0 ==> n * |sub| <= |s|
    decreases |s|
  {
    if |sub| == 0 then |s| + 1
    else if |s| < |sub| then 0
    else if s[..|sub|] == sub then
      var n := Count(s[|sub|..], sub);
      MulStep(n, |sub|);
      1 + n
    else Count(s[1..], sub)
  }

  lemma MulStep(c: int, d: int)
    ensures (1 + c) * d == d + c * d
  {
  }

  /** Python `s.replace(pat, rep)` with no count limit: each occurrence
      found scanning left to right is replaced and scanning resumes after
      it; the empty pattern inserts `rep` at every gap. Each replacement
      changes the length by |rep| - |pat|. */
  function Replace(s: Bytes, pat: Bytes, rep: Bytes): (r: Bytes)
    ensures |r| == |s| + Count(s, pat) * (|rep| - |pat|)
    decreases |s|
  {
    if |pat| == 0 then
      if |s| == 0 then rep
      else
        var rest := Replace(s[1..], pat, rep);
        MulStep(|s| - 1 + 1, |rep|);
        rep + [s[0]] + rest
    else if |s| < |pat| then s
    else if s[..|pat|] == pat then
      var rest := Replace(s[|pat|..], pat, rep);
      MulStep(Count(s[|pat|..], pat), |rep| - |pat|);
      rep + rest
    else [s[0]] + Replace(s[1..], pat, rep)
  }

  /** How many bytes of `s` equal `b`. */
  function Occ(s: Bytes, b: byte): nat {
    if |s| == 0 then 0 else (if s[0] == b then 1 else 0) + Occ(s[1..], b)
  }

  /** Counting a one-byte pattern counts that byte. */
  lemma {:induction false} CountByte(s: Bytes, b: byte)
    ensures Count(s, [b]) == Occ(s, b)
    decreases |s|
  {
    if |s| > 0 {
      CountByte(s[1..], b);
      assert s == [s[0]] + s[1..];
      assert s[..1] == [s[0]];
    }
  }

  /** Replacing a one-byte pattern maps each byte on its own. */
  lemma ReplaceByteCons(c: byte, t: Bytes, pat: byte, rep: byte)
    ensures Replace([c] + t, [pat], [rep]) == (if c == pat then [rep] else [c]) + Replace(t, [pat], [rep])
  {
    var s := [c] + t;
    assert s[..1] == [c];
    assert s[1..] == t;
  }

  // ---------------------------------------------------------------------
  // The three utilities

  /** `normalize_line_endings`: CR LF pairs, then lone CRs, become LF. */
  function Normalize(data: Bytes): Bytes {
    Replace(Replace(data, [CR, LF], [LF]), [CR], [LF])
  }

  /** `count_line_endings`: the CR LF pairs, then the LFs and the CRs
      left once those pairs are deleted. */
  function CountLineEndings(data: Bytes): (nat, nat, nat) {
    var rest := Replace(data, [CR, LF], []);
    (Count(data, [CR, LF]), Count(rest, [LF]), Count(rest, [CR]))
  }

  /** `is_line_ending_only_diff`: the inputs differ, but not once their
      line endings are normalised. It never holds of identical inputs and
      does not depend on the order of its arguments. */
  predicate IsLineEndingOnlyDiff(a: Bytes, b: Bytes) {
    a != b && Normalize(a) == Normalize(b)
  }

  // ---------------------------------------------------------------------
  // A one-pass reference normaliser

  /** Read the input once: a CR followed by an LF, a lone CR and an LF
      each become one LF; every other byte is kept. */
  function NormalizeRef(s: Bytes): (r: Bytes)
    ensures CR !in r
    decreases |s|
  {
    if |s| == 0 then []
    else if s[0] == CR then
      if |s| >= 2 && s[1] == LF then [LF] + NormalizeRef(s[2..]) else [LF] + NormalizeRef(s[1..])
    else [s[0]] + NormalizeRef(s[1..])
  }

  /** The two chained replaces compute the one-pass normaliser. */
  lemma {:induction false} NormalizeIsRef(s: Bytes)
    ensures Normalize(s) == NormalizeRef(s)
    decreases |s|
  {
    if |s| == 0 {
    } else if |s| == 1 {
      assert s == [s[0]] + [];
      assert Replace(s, [CR, LF], [LF]) == s;
      ReplaceByteCons(s[0], [], CR, LF);
    } else if s[..2] == [CR, LF] {
      PairAtFront(s, [LF]);
      var t := Replace(s[2..], [CR, LF], [LF]);
      ReplaceByteCons(LF, t, CR, LF);
      NormalizeIsRef(s[2..]);
    } else {
      NoPairAtFront(s, [LF]);
      var t := Replace(s[1..], [CR, LF], [LF]);
      ReplaceByteCons(s[0], t, CR, LF);
      NormalizeIsRef(s[1..]);
      assert s[..2] == [s[0], s[1]];
    }
  }

  /** Normalised output holds no CR. */
  lemma NormalizeNoCR(data: Bytes)
    ensures CR !in Normalize(data)
  {
    NormalizeIsRef(data);
  }

  /** Input without CR is left alone. */
  lemma {:induction false} NormalizeIdentity(s: Bytes)
    requires CR !in s
    ensures Normalize(s) == s
    decreases |s|
  {
    NormalizeIsRef(s);
    NormalizeRefIdentity(s);
  }

  lemma {:induction false} NormalizeRefIdentity(s: Bytes)
    requires CR !in s
    ensures NormalizeRef(s) == s
    decreases |s|
  {
    if |s| > 0 {
      assert s[0] in s;
      assert forall k :: 0 <= k < |s[1..]| ==> s[1..][k] == s[k + 1];
      NormalizeRefIdentity(s[1..]);
    }
  }

  /** Normalising twice is normalising once. */
  lemma NormalizeIdempotent(data: Bytes)
    ensures Normalize(Normalize(data)) == Normalize(data)
  {
    NormalizeNoCR(data);
    NormalizeIdentity(Normalize(data));
  }

  // ---------------------------------------------------------------------
  // Counting line endings

  /** Deleting the CR LF pairs removes one CR and one LF per pair. */
  lemma {:induction false} DeletePairs(s: Bytes)
    ensures Occ(s, CR) == Count(s, [CR, LF]) + Occ(Replace(s, [CR, LF], []), CR)
    ensures Occ(s, LF) == Count(s, [CR, LF]) + Occ(Replace(s, [CR, LF], []), LF)
    decreases |s|
  {
    if |s| < 2 {
      if |s| == 1 {
        assert s[1..] == [];
      }
    } else if s[..2] == [CR, LF] {
      DeletePairs(s[2..]);
      PairAtFront(s, []);
      var r := Replace(s[2..], [CR, LF], []);
      assert [] + r == r;
      OccTwo(s, CR);
      OccTwo(s, LF);
    } else {
      DeletePairs(s[1..]);
      NoPairAtFront(s, []);
      var u := Replace(s[1..], [CR, LF], []);
      OccCons(s[0], u, CR);
      OccCons(s[0], u, LF);
    }
  }

  /** A CR LF pair at the front is replaced and counted first. */
  lemma PairAtFront(s: Bytes, rep: Bytes)
    requires |s| >= 2 && s[..2] == [CR, LF]
    ensures s[0] == CR && s[1] == LF
    ensures Replace(s, [CR, LF], rep) == rep + Replace(s[2..], [CR, LF], rep)
    ensures Count(s, [CR, LF]) == 1 + Count(s[2..], [CR, LF])
  {
    assert s[0] == s[..2][0] && s[1] == s[..2][1];
  }

  /** Without a pair at the front, the first byte is kept as it is. */
  lemma NoPairAtFront(s: Bytes, rep: Bytes)
    requires |s| >= 2 && s[..2] != [CR, LF]
    ensures Replace(s, [CR, LF], rep) == [s[0]] + Replace(s[1..], [CR, LF], rep)
    ensures Count(s, [CR, LF]) == Count(s[1..], [CR, LF])
  {
  }

  /** Counting a byte in a list with one more byte in front. */
  lemma OccCons(c: byte, t: Bytes, b: byte)
    ensures Occ([c] + t, b) == (if c == b then 1 else 0) + Occ(t, b)
  {
    assert ([c] + t)[1..] == t;
  }

  /** Counting a byte over the first two bytes and the rest. */
  lemma OccTwo(s: Bytes, b: byte)
    requires |s| >= 2
    ensures Occ(s, b) == (if s[0] == b then 1 else 0) + (if s[1] == b then 1 else 0) + Occ(s[2..], b)
  {
    assert s[1..][1..] == s[2..];
  }

  /** Every CR and every LF byte is accounted for: twice per pair, once
      per lone LF or CR. */
  lemma CountLineEndingsTotal(data: Bytes)
    ensures var (crlf, lf, cr) := CountLineEndings(data);
      2 * crlf + lf + cr == Occ(data, CR) + Occ(data, LF)
  {
    var rest := Replace(data, [CR, LF], []);
    DeletePairs(data);
    CountByte(rest, LF);
    CountByte(rest, CR);
  }

  /** Turning the pairs into LF adds one LF per pair to what deleting
      them leaves, and the same CRs. */
  lemma {:induction false} PairsToLF(s: Bytes)
    ensures Occ(Replace(s, [CR, LF], [LF]), LF) == Count(s, [CR, LF]) + Occ(Replace(s, [CR, LF], []), LF)
    ensures Occ(Replace(s, [CR, LF], [LF]), CR) == Occ(Replace(s, [CR, LF], []), CR)
    decreases |s|
  {
    if |s| < 2 {
    } else if s[..2] == [CR, LF] {
      PairsToLF(s[2..]);
      PairAtFront(s, []);
      PairAtFront(s, [LF]);
      var r := Replace(s[2..], [CR, LF], []);
      assert [] + r == r;
      var t := Replace(s[2..], [CR, LF], [LF]);
      OccCons(LF, t, LF);
      OccCons(LF, t, CR);
    } else {
      PairsToLF(s[1..]);
      NoPairAtFront(s, []);
      NoPairAtFront(s, [LF]);
      var t := Replace(s[1..], [CR, LF], [LF]);
      var u := Replace(s[1..], [CR, LF], []);
      OccCons(s[0], t, LF);
      OccCons(s[0], t, CR);
      OccCons(s[0], u, LF);
      OccCons(s[0], u, CR);
    }
  }

  /** Turning CR into LF moves every CR into the LF count. */
  lemma {:induction false} CRToLF(t: Bytes)
    ensures Occ(Replace(t, [CR], [LF]), LF) == Occ(t, LF) + Occ(t, CR)
    decreases |t|
  {
    if |t| > 0 {
      assert t == [t[0]] + t[1..];
      ReplaceByteCons(t[0], t[1..], CR, LF);
      CRToLF(t[1..]);
      var u := Replace(t[1..], [CR], [LF]);
      var head: Bytes := if t[0] == CR then [LF] else [t[0]];
      assert (head + u)[1..] == u;
    }
  }

  /** The normalised output holds exactly one LF per line ending counted. */
  lemma NormalizedLFCount(data: Bytes)
    ensures var (crlf, lf, cr) := CountLineEndings(data);
      Occ(Normalize(data), LF) == crlf + lf + cr
  {
    var rest := Replace(data, [CR, LF], []);
    var mid := Replace(data, [CR, LF], [LF]);
    PairsToLF(data);
    CRToLF(mid);
    CountByte(rest, LF);
    CountByte(rest, CR);
  }

  // ---------------------------------------------------------------------
  // is_line_ending_only_diff

  /** Two byte strings differ only in line endings exactly when they
      differ and the one-pass normaliser maps them to the same bytes. */
  lemma LineEndingOnlyDiffIff(a: Bytes, b: Bytes)
    ensures IsLineEndingOnlyDiff(a, b) <==> a != b && NormalizeRef(a) == NormalizeRef(b)
  {
    NormalizeIsRef(a);
    NormalizeIsRef(b);
  }

  /** Identical inputs never differ only in line endings, and the
      relation does not depend on the order of the arguments. */
  lemma LineEndingOnlyDiffSymmetric(a: Bytes, b: Bytes)
    ensures !IsLineEndingOnlyDiff(a, a)
    ensures IsLineEndingOnlyDiff(a, b) == IsLineEndingOnlyDiff(b, a)
  {
  }

  /** "a\r\nb" and "a\nb" differ only in their line ending. */
  lemma LineEndingOnlyDiffExample()
    ensures IsLineEndingOnlyDiff([97, CR, LF, 98], [97, LF, 98])
    ensures !IsLineEndingOnlyDiff([97, LF, 98], [97, LF, 98])
  {
    var a: Bytes := [97, CR, LF, 98];
    var b: Bytes := [97, LF, 98];
    LineEndingOnlyDiffIff(a, b);
    assert a[1..][1..][1..] == [98];
    assert NormalizeRef(a) == [97] + NormalizeRef(a[1..]);
    assert NormalizeRef(a[1..]) == [LF] + NormalizeRef([98]);
    assert NormalizeRef(b) == [97] + NormalizeRef(b[1..]);
    assert b[1..][1..] == [98];
    assert NormalizeRef(b[1..]) == [LF] + NormalizeRef([98]);
  }
}

=== FILE: local_app.dfy ===
/** The decisions of the local checker's `main`: which sibling
    directories are scanned, the four status buckets and the summary
    counts, the per-repository detail string, and which repositories
    `--pull` pulls. Printing, the JSON file and the clock are left out. */
module LocalApp {
  import opened Wrappers
  import opened PyStr
  import opened Seqs
  import opened Ordering
  import opened RepoState
  import opened GitUtils
  import opened LocalChecker

  // ---------------------------------------------------------------------
  // Sibling directories

  /** The entries of the parent directory that are scanned: in sorted
      order, directories only, the current directory excluded. */
  function Siblings(entries: seq<string>, isDir: string -> bool, current: string): (r: seq<string>)
    ensures Sorted(r)
    ensures forall x :: x in r <==> x in entries && isDir(x) && x != current
    ensures Distinct(entries) ==> Distinct(r)
  {
    var sorted := Sort(entries);
    FilterKeepsSorted(sorted, x => isDir(x) && x != current);
    assert Distinct(entries) ==> Distinct(Filter(sorted, x => isDir(x) && x != current)) by {
      if Distinct(entries) {
        SortKeepsDistinct(entries);
        FilterKeepsDistinct(sorted, x => isDir(x) && x != current);
      }
    }
    assert forall x :: x in sorted <==> x in multiset(entries);
    Filter(sorted, x => isDir(x) && x != current)
  }

  /** The path `check_repo` is given for a sibling. */
  function SiblingPath(parent: string, name: string): string {
    parent + "/" + name
  }

  /** `check_repo` on every sibling in order; the first `int()` failure
      aborts the scan. */
  function Scan(parent: string, names: seq<string>, user: string, observe: string -> Outcomes)
    : (r: Result<seq<Report>>)
    ensures r.Success? <==>
      forall i :: 0 <= i < |names| ==>
        CheckRepo(SiblingPath(parent, names[i]), names[i], user, observe(names[i])).Success?
    ensures r.Success? ==> |r.value| == |names|
    ensures r.Success? ==> forall i :: 0 <= i < |names| ==>
      r.value[i] == CheckRepo(SiblingPath(parent, names[i]), names[i], user, observe(names[i])).value
  {
    if |names| == 0 then Success([])
    else
      var first :- CheckRepo(SiblingPath(parent, names[0]), names[0], user, observe(names[0]));
      var rest :- Scan(parent, names[1..], user, observe);
      Success([first] + rest)
  }

  /** Every record of a successful scan is well-formed. */
  lemma ScanWellFormed(parent: string, names: seq<string>, user: string, observe: string -> Outcomes)
    requires Scan(parent, names, user, observe).Success?
    ensures forall k :: 0 <= k < |Scan(parent, names, user, observe).value| ==>
      WellFormed(Scan(parent, names, user, observe).value[k])
  {
    var r := Scan(parent, names, user, observe).value;
    forall k | 0 <= k < |r|
      ensures WellFormed(r[k])
    {
      CheckRepoWellFormed(SiblingPath(parent, names[k]), names[k], user, observe(names[k]));
    }
  }

  // ---------------------------------------------------------------------
  // Buckets and summary

  predicate IsTarget(r: Report) {
    r.isTarget
  }

  /** The test of one bucket. */
  function HasStatus(st: Status): Report -> bool {
    (r: Report) => r.status == Some(st)
  }

  function Targets(results: seq<Report>): seq<Report> {
    Filter(results, IsTarget)
  }

  /** The target repositories with status `st`, in scan order. */
  function Bucket(results: seq<Report>, st: Status): seq<Report> {
    Filter(Targets(results), HasStatus(st))
  }

  datatype Summary = Summary(
    totalScanned: nat,
    targetRepos: nat,
    pullable: nat,
    diverged: nat,
    upToDate: nat,
    unknown: nat)

  function MakeSummary(results: seq<Report>): Summary {
    Summary(|results|, |Targets(results)|,
            |Bucket(results, Pullable)|, |Bucket(results, Diverged)|,
            |Bucket(results, UpToDate)|, |Bucket(results, Unknown)|)
  }

  /** The four buckets are disjoint and cover every target, because every
      well-formed target has exactly one status; their sizes add up to the
      number of targets, which never exceeds the number scanned. */
  lemma SummaryPartition(results: seq<Report>)
    requires forall k :: 0 <= k < |results| ==> WellFormed(results[k])
    ensures var s := MakeSummary(results);
      s.pullable + s.diverged + s.upToDate + s.unknown == s.targetRepos <= s.totalScanned
    ensures forall r :: r in Targets(results) ==> r.status.Some? && r in Bucket(results, r.status.value)
  {
    var t := Targets(results);
    forall k | 0 <= k < |t|
      ensures t[k].status.Some?
    {
      assert t[k] in results;
    }
    BucketSizes(t);
    forall r | r in t
      ensures r in Bucket(results, r.status.value)
    {
      assert r in results;
    }
  }

  /** Counting a list of classified reports bucket by bucket. */
  lemma {:induction false} BucketSizes(t: seq<Report>)
    requires forall k :: 0 <= k < |t| ==> t[k].status.Some?
    ensures |Filter(t, HasStatus(Pullable))| + |Filter(t, HasStatus(Diverged))|
          + |Filter(t, HasStatus(UpToDate))| + |Filter(t, HasStatus(Unknown))| == |t|
    decreases |t|
  {
    if |t| > 0 {
      BucketSizes(t[1..]);
      match t[0].status.value
      case Pullable =>
      case Diverged =>
      case UpToDate =>
      case Unknown =>
    }
  }

  // ---------------------------------------------------------------------
  // Detail string

  /** The parts of the detail string, in order. */
  function DetailParts(rep: Report): seq<string> {
    (if rep.dirty == Some(true) then ["dirty"] else [])
    + (if rep.behind.Some? && rep.behind.value > 0 then ["behind " + NatToString(rep.behind.value)] else [])
    + (if rep.ahead.Some? && rep.ahead.value > 0 then ["ahead " + NatToString(rep.ahead.value)] else [])
  }

  /** The parenthesised detail printed for each target: "clean" exactly
      when the worktree is clean and neither count is positive; otherwise
      the parts joined by ", ", the dirty marker first and the behind count
      before the ahead count. */
  function Detail(rep: Report): (d: string)
    ensures d == "clean" <==>
      rep.dirty != Some(true)
      && !(rep.behind.Some? && rep.behind.value > 0)
      && !(rep.ahead.Some? && rep.ahead.value > 0)
    ensures rep.dirty == Some(true) ==> StartsWith(d, "dirty")
    ensures rep.dirty != Some(true) && rep.behind.Some? && rep.behind.value > 0 ==>
      StartsWith(d, "behind " + NatToString(rep.behind.value))
    ensures (rep.dirty != Some(true) && !(rep.behind.Some? && rep.behind.value > 0)
             && rep.ahead.Some? && rep.ahead.value > 0) ==>
      d == "ahead " + NatToString(rep.ahead.value)
  {
    var parts := DetailParts(rep);
    if |parts| == 0 then "clean"
    else
      var d := Join(", ", parts);
      assert StartsWith(d, parts[0]);
      assert d[0] == parts[0][0] != 'c';
      d
  }

  /** All three parts, in the order the source writes them. */
  lemma DetailAllParts(behind: nat, ahead: nat, rep: Report)
    requires rep.dirty == Some(true) && rep.behind == Some(behind) && rep.ahead == Some(ahead)
    requires behind > 0 && ahead > 0
    ensures Detail(rep) == "dirty, behind " + NatToString(behind) + ", ahead " + NatToString(ahead)
  {
    DetailExact(rep);
  }

  /** The detail string for every combination of the three conditions:
      each present part in turn, with ", " between two present parts,
      and "clean" when none is present. */
  lemma DetailExact(rep: Report)
    ensures var dirty := rep.dirty == Some(true);
      var behind := rep.behind.Some? && rep.behind.value > 0;
      var ahead := rep.ahead.Some? && rep.ahead.value > 0;
      var b := if behind then "behind " + NatToString(rep.behind.value) else "";
      var a := if ahead then "ahead " + NatToString(rep.ahead.value) else "";
      Detail(rep) ==
        if !dirty && !behind && !ahead then "clean"
        else (if dirty then "dirty" else "") + (if dirty && behind then ", " else "") + b
             + (if (dirty || behind) && ahead then ", " else "") + a
  {
    var behind := rep.behind.Some? && rep.behind.value > 0;
    var ahead := rep.ahead.Some? && rep.ahead.value > 0;
    var b := if behind then "behind " + NatToString(rep.behind.value) else "";
    var a := if ahead then "ahead " + NatToString(rep.ahead.value) else "";
    JoinOptional("dirty", b, a, rep.dirty == Some(true), behind, ahead);
  }

  /** Joining up to three optional parts with ", " puts a separator
      exactly between two present parts. */
  lemma JoinOptional(x: string, y: string, z: string, hx: bool, hy: bool, hz: bool)
    requires !hy ==> y == ""
    requires !hz ==> z == ""
    ensures var parts := (if hx then [x] else []) + (if hy then [y] else []) + (if hz then [z] else []);
      hx || hy || hz ==>
        Join(", ", parts) == (if hx then x else "") + (if hx && hy then ", " else "") + y
                             + (if (hx || hy) && hz then ", " else "") + z
  {
    if hx && hy && hz {
      JoinThree(x, y, z);
      assert [x] + [y] + [z] == [x, y, z];
    } else if hx && hy {
      JoinTwo(x, y);
      assert [x] + [y] + [] == [x, y];
    } else if hx && hz {
      JoinTwo(x, z);
      assert [x] + [] + [z] == [x, z];
    } else if hy && hz {
      JoinTwo(y, z);
      assert [] + [y] + [z] == [y, z];
    } else if hx {
      assert [x] + [] + [] == [x];
    } else if hy {
      assert [] + [y] + [] == [y];
    } else if hz {
      assert [] + [] + [z] == [z];
    }
  }

  lemma JoinTwo(x: string, y: string)
    ensures Join(", ", [x, y]) == x + ", " + y
  {
    assert [x, y][1..] == [y];
  }

  lemma JoinThree(x: string, y: string, z: string)
    ensures Join(", ", [x, y, z]) == x + ", " + y + ", " + z
  {
    assert [x, y, z][1..] == [y, z];
    JoinTwo(y, z);
  }

  // ---------------------------------------------------------------------
  // --pull

  /** The repositories `--pull` pulls: none without the flag, otherwise
      the pullable bucket in scan order. */
  function PullSelection(results: seq<Report>, doPull: bool): (pulled: seq<Report>)
    ensures !doPull ==> pulled == []
    ensures forall r :: r in pulled <==> doPull && r in results && r.isTarget && r.status == Some(Pullable)
  {
    if doPull then Bucket(results, Pullable) else []
  }

  /** Selection is done in scan order: the selection of a longer scan
      extends the selection of its prefix. */
  lemma PullSelectionInOrder(a: seq<Report>, b: seq<Report>, doPull: bool)
    ensures PullSelection(a + b, doPull) == PullSelection(a, doPull) + PullSelection(b, doPull)
  {
    if doPull {
      FilterConcat(a, b, IsTarget);
      FilterConcat(Targets(a), Targets(b), HasStatus(Pullable));
    }
  }

  /** Every repository handed to `pull_repo` is clean, strictly behind
      and not ahead, so the fast-forward-only pull is the right call. */
  lemma PulledAreFastForward(results: seq<Report>, doPull: bool)
    requires forall k :: 0 <= k < |results| ==> WellFormed(results[k])
    ensures forall r :: r in PullSelection(results, doPull) ==>
      r.dirty == Some(false) && r.behind.Some? && r.behind.value > 0 && r.ahead == Some(0)
  {
    forall r | r in PullSelection(results, doPull)
      ensures r.dirty == Some(false) && r.behind.Some? && r.behind.value > 0 && r.ahead == Some(0)
    {
      assert r in results;
      PullableIsFastForward(r.dirty.value, r.behind.value, r.ahead.value);
    }
  }

  /** `pull_results`: one entry per pulled name, holding what `pull_repo`
      reported, a later entry for the same name replacing an earlier
      one. */
  function PullResults(pulled: seq<Report>, pull: string -> GitRun): (m: map<string, (bool, string)>)
    ensures m.Keys == set k | 0 <= k < |pulled| :: pulled[k].name
    ensures forall k :: 0 <= k < |pulled| && LastOfName(pulled, k) ==>
      m[pulled[k].name] == PullRepo(pull(pulled[k].path))
  {
    if |pulled| == 0 then map[]
    else
      var init := pulled[..|pulled| - 1];
      var last := pulled[|pulled| - 1];
      assert pulled == init + [last];
      PullResultsSnoc(init, last, PullResults(init, pull), (r: Report) => PullRepo(pull(r.path)));
      PullResults(init, pull)[last.name := PullRepo(pull(last.path))]
  }

  /** Assigning the entry of one more record keeps the key set and the
      last-wins values. */
  lemma PullResultsSnoc<V>(init: seq<Report>, last: Report, m0: map<string, V>, f: Report -> V)
    requires m0.Keys == set k | 0 <= k < |init| :: init[k].name
    requires forall k :: 0 <= k < |init| && LastOfName(init, k) ==> m0[init[k].name] == f(init[k])
    ensures var pulled := init + [last];
      var m := m0[last.name := f(last)];
      m.Keys == (set k | 0 <= k < |pulled| :: pulled[k].name)
      && forall k :: 0 <= k < |pulled| && LastOfName(pulled, k) ==> m[pulled[k].name] == f(pulled[k])
  {
    var pulled := init + [last];
    var m := m0[last.name := f(last)];
    var ks := set k | 0 <= k < |pulled| :: pulled[k].name;
    forall n | n in ks
      ensures n in m0.Keys || n == last.name
    {
      var k :| 0 <= k < |pulled| && pulled[k].name == n;
      if k < |init| {
        assert init[k] == pulled[k];
      }
    }
    forall n | n in m0.Keys
      ensures n in ks
    {
      var k :| 0 <= k < |init| && init[k].name == n;
      assert pulled[k] == init[k];
    }
    assert pulled[|init|] == last;
    forall k | 0 <= k < |pulled| && LastOfName(pulled, k)
      ensures m[pulled[k].name] == f(pulled[k])
    {
      if k < |init| {
        assert pulled[|init|].name != pulled[k].name;
        assert pulled[k] == init[k];
        forall j | k < j < |init|
          ensures init[j].name != init[k].name
        {
          assert pulled[j] == init[j];
        }
      }
    }
  }

  /** No later record has the same name as record `k`. */
  ghost predicate LastOfName(reps: seq<Report>, k: int)
    requires 0 <= k < |reps|
  {
    forall j :: k < j < |reps| ==> reps[j].name != reps[k].name
  }

  // ---------------------------------------------------------------------
  // main

  datatype RunOutput = RunOutput(
    exitCode: int,
    results: seq<Report>,
    summary: Summary,
    pullResults: map<string, (bool, string)>)

  /** `main`, with the directory listing, the git calls and `pull_repo`'s
      process given as inputs. A missing or empty user name exits 1 before
      anything is scanned. */
  function RunChecker(
    user: Option<string>, parent: string, entries: seq<string>, isDir: string -> bool,
    current: string, observe: string -> Outcomes, doPull: bool, pull: string -> GitRun)
    : (r: Result<RunOutput>)
    ensures user.GetOr("") == "" ==> r.Success? && r.value.exitCode == 1 && r.value.results == []
    ensures user.GetOr("") != "" ==>
      (r.Success? <==> Scan(parent, Siblings(entries, isDir, current), user.value, observe).Success?)
    ensures user.GetOr("") != "" && r.Success? ==>
      r.value.results == Scan(parent, Siblings(entries, isDir, current), user.value, observe).value
    ensures user.GetOr("") != "" && r.Success? ==>
      var siblings := Siblings(entries, isDir, current);
      r.value.exitCode == 0
      && |r.value.results| == r.value.summary.totalScanned == |siblings|
      && r.value.summary.pullable + r.value.summary.diverged
         + r.value.summary.upToDate + r.value.summary.unknown == r.value.summary.targetRepos
      && (!doPull ==> r.value.pullResults == map[])
    ensures user.GetOr("") != "" && r.Success? ==>
      r.value.summary == MakeSummary(r.value.results)
      && r.value.pullResults == PullResults(PullSelection(r.value.results, doPull), pull)
  {
    var name := user.GetOr("");
    if name == "" then Success(RunOutput(1, [], MakeSummary([]), map[]))
    else
      var siblings := Siblings(entries, isDir, current);
      var results :- Scan(parent, siblings, name, observe);
      ScanWellFormed(parent, siblings, name, observe);
      SummaryPartition(results);
      Success(RunOutput(0, results, MakeSummary(results),
                        PullResults(PullSelection(results, doPull), pull)))
  }
}

=== FILE: local_checker.dfy ===
/** `check_repo` of the local checker: a guard chain over the outcomes of
    the git calls for one directory, filling a result record. */
module LocalChecker {
  import opened Wrappers
  import opened PyStr
  import opened RepoState
  import opened GitUtils

  /** The finished git processes `check_repo` may consult, one per call,
      in the order it makes them. A call that the guard chain never
      reaches is simply not looked at. */
  datatype GitProbe = GitProbe(
    gitDir: GitRun,    // rev-parse --git-dir
    remote: GitRun,    // remote get-url origin
    branch: GitRun,    // rev-parse --abbrev-ref HEAD
    status: GitRun,    // status --porcelain
    fetch: GitRun,     // fetch origin --quiet
    revList: GitRun)   // rev-list --left-right --count origin/<branch>...HEAD

  /** What the git helpers make of those processes. */
  datatype Outcomes = Outcomes(
    isGitRepo: bool,
    remoteUrl: Option<string>,
    branch: Option<string>,
    dirty: bool,
    fetchOk: bool,
    fetchErr: Option<string>,
    counts: Result<(int, int)>)

  /** Each git helper applied to its own process. */
  function Observe(p: GitProbe): (o: Outcomes)
    ensures o.isGitRepo == IsGitRepo(p.gitDir)
    ensures o.remoteUrl == GetRemoteUrl(p.remote) && o.branch == GetCurrentBranch(p.branch)
    ensures o.dirty == IsDirty(p.status) && o.counts == GetBehindAhead(p.revList)
    ensures (o.fetchOk, o.fetchErr) == FetchRemote(p.fetch)
  {
    var (ok, err) := FetchRemote(p.fetch);
    Outcomes(IsGitRepo(p.gitDir), GetRemoteUrl(p.remote), GetCurrentBranch(p.branch),
             IsDirty(p.status), ok, err, GetBehindAhead(p.revList))
  }

  /** The result record; JSON `null` is `None`. */
  datatype Report = Report(
    path: string,
    name: string,
    isTarget: bool,
    remoteUrl: Option<string>,
    branch: Option<string>,
    dirty: Option<bool>,
    behind: Option<int>,
    ahead: Option<int>,
    status: Option<Status>,
    error: Option<string>)

  const NotGitRepo: string := "git リポジトリではない"
  const NoOrigin: string := "origin が設定されていない"
  const DetachedHead: string := "detached HEAD 状態か、ブランチ名取得失敗"
  const NoTracking: string := "tracking ブランチが見つからない（origin に対応ブランチがないかもしれない）"
  const ErrorSeparator: string := " / "

  /** The record every check starts from. */
  function Blank(path: string, name: string): Report {
    Report(path, name, false, None, None, None, None, None, None, None)
  }

  /** The branch call yields a usable branch: it succeeded and HEAD is
      not detached. */
  predicate HasBranch(o: Outcomes) {
    o.branch.Some? && o.branch.value != "HEAD"
  }

  /** The repository passes the first three guards: it is a git
      repository, has an origin, and the origin belongs to `user`. */
  predicate Targeted(user: string, o: Outcomes) {
    o.isGitRepo && o.remoteUrl.Some? && IsTargetRepo(o.remoteUrl.value, user)
  }

  /** The messages collected after the branch guard, in the order they
      are appended: the fetch failure first, then the missing tracking
      branch. */
  function Messages(fetchOk: bool, fetchMsg: string, behind: int): (errs: seq<string>)
    ensures |errs| <= 2
    ensures |errs| == 0 <==> fetchOk && behind >= 0
    ensures !fetchOk ==> errs[0] == fetchMsg
    ensures behind < 0 ==> errs[|errs| - 1] == NoTracking
  {
    (if fetchOk then [] else [fetchMsg]) + (if behind >= 0 then [] else [NoTracking])
  }

  /** The last stage of `check_repo`, once the branch is known: record
      the dirty flag, the counts when readable, the classification, and the
      collected messages joined in order. */
  function Finish(base: Report, dirty: bool, fetchOk: bool, fetchMsg: string, behind: int, ahead: int)
    : (rep: Report)
    ensures rep.path == base.path && rep.name == base.name && rep.isTarget == base.isTarget
    ensures rep.remoteUrl == base.remoteUrl && rep.branch == base.branch
    ensures rep.dirty == Some(dirty)
    ensures rep.status == Some(Classify(dirty, behind, ahead))
    ensures rep.behind.Some? <==> behind >= 0
    ensures rep.ahead.Some? <==> behind >= 0
    ensures behind >= 0 ==> rep.behind == Some(behind) && rep.ahead == Some(ahead)
    ensures rep.error.None? <==> fetchOk && behind >= 0
    ensures !fetchOk && behind < 0 ==> rep.error == Some(fetchMsg + ErrorSeparator + NoTracking)
    ensures !fetchOk && behind >= 0 ==> rep.error == Some(fetchMsg)
    ensures fetchOk && behind < 0 ==> rep.error == Some(NoTracking)
  {
    var errs := Messages(fetchOk, fetchMsg, behind);
    base.(
      dirty := Some(dirty),
      behind := if behind >= 0 then Some(behind) else None,
      ahead := if behind >= 0 then Some(ahead) else None,
      status := Some(Classify(dirty, behind, ahead)),
      error := if |errs| > 0 then Some(Join(ErrorSeparator, errs)) else None)
  }

  /** `check_repo`, given what the git helpers report. It fails only when
      `int()` rejects a token of the rev-list output, which the source does
      not catch. */
  function CheckRepo(path: string, name: string, user: string, o: Outcomes): (r: Result<Report>)
    ensures r.Success? ==> r.value.path == path && r.value.name == name
    ensures r.Failure? <==> Targeted(user, o) && HasBranch(o) && o.counts.Failure?
  {
    var blank := Blank(path, name);
    if !o.isGitRepo then Success(blank.(error := Some(NotGitRepo)))
    else
      var withUrl := blank.(remoteUrl := o.remoteUrl);
      if o.remoteUrl.None? then Success(withUrl.(error := Some(NoOrigin)))
      else if !IsTargetRepo(o.remoteUrl.value, user) then Success(withUrl)
      else
        var withBranch := withUrl.(isTarget := true, branch := o.branch);
        if o.branch.None? || o.branch.value == "HEAD" then
          Success(withBranch.(error := Some(DetachedHead), status := Some(Unknown)))
        else
          var counts :- o.counts;
          Success(Finish(withBranch, o.dirty, o.fetchOk, o.fetchErr.GetOr(FetchFailed),
                         counts.0, counts.1))
  }

  /** The first three guards: a non-repository, a missing origin and a
      foreign owner all leave the record untargeted and without status;
      only the first two set an error. */
  lemma CheckRepoNonTarget(path: string, name: string, user: string, o: Outcomes)
    ensures !o.isGitRepo ==>
      CheckRepo(path, name, user, o) == Success(Blank(path, name).(error := Some(NotGitRepo)))
    ensures o.isGitRepo && o.remoteUrl.None? ==>
      CheckRepo(path, name, user, o) == Success(Blank(path, name).(error := Some(NoOrigin)))
    ensures o.isGitRepo && o.remoteUrl.Some? && !Targeted(user, o) ==>
      CheckRepo(path, name, user, o) == Success(Blank(path, name).(remoteUrl := o.remoteUrl))
  {
  }

  /** A target always gets a status: unknown when the branch is missing
      or detached, the classification of the git state otherwise. Fetch
      failure and a missing tracking branch only add messages, in that
      order. */
  lemma CheckRepoTarget(path: string, name: string, user: string, o: Outcomes)
    requires Targeted(user, o)
    ensures !HasBranch(o) ==>
      CheckRepo(path, name, user, o)
        == Success(Blank(path, name).(isTarget := true, remoteUrl := o.remoteUrl, branch := o.branch,
                                     status := Some(Unknown), error := Some(DetachedHead)))
    ensures HasBranch(o) && o.counts.Success? ==>
      var rep := CheckRepo(path, name, user, o).value;
      var (b, a) := o.counts.value;
      rep.path == path && rep.name == name && rep.remoteUrl == o.remoteUrl
      && rep.isTarget && rep.branch == o.branch && rep.dirty == Some(o.dirty)
      && rep.status == Some(Classify(o.dirty, b, a))
      && (b >= 0 ==> rep.behind == Some(b) && rep.ahead == Some(a))
      && (b < 0 ==> rep.behind.None? && rep.ahead.None?)
      && (rep.error.None? <==> o.fetchOk && b >= 0)
      && (!o.fetchOk && b < 0 ==> rep.error == Some(o.fetchErr.GetOr(FetchFailed) + ErrorSeparator + NoTracking))
      && (!o.fetchOk && b >= 0 ==> rep.error == Some(o.fetchErr.GetOr(FetchFailed)))
      && (o.fetchOk && b < 0 ==> rep.error == Some(NoTracking))
  {
  }

  /** The shape every record `check_repo` returns has. */
  ghost predicate WellFormed(rep: Report) {
    // a non-target record carries no git state beyond the remote URL
    (!rep.isTarget ==> rep.branch.None? && rep.dirty.None? && rep.behind.None?
                       && rep.ahead.None? && rep.status.None?)
    // every target has a status
    && (rep.isTarget ==> rep.remoteUrl.Some? && rep.status.Some?)
    // the counts are present together and only when readable
    && (rep.behind.Some? <==> rep.ahead.Some?)
    && (rep.behind.Some? ==> rep.behind.value >= 0 && rep.dirty.Some?)
    // a present count pair is what the status was classified from
    && (rep.behind.Some? ==>
          rep.status == Some(Classify(rep.dirty.value, rep.behind.value, rep.ahead.value)))
    // without a usable branch there is neither a dirty flag nor counts
    && (rep.isTarget && rep.dirty.None? ==> rep.status == Some(Unknown) && rep.error == Some(DetachedHead))
    // unreadable counts classify as unknown
    && (rep.isTarget && rep.dirty.Some? && rep.behind.None? ==> rep.status == Some(Unknown))
    // an error-free target had readable counts
    && (rep.isTarget && rep.error.None? ==> rep.behind.Some?)
  }

  /** Every successful check yields a well-formed record, targeted
      exactly when the first three guards pass. */
  lemma CheckRepoWellFormed(path: string, name: string, user: string, o: Outcomes)
    requires CheckRepo(path, name, user, o).Success?
    ensures WellFormed(CheckRepo(path, name, user, o).value)
    ensures CheckRepo(path, name, user, o).value.isTarget <==> Targeted(user, o)
  {
  }

  /** A fetch failure is always reported with a message that starts with
      the fixed fetch-failure text. */
  lemma FetchMessageShape(p: GitProbe)
    requires !Observe(p).fetchOk
    ensures StartsWith(Observe(p).fetchErr.GetOr(FetchFailed), FetchFailed)
  {
  }
}

=== FILE: ordering.dfy ===
/** Python's ordering of `str` values (code point by code point, a proper
    prefix first) and `sorted()` over a list of them. Directory listings
    are sorted this way before they are scanned; siblings share a parent
    directory, so comparing their paths compares their names. */
module Ordering {
  import opened Seqs

  /** Python `a <= b` on `str`. */
  predicate LexLe(a: string, b: string)
    decreases |a|
  {
    |a| == 0 || (|b| > 0 && (a[0] < b[0] || (a[0] == b[0] && LexLe(a[1..], b[1..]))))
  }

  lemma {:induction false} LexLeRefl(a: string)
    ensures LexLe(a, a)
    decreases |a|
  {
    if |a| > 0 {
      LexLeRefl(a[1..]);
    }
  }

  lemma {:induction false} LexLeTotal(a: string, b: string)
    ensures LexLe(a, b) || LexLe(b, a)
    decreases |a|
  {
    if |a| > 0 && |b| > 0 && a[0] == b[0] {
      LexLeTotal(a[1..], b[1..]);
    }
  }

  lemma {:induction false} LexLeTrans(a: string, b: string, c: string)
    requires LexLe(a, b) && LexLe(b, c)
    ensures LexLe(a, c)
    decreases |a|
  {
    if |a| > 0 && a[0] == b[0] && b[0] == c[0] {
      LexLeTrans(a[1..], b[1..], c[1..]);
    }
  }

  lemma {:induction false} LexLeAntisym(a: string, b: string)
    requires LexLe(a, b) && LexLe(b, a)
    ensures a == b
    decreases |a|
  {
    if |a| > 0 {
      LexLeAntisym(a[1..], b[1..]);
      assert a == [a[0]] + a[1..];
      assert b == [b[0]] + b[1..];
    }
  }

  /** Every pair of positions is in order. */
  ghost predicate Sorted(s: seq<string>) {
    forall i, j :: 0 <= i < j < |s| ==> LexLe(s[i], s[j])
  }

  /** Insert `x` into a sorted list before the first element it does not
      exceed. */
  function Insert(x: string, s: seq<string>): (r: seq<string>)
    requires Sorted(s)
    ensures Sorted(r)
    ensures multiset(r) == multiset(s) + multiset{x}
  {
    if |s| == 0 then [x]
    else if LexLe(x, s[0]) then
      BelowAll(x, s);
      SortedCons(x, s);
      [x] + s
    else
      SortedTail(s);
      var t := Insert(x, s[1..]);
      LexLeTotal(x, s[0]);
      HeadBelowAll(s, x, t);
      SortedCons(s[0], t);
      assert s == [s[0]] + s[1..];
      [s[0]] + t
  }

  /** A sorted list stays sorted without its head. */
  lemma SortedTail(s: seq<string>)
    requires Sorted(s) && |s| > 0
    ensures Sorted(s[1..])
  {
    forall i, j | 0 <= i < j < |s| - 1
      ensures LexLe(s[1..][i], s[1..][j])
    {
      assert s[1..][i] == s[i + 1] && s[1..][j] == s[j + 1];
    }
  }

  /** An element at most every element of a list may go in front of it. */
  lemma SortedCons(x: string, s: seq<string>)
    requires Sorted(s)
    requires forall j :: 0 <= j < |s| ==> LexLe(x, s[j])
    ensures Sorted([x] + s)
  {
    forall i, j | 0 <= i < j < |s| + 1
      ensures LexLe(([x] + s)[i], ([x] + s)[j])
    {
      assert ([x] + s)[j] == s[j - 1];
      if i > 0 {
        assert ([x] + s)[i] == s[i - 1];
      }
    }
  }

  /** An element at most the head of a sorted list is at most all of it. */
  lemma BelowAll(x: string, s: seq<string>)
    requires Sorted(s) && |s| > 0 && LexLe(x, s[0])
    ensures forall j :: 0 <= j < |s| ==> LexLe(x, s[j])
  {
    forall j | 0 <= j < |s|
      ensures LexLe(x, s[j])
    {
      if j > 0 {
        LexLeTrans(x, s[0], s[j]);
      }
    }
  }

  /** The head of a sorted list is at most every element of its tail with
      one more element above the head inserted. */
  lemma HeadBelowAll(s: seq<string>, x: string, t: seq<string>)
    requires Sorted(s) && |s| > 0 && LexLe(s[0], x)
    requires multiset(t) == multiset(s[1..]) + multiset{x}
    ensures forall j :: 0 <= j < |t| ==> LexLe(s[0], t[j])
  {
    forall j | 0 <= j < |t|
      ensures LexLe(s[0], t[j])
    {
      var y := t[j];
      assert y in multiset(t);
      if y != x {
        assert y in multiset(s[1..]);
        var k :| 0 <= k < |s[1..]| && s[1..][k] == y;
        assert s[k + 1] == y;
      }
    }
  }

  /** Python `sorted(xs)` for a list of `str`. */
  function Sort(s: seq<string>): (r: seq<string>)
    ensures Sorted(r)
    ensures multiset(r) == multiset(s)
  {
    if |s| == 0 then []
    else
      assert s == [s[0]] + s[1..];
      Insert(s[0], Sort(s[1..]))
  }

  /** A sorted list holds its least element first. */
  lemma SortedHeadLeast(s: seq<string>, y: string)
    requires Sorted(s) && |s| > 0 && y in multiset(s)
    ensures LexLe(s[0], y)
  {
    var j :| 0 <= j < |s| && s[j] == y;
    if j == 0 {
      LexLeRefl(y);
    }
  }

  /** There is only one sorted arrangement of a multiset of strings, so
      `Sort` is determined by its contract. */
  lemma {:induction false} SortedUnique(a: seq<string>, b: seq<string>)
    requires Sorted(a) && Sorted(b)
    requires multiset(a) == multiset(b)
    ensures a == b
    decreases |a|
  {
    assert |a| == |multiset(a)| == |multiset(b)| == |b|;
    if |a| > 0 {
      assert a[0] in multiset(b) && b[0] in multiset(a);
      SortedHeadLeast(b, a[0]);
      SortedHeadLeast(a, b[0]);
      LexLeAntisym(a[0], b[0]);
      MultisetTail(a);
      MultisetTail(b);
      SortedTail(a);
      SortedTail(b);
      SortedUnique(a[1..], b[1..]);
      forall i | 0 <= i < |a|
        ensures a[i] == b[i]
      {
        if i > 0 {
          assert a[i] == a[1..][i - 1] && b[i] == b[1..][i - 1];
        }
      }
    }
  }

  /** The multiset of a tail is the whole one less its head. */
  lemma MultisetTail(s: seq<string>)
    requires |s| > 0
    ensures multiset(s[1..]) == multiset(s) - multiset{s[0]}
  {
    assert s == [s[0]] + s[1..];
  }

  /** No string occurs twice. */
  ghost predicate Distinct(s: seq<string>) {
    forall i, j :: 0 <= i < j < |s| ==> s[i] != s[j]
  }

  /** A new element in front of a duplicate-free list keeps it so. */
  lemma DistinctCons(x: string, t: seq<string>)
    requires x !in t && Distinct(t)
    ensures Distinct([x] + t)
  {
    forall i, j | 0 <= i < j < |[x] + t|
      ensures ([x] + t)[i] != ([x] + t)[j]
    {
      assert ([x] + t)[j] == t[j - 1];
      if i > 0 {
        assert ([x] + t)[i] == t[i - 1];
      }
    }
  }

  /** The head of a duplicate-free list is not in its tail, which is
      duplicate-free too. */
  lemma DistinctTail(s: seq<string>)
    requires |s| > 0 && Distinct(s)
    ensures s[0] !in s[1..] && Distinct(s[1..])
  {
    forall i, j | 0 <= i < j < |s| - 1
      ensures s[1..][i] != s[1..][j]
    {
      assert s[1..][i] == s[i + 1] && s[1..][j] == s[j + 1];
    }
    forall k | 0 <= k < |s| - 1
      ensures s[1..][k] != s[0]
    {
      assert s[1..][k] == s[k + 1];
    }
  }

  /** The last element of a duplicate-free list is not among the others,
      which are duplicate-free too. */
  lemma DistinctInit(s: seq<string>)
    requires |s| > 0 && Distinct(s)
    ensures s[|s| - 1] !in s[..|s| - 1] && Distinct(s[..|s| - 1])
  {
    assert forall k :: 0 <= k < |s| - 1 ==> s[..|s| - 1][k] == s[k];
  }

  /** Sorting a list of distinct strings keeps them distinct, so every
      element is visited exactly once. */
  lemma SortKeepsDistinct(s: seq<string>)
    requires Distinct(s)
    ensures Distinct(Sort(s))
  {
    var r := Sort(s);
    forall x
      ensures multiset(r)[x] <= 1
    {
      DistinctCount(s, x);
    }
    CountAtMostOneDistinct(r);
  }

  lemma {:induction false} DistinctCount(s: seq<string>, x: string)
    requires Distinct(s)
    ensures multiset(s)[x] <= 1
    decreases |s|
  {
    if |s| > 0 {
      DistinctCount(s[1..], x);
      assert s == [s[0]] + s[1..];
      if s[0] == x {
        assert x !in s[1..];
      }
    }
  }

  lemma {:induction false} CountAtMostOneDistinct(r: seq<string>)
    requires forall x :: multiset(r)[x] <= 1
    ensures Distinct(r)
    decreases |r|
  {
    if |r| > 0 {
      assert r == [r[0]] + r[1..];
      forall x
        ensures multiset(r[1..])[x] <= 1
      {
        assert multiset(r)[x] == multiset{r[0]}[x] + multiset(r[1..])[x];
      }
      CountAtMostOneDistinct(r[1..]);
      forall i, j | 0 <= i < j < |r|
        ensures r[i] != r[j]
      {
        if i == 0 {
          assert r[j] == r[1..][j - 1];
          assert r[j] in multiset(r[1..]);
          assert multiset(r)[r[0]] == 1 + multiset(r[1..])[r[0]];
        } else {
          assert r[i] == r[1..][i - 1] && r[j] == r[1..][j - 1];
        }
      }
    }
  }

  /** Keeping some elements of a sorted list keeps it sorted. */
  lemma {:induction false} FilterKeepsSorted(s: seq<string>, p: string -> bool)
    requires Sorted(s)
    ensures Sorted(Filter(s, p))
    decreases |s|
  {
    if |s| > 0 {
      FilterKeepsSorted(s[1..], p);
      var t := Filter(s[1..], p);
      if p(s[0]) {
        forall j | 0 <= j < |t|
          ensures LexLe(s[0], t[j])
        {
          assert t[j] in s[1..];
          var i :| 0 <= i < |s[1..]| && s[1..][i] == t[j];
          assert s[i + 1] == t[j];
        }
        assert Filter(s, p) == [s[0]] + t;
      }
    }
  }

  /** Keeping some elements of a duplicate-free list keeps it
      duplicate-free. */
  lemma {:induction false} FilterKeepsDistinct(s: seq<string>, p: string -> bool)
    requires Distinct(s)
    ensures Distinct(Filter(s, p))
    decreases |s|
  {
    if |s| > 0 {
      DistinctTail(s);
      FilterKeepsDistinct(s[1..], p);
      var t := Filter(s[1..], p);
      if p(s[0]) {
        assert Filter(s, p) == [s[0]] + t;
        DistinctCons(s[0], t);
      } else {
        assert Filter(s, p) == t;
      }
    }
  }
}

=== FILE: planner.dfy ===
/** The planner of the workflow synchroniser: for one synchronised path,
    the majority digest over the repositories that hold it, the repositories
    that are missing it or disagree, the repository to copy from, and the
    worktree-versus-remote comparison. File contents appear only through
    their SHA-256 hex digests, which are opaque here. */
module Planner {
  import opened Wrappers
  import opened Seqs

  /** A SHA-256 hex digest of a file's bytes. */
  type Digest = string

  /** A target repository: its directory name and the digest of every
      file present in its worktree, by relative path. */
  datatype Repo = Repo(name: string, files: map<string, Digest>)

  predicate Holds(r: Repo, path: string) {
    path in r.files
  }

  // ---------------------------------------------------------------------
  // Counter(hashes).most_common(1)

  /** How often `d` occurs in `hs`. */
  function Cnt(hs: seq<Digest>, d: Digest): nat {
    multiset(hs)[d]
  }

  /** `d` occurs at position `j` or earlier. */
  ghost predicate SeenBy(hs: seq<Digest>, d: Digest, j: int) {
    exists i :: 0 <= i <= j && i < |hs| && hs[i] == d
  }

  /** `d` is what `Counter(hs).most_common(1)[0][0]` yields: a digest of
      the list that no digest outnumbers and that occurs no later than any
      digest of equal count (a Counter keeps first-insertion order, and the
      one-element `most_common` keeps the first maximal entry). */
  ghost predicate IsMostCommon(hs: seq<Digest>, d: Digest) {
    d in hs
    && (forall j :: 0 <= j < |hs| ==> Cnt(hs, hs[j]) <= Cnt(hs, d))
    && (forall j :: 0 <= j < |hs| && Cnt(hs, hs[j]) == Cnt(hs, d) ==> SeenBy(hs, d, j))
  }

  /** Scan the list once, keeping the position of the first entry of
      strictly greatest count seen so far. */
  function MostCommonFrom(hs: seq<Digest>, k: nat, best: nat): (d: Digest)
    requires best < k <= |hs|
    requires forall j :: 0 <= j < k ==> Cnt(hs, hs[j]) <= Cnt(hs, hs[best])
    requires forall j :: 0 <= j < k && Cnt(hs, hs[j]) == Cnt(hs, hs[best]) ==> SeenBy(hs, hs[best], j)
    ensures IsMostCommon(hs, d)
    decreases |hs| - k
  {
    if k == |hs| then
      hs[best]
    else if Cnt(hs, hs[k]) > Cnt(hs, hs[best]) then
      assert SeenBy(hs, hs[k], k);
      MostCommonFrom(hs, k + 1, k)
    else
      assert SeenBy(hs, hs[best], k);
      MostCommonFrom(hs, k + 1, best)
  }

  function MostCommon(hs: seq<Digest>): (d: Digest)
    requires |hs| > 0
    ensures IsMostCommon(hs, d)
  {
    assert SeenBy(hs, hs[0], 0);
    MostCommonFrom(hs, 1, 0)
  }

  /** The index of the first entry equal to `d`. */
  function FirstIndex(hs: seq<Digest>, d: Digest): (i: nat)
    requires d in hs
    ensures i < |hs| && hs[i] == d
    ensures forall j :: 0 <= j < i ==> hs[j] != d
  {
    if hs[0] == d then 0 else FirstIndex(hs[1..], d) + 1
  }

  /** The most common digest is fully determined by its description. */
  lemma MostCommonUnique(hs: seq<Digest>, d1: Digest, d2: Digest)
    requires IsMostCommon(hs, d1) && IsMostCommon(hs, d2)
    ensures d1 == d2
  {
    var i1 := FirstIndex(hs, d1);
    var i2 := FirstIndex(hs, d2);
    assert Cnt(hs, hs[i2]) <= Cnt(hs, d1);
    assert Cnt(hs, hs[i1]) <= Cnt(hs, d2);
    assert Cnt(hs, hs[i2]) == Cnt(hs, d1);
    assert Cnt(hs, hs[i1]) == Cnt(hs, d2);
    assert SeenBy(hs, d1, i2);
    assert SeenBy(hs, d2, i1);
    SeenByFirst(hs, d1, i2);
    SeenByFirst(hs, d2, i1);
    assert i1 == i2;
    assert d1 == hs[i1] == d2;
  }

  /** A digest seen by position `j` first occurs at or before `j`. */
  lemma SeenByFirst(hs: seq<Digest>, d: Digest, j: int)
    requires SeenBy(hs, d, j)
    ensures d in hs && FirstIndex(hs, d) <= j
  {
    var a :| 0 <= a <= j && a < |hs| && hs[a] == d;
    assert d in hs;
  }

  // ---------------------------------------------------------------------
  // compute_majority_hash

  /** The digests of the repositories that hold `path`, in repository
      order. */
  function Hashes(repos: seq<Repo>, path: string): (hs: seq<Digest>)
    ensures |hs| <= |repos|
    ensures forall d :: d in hs <==> exists i :: 0 <= i < |repos| && Holds(repos[i], path) && repos[i].files[path] == d
    ensures forall i :: 0 <= i < |repos| && Holds(repos[i], path) ==> repos[i].files[path] in hs
  {
    if |repos| == 0 then []
    else
      var rest := Hashes(repos[1..], path);
      assert forall i :: 0 < i < |repos| ==> repos[i] == repos[1..][i - 1];
      if Holds(repos[0], path) then [repos[0].files[path]] + rest else rest
  }

  /** `compute_majority_hash`: None when no repository holds the file,
      otherwise the most common digest among the holders. */
  function MajorityHash(repos: seq<Repo>, path: string): (m: Option<Digest>)
    ensures m.None? <==> forall i :: 0 <= i < |repos| ==> !Holds(repos[i], path)
    ensures m.Some? ==> IsMostCommon(Hashes(repos, path), m.value)
    ensures m.Some? ==> exists i :: 0 <= i < |repos| && Holds(repos[i], path) && repos[i].files[path] == m.value
  {
    var hs := Hashes(repos, path);
    if |hs| == 0 then None
    else
      assert hs[0] in hs;
      Some(MostCommon(hs))
  }

  // ---------------------------------------------------------------------
  // detect_outliers

  /** Missing the file, or holding a digest other than `d`. */
  function DiffersFrom(path: string, d: Digest): Repo -> bool {
    (r: Repo) => !Holds(r, path) || r.files[path] != d
  }

  /** `detect_outliers`: the majority digest, and the repositories that
      lack the file or disagree with it, in repository order; (None, [])
      when nobody holds the file. */
  function DetectOutliers(repos: seq<Repo>, path: string): (r: (Option<Digest>, seq<Repo>))
    ensures r.0 == MajorityHash(repos, path)
    ensures r.0.None? ==> r.1 == []
    ensures r.0.Some? ==> forall x :: x in r.1 <==> x in repos && (!Holds(x, path) || x.files[path] != r.0.value)
    ensures r.0.Some? ==> r.1 == Filter(repos, DiffersFrom(path, r.0.value))
  {
    var m := MajorityHash(repos, path);
    if m.None? then (None, [])
    else (m, Filter(repos, DiffersFrom(path, m.value)))
  }

  /** With a majority, no outliers means every repository holds the file
      with the same digest; and then that digest is the majority. */
  lemma NoOutliersMeansAgreement(repos: seq<Repo>, path: string)
    ensures DetectOutliers(repos, path).0.Some? && DetectOutliers(repos, path).1 == [] <==>
      |repos| > 0
      && (forall i :: 0 <= i < |repos| ==> Holds(repos[i], path))
      && (forall i :: 0 <= i < |repos| ==> repos[i].files[path] == repos[0].files[path])
  {
    var (m, out) := DetectOutliers(repos, path);
    if m.Some? && out == [] {
      forall i | 0 <= i < |repos|
        ensures Holds(repos[i], path) && repos[i].files[path] == m.value
      {
        assert repos[i] in repos;
      }
    }
    if |repos| > 0 && (forall i :: 0 <= i < |repos| ==> Holds(repos[i], path))
       && (forall i :: 0 <= i < |repos| ==> repos[i].files[path] == repos[0].files[path]) {
      assert Holds(repos[0], path);
      AllSameMajority(repos, path, repos[0].files[path]);
      FilterNone(repos, DiffersFrom(path, m.value));
    }
  }

  /** When every repository holds the file with digest `d`, `d` is the
      majority. */
  lemma AllSameMajority(repos: seq<Repo>, path: string, d: Digest)
    requires |repos| > 0
    requires forall i :: 0 <= i < |repos| ==> Holds(repos[i], path) && repos[i].files[path] == d
    ensures MajorityHash(repos, path) == Some(d)
  {
    assert Holds(repos[0], path);
    var m := MajorityHash(repos, path);
    assert m.value in Hashes(repos, path);
  }

  // ---------------------------------------------------------------------
  // find_master_repo

  /** `find_master_repo`. A non-empty master name is looked up once, at
      the first repository of that name; if it holds the file it is the
      source whatever its digest. Otherwise the source is the first holder
      of the majority digest, or nothing without a majority. */
  function FindMasterRepo(repos: seq<Repo>, path: string, majority: Option<Digest>, master: Option<string>)
    : (r: Option<Repo>)
    ensures r.Some? ==> r.value in repos && Holds(r.value, path)
    ensures r.Some? && !NamedMasterHolds(repos, path, master) ==>
      majority.Some? && r.value.files[path] == majority.value
    ensures NamedMasterHolds(repos, path, master) ==>
      r == Some(repos[FindIndex(repos, HasName(master.value)).value])
    ensures !NamedMasterHolds(repos, path, master) && majority.Some? ==>
      (r.None? <==> forall i :: 0 <= i < |repos| ==> !MajorityHolder(path, majority.value)(repos[i]))
    ensures majority.None? && !NamedMasterHolds(repos, path, master) ==> r.None?
  {
    if NamedMasterHolds(repos, path, master) then
      Some(repos[FindIndex(repos, HasName(master.value)).value])
    else if majority.None? then None
    else
      match FindIndex(repos, MajorityHolder(path, majority.value))
      case None => None
      case Some(i) => Some(repos[i])
  }

  function HasName(name: string): Repo -> bool {
    (r: Repo) => r.name == name
  }

  function MajorityHolder(path: string, d: Digest): Repo -> bool {
    (r: Repo) => Holds(r, path) && r.files[path] == d
  }

  /** A non-empty master name is configured, and the first repository of
      that name holds the file. */
  predicate NamedMasterHolds(repos: seq<Repo>, path: string, master: Option<string>) {
    master.Some? && master.value != ""
    && FindIndex(repos, HasName(master.value)).Some?
    && Holds(repos[FindIndex(repos, HasName(master.value)).value], path)
  }

  /** The first position whose element passes `p`. */
  function FindIndex(s: seq<Repo>, p: Repo -> bool): (r: Option<nat>)
    ensures r.Some? ==> r.value < |s| && p(s[r.value]) && forall j :: 0 <= j < r.value ==> !p(s[j])
    ensures r.None? ==> forall j :: 0 <= j < |s| ==> !p(s[j])
  {
    if |s| == 0 then None
    else if p(s[0]) then Some(0)
    else
      match FindIndex(s[1..], p)
      case None => None
      case Some(i) => Some(i + 1)
  }

  /** Whenever a majority exists some repository holds it, so a source is
      always found: the error branch for a missing source cannot be
      taken. */
  lemma SourceAlwaysFound(repos: seq<Repo>, path: string, master: Option<string>)
    requires MajorityHash(repos, path).Some?
    ensures FindMasterRepo(repos, path, MajorityHash(repos, path), master).Some?
  {
    var m := MajorityHash(repos, path).value;
    var i :| 0 <= i < |repos| && Holds(repos[i], path) && repos[i].files[path] == m;
    if !NamedMasterHolds(repos, path, master) {
      assert MajorityHolder(path, m)(repos[i]);
      assert FindIndex(repos, MajorityHolder(path, m)).Some?;
    }
  }

  // ---------------------------------------------------------------------
  // get_uncommitted_vs_remote

  /** One reported difference: path, worktree digest, remote digest, and
      the remote bytes. */
  datatype Uncommitted<B> = Uncommitted(path: string, localHash: Digest, remoteHash: Digest, remote: B)

  /** The worktree and the remote HEAD both have `p`, with different
      digests. */
  function Differs<B>(local: map<string, Digest>, remote: map<string, B>, sha: B -> Digest)
    : string -> bool
  {
    (p: string) => p in local && p in remote && local[p] != sha(remote[p])
  }

  function PathsOf<B>(r: seq<Uncommitted<B>>): (ps: seq<string>)
    ensures |ps| == |r| && forall k :: 0 <= k < |r| ==> ps[k] == r[k].path
  {
    if |r| == 0 then [] else [r[0].path] + PathsOf(r[1..])
  }

  /** `get_uncommitted_vs_remote`: for each synchronised path in order,
      skip it when the worktree lacks it or the remote HEAD lacks it, and
      report it when the worktree digest differs from the digest of the
      remote bytes. */
  function UncommittedVsRemote<B>(local: map<string, Digest>, remote: map<string, B>,
                                  sha: B -> Digest, paths: seq<string>)
    : (r: seq<Uncommitted<B>>)
    ensures PathsOf(r) == Filter(paths, Differs(local, remote, sha))
    ensures forall k :: 0 <= k < |r| ==>
      r[k].path in local && r[k].path in remote
      && r[k].localHash == local[r[k].path] && r[k].remote == remote[r[k].path]
      && r[k].remoteHash == sha(remote[r[k].path]) && r[k].localHash != r[k].remoteHash
  {
    if |paths| == 0 then []
    else
      var p := paths[0];
      var rest := UncommittedVsRemote(local, remote, sha, paths[1..]);
      if p !in local || p !in remote then rest
      else
        var lh := local[p];
        var rh := sha(remote[p]);
        if lh != rh then
          var r := [Uncommitted(p, lh, rh, remote[p])] + rest;
          assert r[1..] == rest;
          r
        else rest
  }
}

=== FILE: pystr.dfy ===
/** The few pieces of Python's `str` semantics the tools rely on:
    `in`, `startswith`, `endswith`, ASCII `lower()`, `isspace()`, `strip()`,
    `split()`, `splitlines()`, `sep.join(...)`, `str(int)` and `int(str)`.
    Strings are sequences of Unicode scalar values, as Python's are, so
    `len` is `|s|`. */
module PyStr {
  import opened Wrappers

  // ---------------------------------------------------------------------
  // Prefix, suffix, substring

  /** Python `s.startswith(p)`. */
  predicate StartsWith(s: string, p: string) {
    |p| <= |s| && s[..|p|] == p
  }

  /** A text starts with anything it is built on. */
  lemma StartsWithConcat(a: string, b: string)
    ensures StartsWith(a + b, a)
  {
    assert (a + b)[..|a|] == a;
  }

  /** Python `s.endswith(p)`. */
  predicate EndsWith(s: string, p: string) {
    |p| <= |s| && s[|s| - |p|..] == p
  }

  /** Python `sub in s`, scanning start positions left to right. */
  predicate Contains(s: string, sub: string)
    decreases |s|
  {
    StartsWith(s, sub) || (|s| > 0 && Contains(s[1..], sub))
  }

  /** `sub` occurs in `s` at position `i`. */
  ghost predicate OccursAt(s: string, sub: string, i: int) {
    0 <= i && i + |sub| <= |s| && s[i..i + |sub|] == sub
  }

  /** The scanning definition of `in` agrees with "some position holds an
      occurrence". */
  lemma {:induction false} ContainsIff(s: string, sub: string)
    ensures Contains(s, sub) <==> exists i :: OccursAt(s, sub, i)
    decreases |s|
  {
    if StartsWith(s, sub) {
      assert OccursAt(s, sub, 0);
    } else if |s| == 0 {
      assert |sub| > 0;
    } else {
      ContainsIff(s[1..], sub);
      if exists i :: OccursAt(s[1..], sub, i) {
        var i :| OccursAt(s[1..], sub, i);
        assert s[i + 1..i + 1 + |sub|] == s[1..][i..i + |sub|];
        assert OccursAt(s, sub, i + 1);
      }
      if exists i :: OccursAt(s, sub, i) {
        var i :| OccursAt(s, sub, i);
        assert s[0..|sub|] == s[..|sub|];
        assert i != 0;
        assert s[1..][i - 1..i - 1 + |sub|] == s[i..i + |sub|];
        assert OccursAt(s[1..], sub, i - 1);
      }
    }
  }

  /** A witness occurrence makes `in` true. */
  lemma ContainsAt(s: string, sub: string, i: int)
    requires OccursAt(s, sub, i)
    ensures Contains(s, sub)
  {
    ContainsIff(s, sub);
  }

  /** A string that is contained in `t` is shorter than `t` or equal to it. */
  lemma ContainsLength(s: string, sub: string)
    requires Contains(s, sub)
    ensures |sub| <= |s|
  {
    ContainsIff(s, sub);
  }

  /** `in` is transitive: an occurrence inside an occurrence. */
  lemma ContainsTrans(s: string, mid: string, sub: string)
    requires Contains(s, mid) && Contains(mid, sub)
    ensures Contains(s, sub)
  {
    ContainsIff(s, mid);
    ContainsIff(mid, sub);
    var i :| OccursAt(s, mid, i);
    var j :| OccursAt(mid, sub, j);
    assert forall k :: 0 <= k < |sub| ==> s[i + j + k] == mid[j + k] == sub[k];
    assert OccursAt(s, sub, i + j);
    ContainsIff(s, sub);
  }

  // ---------------------------------------------------------------------
  // Case

  /** Python `c.lower()` restricted to ASCII letters (see README, Left out). */
  function LowerChar(c: char): char {
    if 'A' <= c <= 'Z' then (c as int + 32) as char else c
  }

  /** Python `s.lower()` character by character. */
  function Lower(s: string): (r: string)
    ensures |r| == |s|
    ensures forall i :: 0 <= i < |s| ==> r[i] == LowerChar(s[i])
  {
    seq(|s|, i requires 0 <= i < |s| => LowerChar(s[i]))
  }

  /** A string without upper-case ASCII letters. */
  ghost predicate IsLower(s: string) {
    forall i :: 0 <= i < |s| ==> !('A' <= s[i] <= 'Z')
  }

  /** Lowering is idempotent and lowers everything. */
  lemma LowerIsLower(s: string)
    ensures IsLower(Lower(s))
    ensures Lower(Lower(s)) == Lower(s)
  {
  }

  /** A string with no upper-case letter is its own lower-casing. */
  lemma LowerOfLower(s: string)
    requires IsLower(s)
    ensures Lower(s) == s
  {
  }

  // ---------------------------------------------------------------------
  // Whitespace

  /** Python `c.isspace()`: the characters with bidirectional class WS, B
      or S, or general category Zs. */
  predicate IsSpace(c: char) {
    || ('\t' <= c <= '\r')
    || ('\U{1C}' <= c <= '\U{1F}')
    || c == ' '
    || c == '\U{85}'
    || c == '\U{A0}'
    || c == '\U{1680}'
    || ('\U{2000}' <= c <= '\U{200A}')
    || c == '\U{2028}'
    || c == '\U{2029}'
    || c == '\U{202F}'
    || c == '\U{205F}'
    || c == '\U{3000}'
  }

  ghost predicate AllSpace(s: string) {
    forall k :: 0 <= k < |s| ==> IsSpace(s[k])
  }

  /** Python `s.lstrip()`. */
  function LStrip(s: string): (r: string)
    ensures |r| <= |s| && r == s[|s| - |r|..]
    ensures AllSpace(s[..|s| - |r|])
    ensures |r| > 0 ==> !IsSpace(r[0])
    decreases |s|
  {
    if |s| > 0 && IsSpace(s[0]) then
      var r := LStrip(s[1..]);
      LStripStep(s, r);
      r
    else s
  }

  /** Python `s.rstrip()`. */
  function RStrip(s: string): (r: string)
    ensures |r| <= |s| && r == s[..|r|]
    ensures AllSpace(s[|r|..])
    ensures |r| > 0 ==> !IsSpace(r[|r| - 1])
    decreases |s|
  {
    if |s| > 0 && IsSpace(s[|s| - 1]) then
      var r := RStrip(s[..|s| - 1]);
      RStripStep(s, r);
      r
    else s
  }

  /** A leading space in front of a stripped remainder is stripped too. */
  lemma LStripStep(s: string, r: string)
    requires |s| > 0 && IsSpace(s[0])
    requires |r| <= |s| - 1 && r == s[1..][|s| - 1 - |r|..]
    requires AllSpace(s[1..][..|s| - 1 - |r|])
    ensures r == s[|s| - |r|..] && AllSpace(s[..|s| - |r|])
  {
    assert s[1..][..|s| - 1 - |r|] == s[1..|s| - |r|];
    assert s[..|s| - |r|] == [s[0]] + s[1..|s| - |r|];
    AllSpaceConcat([s[0]], s[1..|s| - |r|]);
  }

  /** A trailing space after a stripped remainder is stripped too. */
  lemma RStripStep(s: string, r: string)
    requires |s| > 0 && IsSpace(s[|s| - 1])
    requires |r| <= |s| - 1 && r == s[..|s| - 1][..|r|]
    requires AllSpace(s[..|s| - 1][|r|..])
    ensures r == s[..|r|] && AllSpace(s[|r|..])
  {
    assert s[..|s| - 1][|r|..] == s[|r|..|s| - 1];
    assert s[..|s| - 1][..|r|] == s[..|r|];
    assert s[|r|..] == s[|r|..|s| - 1] + [s[|s| - 1]];
    AllSpaceConcat(s[|r|..|s| - 1], [s[|s| - 1]]);
  }

  /** `r` occurs in `s` at position `i`, and everything before and after
      that occurrence is whitespace. */
  ghost predicate Trimmed(s: string, r: string, i: int) {
    OccursAt(s, r, i) && AllSpace(s[..i]) && AllSpace(s[i + |r|..])
  }

  /** Python `s.strip()`: the infix left after removing leading and
      trailing whitespace. */
  function Strip(s: string): (r: string)
    ensures |r| <= |s|
    ensures |r| == 0 <==> AllSpace(s)
    ensures |r| > 0 ==> !IsSpace(r[0]) && !IsSpace(r[|r| - 1])
    ensures exists i :: Trimmed(s, r, i)
  {
    var l := LStrip(s);
    var r := RStrip(l);
    StripInfix(s, l, r, |s| - |l|);
    StripEmpty(s, l, r);
    StripEnds(s, l, r);
    r
  }

  /** What is left starts and ends with non-whitespace. */
  lemma StripEnds(s: string, l: string, r: string)
    requires l == LStrip(s) && r == RStrip(l)
    ensures |r| > 0 ==> !IsSpace(r[0]) && !IsSpace(r[|r| - 1])
  {
    if |r| > 0 {
      assert r[0] == l[0];
    }
  }

  /** Nothing is left exactly when everything was whitespace. */
  lemma StripEmpty(s: string, l: string, r: string)
    requires l == LStrip(s) && r == RStrip(l)
    ensures |r| == 0 <==> AllSpace(s)
  {
    var i := |s| - |l|;
    if |r| == 0 {
      assert AllSpace(l) by {
        assert l[|r|..] == l;
      }
      AllSpaceSplit(s, i);
    } else {
      assert 0 <= i < |s| && l[0] == s[i];
      NotAllSpace(s, i);
    }
  }

  lemma AllSpaceSplit(s: string, i: int)
    requires 0 <= i <= |s| && AllSpace(s[..i]) && AllSpace(s[i..])
    ensures AllSpace(s)
  {
    forall k | 0 <= k < |s|
      ensures IsSpace(s[k])
    {
      if k < i {
        assert s[k] == s[..i][k];
      } else {
        assert s[k] == s[i..][k - i];
      }
    }
  }

  lemma NotAllSpace(s: string, i: int)
    requires 0 <= i < |s| && !IsSpace(s[i])
    ensures !AllSpace(s)
  {
  }

  /** The stripped text sits at position `i` with only whitespace
      around it. */
  lemma StripInfix(s: string, l: string, r: string, i: int)
    requires |l| <= |s| && l == s[|s| - |l|..] && i == |s| - |l|
    requires |r| <= |l| && r == l[..|r|]
    requires AllSpace(s[..i]) && AllSpace(l[|r|..])
    ensures Trimmed(s, r, i)
  {
    assert forall k :: 0 <= k < |r| ==> r[k] == l[k] == s[i + k];
    assert s[i + |r|..] == l[|r|..];
  }

  lemma AllSpaceConcat(a: string, b: string)
    requires AllSpace(a) && AllSpace(b)
    ensures AllSpace(a + b)
  {
    assert forall k :: |a| <= k < |a + b| ==> (a + b)[k] == b[k - |a|];
  }

  /** Stripping a string with no whitespace at either end changes nothing. */
  lemma StripNoSpace(s: string)
    requires |s| > 0 ==> !IsSpace(s[0]) && !IsSpace(s[|s| - 1])
    ensures Strip(s) == s
  {
  }

  /** `strip()` is the only way to cut `s` into whitespace, a text that
      starts and ends with non-whitespace, and whitespace. */
  lemma StripUnique(s: string, t: string, i: int)
    requires Trimmed(s, t, i)
    requires |t| > 0 && !IsSpace(t[0]) && !IsSpace(t[|t| - 1])
    ensures t == Strip(s)
  {
    var r := Strip(s);
    NotAllSpace(s, i);
    var j := TrimmedAt(s, r);
    TrimmedUnique(s, t, i, r, j);
  }

  /** Two such cuts of one text coincide. */
  lemma TrimmedUnique(s: string, t: string, i: int, r: string, j: int)
    requires Trimmed(s, t, i) && Trimmed(s, r, j)
    requires |t| > 0 && !IsSpace(t[0]) && !IsSpace(t[|t| - 1])
    requires |r| > 0 && !IsSpace(r[0]) && !IsSpace(r[|r| - 1])
    ensures t == r
  {
    SpacesBefore(s, i);
    SpacesBefore(s, j);
    SpacesAfter(s, i + |t|);
    SpacesAfter(s, j + |r|);
    OccursIndex(s, t, i);
    OccursIndex(s, r, j);
    assert i == j && |t| == |r|;
  }

  /** An occurrence, index by index. */
  lemma OccursIndex(s: string, t: string, i: int)
    requires OccursAt(s, t, i)
    ensures forall k :: 0 <= k < |t| ==> s[i + k] == t[k]
  {
    forall k | 0 <= k < |t|
      ensures s[i + k] == t[k]
    {
      assert s[i..i + |t|][k] == s[i + k];
    }
  }

  /** Whitespace in front of position `j`, index by index. */
  lemma SpacesBefore(s: string, j: int)
    requires 0 <= j <= |s| && AllSpace(s[..j])
    ensures forall k :: 0 <= k < j ==> IsSpace(s[k])
  {
    assert forall k :: 0 <= k < j ==> s[..j][k] == s[k];
  }

  /** Whitespace from position `j` on, index by index. */
  lemma SpacesAfter(s: string, j: int)
    requires 0 <= j <= |s| && AllSpace(s[j..])
    ensures forall k :: j <= k < |s| ==> IsSpace(s[k])
  {
    assert forall k :: j <= k < |s| ==> s[j..][k - j] == s[k];
  }

  /** Where the stripped text sits in its input. */
  lemma TrimmedAt(s: string, r: string) returns (j: int)
    requires exists i :: Trimmed(s, r, i)
    ensures Trimmed(s, r, j)
  {
    j :| Trimmed(s, r, j);
  }

  /** The maximal prefix of `s` without whitespace. */
  function Word(s: string): (w: string)
    ensures |w| <= |s| && w == s[..|w|]
    ensures forall k :: 0 <= k < |w| ==> !IsSpace(w[k])
    ensures |w| < |s| ==> IsSpace(s[|w|])
    decreases |s|
  {
    if |s| == 0 || IsSpace(s[0]) then [] else [s[0]] + Word(s[1..])
  }

  /** A non-empty run of characters that are not whitespace. */
  ghost predicate IsWord(w: string) {
    |w| > 0 && forall k :: 0 <= k < |w| ==> !IsSpace(w[k])
  }

  /** Python `s.split()` (no separator): maximal runs of non-whitespace. */
  function Split(s: string): (r: seq<string>)
    ensures forall k :: 0 <= k < |r| ==> IsWord(r[k])
    decreases |s|
  {
    var t := LStrip(s);
    if |t| == 0 then []
    else
      var w := Word(t);
      assert IsWord(w);
      [w] + Split(t[|w|..])
  }

  /** Runs of whitespace and words alternately, starting and ending with a
      run. */
  function Interleave(gaps: seq<string>, words: seq<string>): string
    requires |gaps| == |words| + 1
    decreases |words|
  {
    if |words| == 0 then gaps[0] else gaps[0] + words[0] + Interleave(gaps[1..], words[1..])
  }

  /** `split()` drops only whitespace: the words with the whitespace runs
      around and between them put back give the text again, and the runs
      between two words are non-empty, so each word is a maximal run of
      non-whitespace. */
  lemma {:induction false} SplitRoundTrip(s: string) returns (gaps: seq<string>)
    ensures |gaps| == |Split(s)| + 1
    ensures forall k :: 0 <= k < |gaps| ==> AllSpace(gaps[k])
    ensures forall k :: 0 < k < |gaps| - 1 ==> |gaps[k]| > 0
    ensures |s| > 0 && IsSpace(s[0]) ==> |gaps[0]| > 0
    ensures Interleave(gaps, Split(s)) == s
    decreases |s|
  {
    var t := LStrip(s);
    var lead := s[..|s| - |t|];
    LeadingRun(s);
    if |t| == 0 {
      gaps := [s];
    } else {
      var w := Word(t);
      var rest := t[|w|..];
      WordThenRest(t);
      var g := SplitRoundTrip(rest);
      gaps := GapsStep(s, lead, w, rest, Split(rest), g);
    }
  }

  /** One more word: the leading run goes in front of the rest's gaps. */
  lemma GapsStep(s: string, lead: string, w: string, rest: string, words: seq<string>, g: seq<string>)
    returns (gaps: seq<string>)
    requires s == lead + (w + rest) && AllSpace(lead)
    requires |s| > 0 && IsSpace(s[0]) ==> |lead| > 0
    requires |words| > 0 ==> |rest| > 0 && IsSpace(rest[0])
    requires |g| == |words| + 1
    requires forall k :: 0 <= k < |g| ==> AllSpace(g[k])
    requires forall k :: 0 < k < |g| - 1 ==> |g[k]| > 0
    requires |rest| > 0 && IsSpace(rest[0]) ==> |g[0]| > 0
    requires Interleave(g, words) == rest
    ensures |gaps| == |[w] + words| + 1
    ensures forall k :: 0 <= k < |gaps| ==> AllSpace(gaps[k])
    ensures forall k :: 0 < k < |gaps| - 1 ==> |gaps[k]| > 0
    ensures |s| > 0 && IsSpace(s[0]) ==> |gaps[0]| > 0
    ensures Interleave(gaps, [w] + words) == s
  {
    gaps := [lead] + g;
    InterleaveCons(lead, w, g, words);
    ConcatAssoc(lead, w, rest);
  }

  /** `s` is its leading whitespace run followed by `s.lstrip()`; the run
      is non-empty when `s` starts with whitespace. */
  lemma LeadingRun(s: string)
    ensures s == s[..|s| - |LStrip(s)|] + LStrip(s)
    ensures AllSpace(s[..|s| - |LStrip(s)|])
    ensures |s| > 0 && IsSpace(s[0]) ==> |s| - |LStrip(s)| > 0
    ensures |LStrip(s)| == 0 ==> AllSpace(s) && Split(s) == []
    ensures |LStrip(s)| > 0 ==>
      Split(s) == [Word(LStrip(s))] + Split(LStrip(s)[|Word(LStrip(s))|..])
  {
  }

  /** A text starting with non-whitespace is its first word followed by
      the rest, which is empty or starts with whitespace; a text split into
      words is non-empty. */
  lemma WordThenRest(t: string)
    requires |t| > 0
    ensures t == Word(t) + t[|Word(t)|..]
    ensures |Split(t[|Word(t)|..])| > 0 ==> |t[|Word(t)|..]| > 0 && IsSpace(t[|Word(t)|..][0])
  {
  }

  /** A leading run in front of a gap list keeps the gap properties. */
  lemma GapsCons(lead: string, g: seq<string>)
    requires AllSpace(lead) && |g| > 0
    requires forall k :: 0 <= k < |g| ==> AllSpace(g[k])
    ensures forall k :: 0 <= k < |[lead] + g| ==> AllSpace(([lead] + g)[k])
  {
  }

  lemma ConcatAssoc(a: string, b: string, c: string)
    ensures a + b + c == a + (b + c)
  {
  }

  lemma InterleaveCons(lead: string, w: string, g: seq<string>, words: seq<string>)
    requires |g| == |words| + 1
    ensures Interleave([lead] + g, [w] + words) == lead + w + Interleave(g, words)
  {
    assert ([lead] + g)[1..] == g;
    assert ([w] + words)[1..] == words;
  }

  // ---------------------------------------------------------------------
  // Lines

  /** The line boundaries of Python `str.splitlines()`. */
  predicate IsLineBreak(c: char) {
    || c == '\n' || c == '\r' || c == '\U{0B}' || c == '\U{0C}'
    || ('\U{1C}' <= c <= '\U{1E}')
    || c == '\U{85}' || c == '\U{2028}' || c == '\U{2029}'
  }

  /** Index of the first line boundary in `s`, or `|s|`. */
  function FirstBreak(s: string): (i: nat)
    ensures i <= |s|
    ensures i < |s| ==> IsLineBreak(s[i])
    ensures forall k :: 0 <= k < i ==> !IsLineBreak(s[k])
    decreases |s|
  {
    if |s| == 0 || IsLineBreak(s[0]) then 0 else 1 + FirstBreak(s[1..])
  }

  /** Text without any line boundary. */
  ghost predicate IsLine(l: string) {
    forall j :: 0 <= j < |l| ==> !IsLineBreak(l[j])
  }

  /** Python `s.splitlines()`: a boundary ends a line, "\r\n" counts as one
      boundary, and a final boundary does not start an empty line. */
  function SplitLines(s: string): (r: seq<string>)
    ensures |r| == 0 <==> |s| == 0
    ensures forall k :: 0 <= k < |r| ==> IsLine(r[k])
    ensures forall k :: 0 <= k < |r| ==> |r[k]| <= |s|
    decreases |s|
  {
    if |s| == 0 then []
    else
      var i := FirstBreak(s);
      if i == |s| then [s]
      else
        var k := if s[i] == '\r' && i + 1 < |s| && s[i + 1] == '\n' then i + 2 else i + 1;
        [s[..i]] + SplitLines(s[k..])
  }

  /** A line ending as `splitlines` recognises one: "\r\n", or a single
      boundary character. */
  predicate IsLineEnd(e: string) {
    e == "\r\n" || (|e| == 1 && IsLineBreak(e[0]))
  }

  /** Each line followed by its ending, concatenated. */
  function Unlines(lines: seq<string>, ends: seq<string>): string
    requires |lines| == |ends|
    decreases |lines|
  {
    if |lines| == 0 then "" else lines[0] + ends[0] + Unlines(lines[1..], ends[1..])
  }

  /** `splitlines()` drops only the line endings: each line with its ending
      put back gives the text again. Every line but the last had an ending,
      no line with its ending is empty, and a lone "\r" is never followed
      by "\n", which would have made the two one ending. */
  lemma {:induction false} SplitLinesRoundTrip(s: string) returns (ends: seq<string>)
    ensures |ends| == |SplitLines(s)|
    ensures forall k :: 0 <= k < |ends| - 1 ==> IsLineEnd(ends[k])
    ensures |ends| > 0 ==> ends[|ends| - 1] == "" || IsLineEnd(ends[|ends| - 1])
    ensures forall k :: 0 <= k < |ends| ==> |SplitLines(s)[k] + ends[k]| > 0
    ensures forall k :: 0 <= k < |ends| - 1 && ends[k] == "\r" ==>
      (SplitLines(s)[k + 1] + ends[k + 1])[0] != '\n'
    ensures Unlines(SplitLines(s), ends) == s
    decreases |s|
  {
    if |s| == 0 {
      ends := [];
    } else {
      var i := FirstBreak(s);
      if i == |s| {
        ends := [""];
        assert SplitLines(s) == [s];
        assert Unlines([s], [""]) == s + "" + Unlines([], []);
      } else {
        var k := SplitLinesStep(s);
        var rest := SplitLinesRoundTrip(s[k..]);
        ends := EndsStep(s, s[..i], s[i..k], SplitLines(s[k..]), rest, s[k..]);
      }
    }
  }

  /** The first line of a text with a boundary ends at that boundary, and
      the rest of the lines start right after its ending. */
  lemma SplitLinesStep(s: string) returns (k: nat)
    requires FirstBreak(s) < |s|
    ensures FirstBreak(s) < k <= |s|
    ensures SplitLines(s) == [s[..FirstBreak(s)]] + SplitLines(s[k..])
    ensures s == s[..FirstBreak(s)] + s[FirstBreak(s)..k] + s[k..]
    ensures IsLineEnd(s[FirstBreak(s)..k])
    ensures s[FirstBreak(s)..k] == "\r" && |s[k..]| > 0 ==> s[k..][0] != '\n'
  {
    var i := FirstBreak(s);
    if s[i] == '\r' && i + 1 < |s| && s[i + 1] == '\n' {
      k := i + 2;
      assert s[i..k] == "\r\n";
    } else {
      k := i + 1;
      assert s[i..k] == [s[i]];
    }
    ThreeParts(s, i, k);
  }

  /** One more line: its ending goes in front of the rest's endings. */
  lemma EndsStep(s: string, line: string, e: string, more: seq<string>, rest: seq<string>, tail: string)
    returns (ends: seq<string>)
    requires s == line + e + tail && IsLineEnd(e)
    requires e == "\r" && |tail| > 0 ==> tail[0] != '\n'
    requires |rest| == |more|
    requires forall k :: 0 <= k < |rest| - 1 ==> IsLineEnd(rest[k])
    requires |rest| > 0 ==> rest[|rest| - 1] == "" || IsLineEnd(rest[|rest| - 1])
    requires forall k :: 0 <= k < |rest| ==> |more[k] + rest[k]| > 0
    requires forall k :: 0 <= k < |rest| - 1 && rest[k] == "\r" ==> (more[k + 1] + rest[k + 1])[0] != '\n'
    requires Unlines(more, rest) == tail
    ensures |ends| == |[line] + more|
    ensures forall k :: 0 <= k < |ends| - 1 ==> IsLineEnd(ends[k])
    ensures |ends| > 0 ==> ends[|ends| - 1] == "" || IsLineEnd(ends[|ends| - 1])
    ensures forall k :: 0 <= k < |ends| ==> |([line] + more)[k] + ends[k]| > 0
    ensures forall k :: 0 <= k < |ends| - 1 && ends[k] == "\r" ==>
      (([line] + more)[k + 1] + ends[k + 1])[0] != '\n'
    ensures Unlines([line] + more, ends) == s
  {
    ends := [e] + rest;
    UnlinesCons(line, e, more, rest);
    if e == "\r" && |rest| > 0 {
      UnlinesCons(more[0], rest[0], more[1..], rest[1..]);
      assert more == [more[0]] + more[1..] && rest == [rest[0]] + rest[1..];
      assert (more[0] + rest[0])[0] == tail[0];
    }
  }

  lemma UnlinesCons(l: string, e: string, lines: seq<string>, ends: seq<string>)
    requires |lines| == |ends|
    ensures Unlines([l] + lines, [e] + ends) == l + e + Unlines(lines, ends)
  {
    assert ([l] + lines)[1..] == lines;
    assert ([e] + ends)[1..] == ends;
  }

  /** A text is its three consecutive slices. */
  lemma ThreeParts(s: string, i: nat, k: nat)
    requires i <= k <= |s|
    ensures s == s[..i] + s[i..k] + s[k..]
  {
  }

  /** Text without any line boundary is a single line. */
  lemma SplitLinesSingle(s: string)
    requires |s| > 0
    requires forall k :: 0 <= k < |s| ==> !IsLineBreak(s[k])
    ensures SplitLines(s) == [s]
  {
  }

  // ---------------------------------------------------------------------
  // Joining and numbers

  /** Python `sep.join(parts)`. */
  function Join(sep: string, parts: seq<string>): (r: string)
    ensures |parts| == 1 ==> r == parts[0]
    ensures |parts| > 0 ==> StartsWith(r, parts[0])
  {
    if |parts| == 0 then ""
    else if |parts| == 1 then parts[0]
    else parts[0] + sep + Join(sep, parts[1..])
  }

  /** Decimal digits of a natural number, as Python `str(n)`. */
  function NatToString(n: nat): (r: string)
    ensures |r| > 0
    ensures forall k :: 0 <= k < |r| ==> '0' <= r[k] <= '9'
  {
    var d := ['0' + (n % 10) as char];
    if n < 10 then d else NatToString(n / 10) + d
  }

  /** Python `str(i)` for an int. */
  function IntToString(i: int): (r: string)
    ensures |r| > 0
  {
    if i < 0 then "-" + NatToString(-i) else NatToString(i)
  }

  predicate IsDigit(c: char) {
    '0' <= c <= '9'
  }

  /** Digits with single underscores between them, as Python's `int()`
      accepts them; None for anything else. */
  function ParseDigits(t: string): (r: Option<nat>)
    ensures |t| == 0 ==> r.None?
    decreases |t|
  {
    if |t| == 0 || !IsDigit(t[|t| - 1]) then None
    else
      var last := (t[|t| - 1] - '0') as nat;
      var prefix := t[..|t| - 1];
      if |prefix| == 0 then Some(last)
      else
        var head := if prefix[|prefix| - 1] == '_' then prefix[..|prefix| - 1] else prefix;
        if |head| == 0 then None
        else
          match ParseDigits(head)
          case None => None
          case Some(v) => Some(10 * v + last)
  }

  /** Python `int(t)` for a token without surrounding whitespace: an
      optional sign and decimal digits; any other text raises ValueError,
      modelled as None. */
  function ParseInt(t: string): Option<int> {
    if |t| > 0 && (t[0] == '+' || t[0] == '-') then
      match ParseDigits(t[1..])
      case None => None
      case Some(v) => if t[0] == '-' then Some(-(v as int)) else Some(v as int)
    else
      match ParseDigits(t)
      case None => None
      case Some(v) => Some(v)
  }

  /** `int(str(n)) == n`: printing a count and parsing it back is the
      identity, which is how git's counts reach the checker. */
  lemma {:induction false} ParseNatToString(n: nat)
    ensures ParseDigits(NatToString(n)) == Some(n)
    ensures ParseInt(NatToString(n)) == Some(n)
  {
    var s := NatToString(n);
    if n < 10 {
    } else {
      ParseNatToString(n / 10);
      var p := NatToString(n / 10);
      assert s[..|s| - 1] == p;
      assert p[|p| - 1] != '_';
    }
    assert s[0] != '+' && s[0] != '-';
  }
}

=== FILE: repo_state.dfy ===
/** The three-way classification of a local clone against its tracking
    branch (`classify` in github_local_checker). */
module RepoState {

  /** The four status tags written to the JSON report. */
  datatype Status = Pullable | Diverged | UpToDate | Unknown {
    /** The tag as it appears in the report. */
    function Tag(): string {
      match this
      case Pullable => "pullable"
      case Diverged => "diverged"
      case UpToDate => "up_to_date"
      case Unknown => "unknown"
    }
  }

  /** First match wins: an unreadable count (negative sentinel) gives
      unknown, then divergence, then "not behind", and a repository that is
      only behind is pullable exactly when its worktree is clean. */
  function Classify(dirty: bool, behind: int, ahead: int): (r: Status)
    ensures behind < 0 || ahead < 0 ==> r == Unknown
    ensures behind > 0 && ahead > 0 ==> r == Diverged
    ensures behind == 0 && ahead >= 0 ==> r == UpToDate
    ensures behind > 0 && ahead == 0 ==> (r == Pullable <==> !dirty)
    ensures behind > 0 && ahead == 0 && dirty ==> r == Unknown
  {
    if behind < 0 || ahead < 0 then Unknown
    else if behind > 0 && ahead > 0 then Diverged
    else if behind == 0 then UpToDate
    else if !dirty then Pullable
    else Unknown
  }

  /** The status table of the module documentation, stated per status
      and in both directions:
        pullable   : clean, behind > 0, ahead == 0
        diverged   : behind > 0 and ahead > 0, dirty or not
        up_to_date : behind == 0 (with a readable ahead count)
        unknown    : everything else. */
  lemma ClassifyTable(dirty: bool, behind: int, ahead: int)
    ensures Classify(dirty, behind, ahead) == Pullable <==> !dirty && behind > 0 && ahead == 0
    ensures Classify(dirty, behind, ahead) == Diverged <==> behind > 0 && ahead > 0
    ensures Classify(dirty, behind, ahead) == UpToDate <==> behind == 0 && ahead >= 0
    ensures Classify(dirty, behind, ahead) == Unknown
      <==> behind < 0 || ahead < 0 || (dirty && behind > 0 && ahead == 0)
  {
  }

  /** `pull_repo` may only be given a clean repository that is strictly
      behind and not ahead; a pullable classification guarantees it. */
  lemma PullableIsFastForward(dirty: bool, behind: int, ahead: int)
    requires Classify(dirty, behind, ahead) == Pullable
    ensures !dirty && ahead == 0 && behind > 0
  {
  }

  /** The dirty flag only matters for a repository that is behind and not
      ahead. */
  lemma DirtyMattersOnlyWhenPullable(behind: int, ahead: int)
    ensures Classify(true, behind, ahead) != Classify(false, behind, ahead)
      <==> behind > 0 && ahead == 0
  {
  }
}

=== FILE: seqs.dfy ===
/** Order-preserving filtering of a list, as Python's
    `[x for x in xs if p(x)]`. Every bucket, outlier list and file listing
    of the model is one of these. */
module Seqs {

  /** `[x for x in s if p(x)]`. */
  function Filter<T(!new)>(s: seq<T>, p: T -> bool): (r: seq<T>)
    ensures |r| <= |s|
    ensures forall x :: x in r <==> x in s && p(x)
    ensures forall k :: 0 <= k < |r| ==> p(r[k])
  {
    if |s| == 0 then []
    else if p(s[0]) then [s[0]] + Filter(s[1..], p)
    else Filter(s[1..], p)
  }

  /** Filtering commutes with concatenation, so the kept elements stay in
      their original order. */
  lemma {:induction false} FilterConcat<T(!new)>(a: seq<T>, b: seq<T>, p: T -> bool)
    ensures Filter(a + b, p) == Filter(a, p) + Filter(b, p)
    decreases |a|
  {
    if |a| > 0 {
      assert (a + b)[0] == a[0];
      assert (a + b)[1..] == a[1..] + b;
      FilterConcat(a[1..], b, p);
      if p(a[0]) {
        calc {
          Filter(a + b, p);
          [a[0]] + Filter(a[1..] + b, p);
          [a[0]] + (Filter(a[1..], p) + Filter(b, p));
          ([a[0]] + Filter(a[1..], p)) + Filter(b, p);
        }
      }
    } else {
      assert a + b == b;
    }
  }

  /** What a filter keeps and what it drops add up to the whole list. */
  lemma {:induction false} FilterSplit<T(!new)>(s: seq<T>, p: T -> bool, q: T -> bool)
    requires forall x :: q(x) == !p(x)
    ensures |Filter(s, p)| + |Filter(s, q)| == |s|
    decreases |s|
  {
    if |s| > 0 {
      FilterSplit(s[1..], p, q);
    }
  }

  /** Filtering by a stronger predicate after a weaker one is filtering by
      the stronger one alone. */
  lemma {:induction false} FilterFilter<T(!new)>(s: seq<T>, p: T -> bool, q: T -> bool)
    requires forall x :: q(x) ==> p(x)
    ensures Filter(Filter(s, p), q) == Filter(s, q)
    decreases |s|
  {
    if |s| > 0 {
      FilterFilter(s[1..], p, q);
      if p(s[0]) {
        assert Filter(s, p)[1..] == Filter(s[1..], p);
      }
    }
  }

  /** A filter that keeps nothing of a list whose elements all fail. */
  lemma FilterNone<T(!new)>(s: seq<T>, p: T -> bool)
    requires forall k :: 0 <= k < |s| ==> !p(s[k])
    ensures Filter(s, p) == []
  {
  }

  /** Filtering a two-element list keeps each element that passes. */
  lemma FilterPair<T(!new)>(a: T, b: T, p: T -> bool)
    ensures Filter([a, b], p) == (if p(a) then [a] else []) + (if p(b) then [b] else [])
  {
    assert [a, b][1..] == [b];
  }

  /** Two singletons joined are the two-element list. */
  lemma PairDisplay<T>(a: T, b: T)
    ensures [a] + [b] == [a, b]
  {
  }

  /** Membership in a non-empty list: the head, or the tail. */
  lemma MemberTail<T>(s: seq<T>)
    requires |s| > 0
    ensures forall x :: x in s <==> x == s[0] || x in s[1..]
  {
    assert s == [s[0]] + s[1..];
  }
}

=== FILE: sync_plan.dfy ===
/** The synchroniser's `main` after discovery: the copy plan built file by
    file from the planner, the y/N confirmation, and phase 3 visiting the
    planned repositories in sorted order until one is asked to copy a file
    onto itself; then what one synchronisation round does to the
    repositories, where a named master that disagrees with the majority
    stops the run and keeps the sync from converging. */
module SyncPlan {
  import opened Wrappers
  import opened Seqs
  import opened PyStr
  import opened Ordering
  import opened Planner

  // ---------------------------------------------------------------------
  // The copy plan

  /** One planned copy: the synchronised path, and the repository whose
      copy of it is the source. */
  datatype CopyItem = CopyItem(path: string, source: string)

  /** `copy_plan`: a dict from repository to its planned copies, kept in
      first-insertion order. */
  type Plan = seq<(string, seq<CopyItem>)>

  function Keys(plan: Plan): (ks: seq<string>)
    ensures |ks| == |plan| && forall k :: 0 <= k < |plan| ==> ks[k] == plan[k].0
  {
    if |plan| == 0 then [] else [plan[0].0] + Keys(plan[1..])
  }

  /** `copy_plan[name]`, the empty list for a name with no entry. */
  function Lookup(plan: Plan, name: string): seq<CopyItem> {
    if |plan| == 0 then []
    else if plan[0].0 == name then plan[0].1
    else Lookup(plan[1..], name)
  }

  /** `copy_plan[name].append(item)` on a defaultdict: extend an existing
      entry in place, or add a new entry at the end. */
  function Append(plan: Plan, name: string, item: CopyItem): (r: Plan)
    requires Distinct(Keys(plan))
    ensures Distinct(Keys(r))
    ensures forall n :: n in Keys(r) <==> n in Keys(plan) || n == name
    ensures forall n :: Lookup(r, n) == Lookup(plan, n) + (if n == name then [item] else [])
  {
    if |plan| == 0 then [(name, [item])]
    else
      KeysTail(plan);
      DistinctTail(Keys(plan));
      MemberTail(Keys(plan));
      if plan[0].0 == name then
        LookupAbsent(plan[1..], name);
        var r := [(name, plan[0].1 + [item])] + plan[1..];
        assert r[1..] == plan[1..];
        KeysTail(r);
        MemberTail(Keys(r));
        DistinctCons(name, Keys(plan[1..]));
        assert Keys(r) == [name] + Keys(plan[1..]);
        r
      else
        var rest := Append(plan[1..], name, item);
        var r := [plan[0]] + rest;
        assert r[1..] == rest;
        KeysTail(r);
        MemberTail(Keys(r));
        DistinctCons(plan[0].0, Keys(rest));
        assert Keys(r) == [plan[0].0] + Keys(rest);
        r
  }

  /** The keys of a tail are the tail of the keys. */
  lemma KeysTail(plan: Plan)
    requires |plan| > 0
    ensures Keys(plan)[0] == plan[0].0 && Keys(plan)[1..] == Keys(plan[1..])
  {
  }

  lemma LookupAbsent(plan: Plan, name: string)
    requires name !in Keys(plan)
    ensures Lookup(plan, name) == []
  {
    if |plan| > 0 {
      assert Keys(plan) == [plan[0].0] + Keys(plan[1..]);
      LookupAbsent(plan[1..], name);
    }
  }

  /** The names of a list of repositories, in order. */
  function NamesOf(rs: seq<Repo>): (ns: seq<string>)
    ensures |ns| == |rs| && forall k :: 0 <= k < |rs| ==> ns[k] == rs[k].name
  {
    if |rs| == 0 then [] else [rs[0].name] + NamesOf(rs[1..])
  }

  /** Plan one copy from `source` for every outlier, in outlier order. */
  function AddOutliers(plan: Plan, outliers: seq<Repo>, item: CopyItem): (r: Plan)
    requires Distinct(Keys(plan)) && Distinct(NamesOf(outliers))
    ensures Distinct(Keys(r))
    ensures forall n :: n in Keys(r) <==> n in Keys(plan) || n in NamesOf(outliers)
    ensures forall n :: Lookup(r, n) == Lookup(plan, n) + (if n in NamesOf(outliers) then [item] else [])
    decreases |outliers|
  {
    if |outliers| == 0 then plan
    else
      var next := Append(plan, outliers[0].name, item);
      NamesTail(outliers);
      DistinctTail(NamesOf(outliers));
      MemberTail(NamesOf(outliers));
      AddOutliers(next, outliers[1..], item)
  }

  /** The copy source the planner picks for `path`. */
  function SourceFor(repos: seq<Repo>, path: string, master: Option<string>): Option<Repo> {
    FindMasterRepo(repos, path, MajorityHash(repos, path), master)
  }

  /** No repository name occurs twice: the target repositories are distinct
      directories of one parent. */
  ghost predicate DistinctNames(repos: seq<Repo>) {
    Distinct(NamesOf(repos))
  }

  /** The phase-2 loop: for each synchronised path in order, skip it when
      there are no outliers or no source, otherwise plan a copy from the
      source onto every outlier. */
  function BuildCopyPlan(repos: seq<Repo>, paths: seq<string>, master: Option<string>): (plan: Plan)
    requires DistinctNames(repos)
    ensures Distinct(Keys(plan))
    decreases |paths|
  {
    if |paths| == 0 then []
    else
      var plan := BuildCopyPlan(repos, paths[..|paths| - 1], master);
      var path := paths[|paths| - 1];
      var (majority, outliers) := DetectOutliers(repos, path);
      if |outliers| == 0 then plan
      else
        match FindMasterRepo(repos, path, majority, master)
        case None => plan
        case Some(src) =>
          OutliersDistinct(repos, path);
          AddOutliers(plan, outliers, CopyItem(path, src.name))
  }

  /** Filtering keeps names distinct. */
  lemma OutliersDistinct(repos: seq<Repo>, path: string)
    requires DistinctNames(repos)
    requires MajorityHash(repos, path).Some?
    ensures Distinct(NamesOf(DetectOutliers(repos, path).1))
  {
    FilterKeepsDistinctNames(repos, DiffersFrom(path, MajorityHash(repos, path).value));
  }

  lemma {:induction false} FilterKeepsDistinctNames(rs: seq<Repo>, p: Repo -> bool)
    requires Distinct(NamesOf(rs))
    ensures Distinct(NamesOf(Filter(rs, p)))
    decreases |rs|
  {
    if |rs| > 0 {
      var t := Filter(rs[1..], p);
      NamesTail(rs);
      DistinctTail(NamesOf(rs));
      FilterKeepsDistinctNames(rs[1..], p);
      if p(rs[0]) {
        assert Filter(rs, p) == [rs[0]] + t;
        NamesCons(rs[0], t);
        FilterNamesSubset(rs[1..], p);
        DistinctCons(rs[0].name, NamesOf(t));
      } else {
        assert Filter(rs, p) == t;
      }
    }
  }

  /** The names of a tail are the tail of the names. */
  lemma NamesTail(rs: seq<Repo>)
    requires |rs| > 0
    ensures NamesOf(rs)[0] == rs[0].name && NamesOf(rs)[1..] == NamesOf(rs[1..])
  {
  }

  /** The names of a list with a repository in front. */
  lemma NamesCons(r: Repo, t: seq<Repo>)
    ensures NamesOf([r] + t) == [r.name] + NamesOf(t)
  {
    assert ([r] + t)[1..] == t;
  }

  /** A filtered list only has names from the original list. */
  lemma FilterNamesSubset(rs: seq<Repo>, p: Repo -> bool)
    ensures forall n :: n in NamesOf(Filter(rs, p)) ==> n in NamesOf(rs)
  {
    var t := Filter(rs, p);
    forall n | n in NamesOf(t)
      ensures n in NamesOf(rs)
    {
      var k :| 0 <= k < |t| && NamesOf(t)[k] == n;
      assert t[k] in rs;
      var j :| 0 <= j < |rs| && rs[j] == t[k];
      assert NamesOf(rs)[j] == n;
    }
  }

  /** Whether `name` is an outlier for `path` that gets a copy, and from
      which source. */
  function PlannedItem(repos: seq<Repo>, path: string, master: Option<string>, name: string)
    : Option<CopyItem>
  {
    var (majority, outliers) := DetectOutliers(repos, path);
    var src := FindMasterRepo(repos, path, majority, master);
    if src.Some? && name in NamesOf(outliers) then Some(CopyItem(path, src.value.name)) else None
  }

  /** Reference definition, per repository: the copies planned for `name`
      are its outlier paths, in synchronised-path order, each from that
      path's source. */
  function PlanFor(repos: seq<Repo>, paths: seq<string>, master: Option<string>, name: string)
    : (items: seq<CopyItem>)
    decreases |paths|
  {
    if |paths| == 0 then []
    else
      var last := PlannedItem(repos, paths[|paths| - 1], master, name);
      PlanFor(repos, paths[..|paths| - 1], master, name) + (if last.Some? then [last.value] else [])
  }

  /** The file-by-file loop plans for each repository exactly its
      reference copies, and has an entry for it exactly when there is one
      to plan. */
  lemma {:induction false} CopyPlanIsPerRepoPlan(repos: seq<Repo>, paths: seq<string>, master: Option<string>)
    requires DistinctNames(repos)
    ensures forall n :: Lookup(BuildCopyPlan(repos, paths, master), n) == PlanFor(repos, paths, master, n)
    ensures forall n :: n in Keys(BuildCopyPlan(repos, paths, master)) <==> |PlanFor(repos, paths, master, n)| > 0
    decreases |paths|
  {
    if |paths| > 0 {
      CopyPlanIsPerRepoPlan(repos, paths[..|paths| - 1], master);
      forall n
        ensures Lookup(BuildCopyPlan(repos, paths, master), n) == PlanFor(repos, paths, master, n)
        ensures n in Keys(BuildCopyPlan(repos, paths, master)) <==> |PlanFor(repos, paths, master, n)| > 0
      {
        CopyPlanStep(repos, paths, master, n);
      }
    }
  }

  /** One more synchronised path, for one repository name. */
  lemma CopyPlanStep(repos: seq<Repo>, paths: seq<string>, master: Option<string>, n: string)
    requires DistinctNames(repos) && |paths| > 0
    requires Lookup(BuildCopyPlan(repos, paths[..|paths| - 1], master), n)
      == PlanFor(repos, paths[..|paths| - 1], master, n)
    requires n in Keys(BuildCopyPlan(repos, paths[..|paths| - 1], master))
      <==> |PlanFor(repos, paths[..|paths| - 1], master, n)| > 0
    ensures Lookup(BuildCopyPlan(repos, paths, master), n) == PlanFor(repos, paths, master, n)
    ensures n in Keys(BuildCopyPlan(repos, paths, master)) <==> |PlanFor(repos, paths, master, n)| > 0
  {
    var prefix := paths[..|paths| - 1];
    var plan := BuildCopyPlan(repos, prefix, master);
    var path := paths[|paths| - 1];
    var (majority, outliers) := DetectOutliers(repos, path);
    var src := FindMasterRepo(repos, path, majority, master);
    var last := PlannedItem(repos, path, master, n);
    assert PlanFor(repos, paths, master, n)
      == PlanFor(repos, prefix, master, n) + (if last.Some? then [last.value] else []);
    if |outliers| == 0 || src.None? {
      assert BuildCopyPlan(repos, paths, master) == plan;
      assert last.None? by {
        assert |outliers| == 0 ==> NamesOf(outliers) == [];
      }
      assert PlanFor(repos, prefix, master, n) + [] == PlanFor(repos, prefix, master, n);
    } else {
      OutliersDistinct(repos, path);
      var item := CopyItem(path, src.value.name);
      assert BuildCopyPlan(repos, paths, master) == AddOutliers(plan, outliers, item);
      assert last == if n in NamesOf(outliers) then Some(item) else None;
    }
  }

  /** A path without outliers (all agree, or nobody holds it) adds
      nothing to the plan. */
  lemma AgreeingPathAddsNothing(repos: seq<Repo>, paths: seq<string>, master: Option<string>, path: string)
    requires DistinctNames(repos)
    requires DetectOutliers(repos, path).1 == []
    ensures BuildCopyPlan(repos, paths + [path], master) == BuildCopyPlan(repos, paths, master)
  {
    assert (paths + [path])[..|paths|] == paths;
  }

  // ---------------------------------------------------------------------
  // Confirmation and phase 3

  /** `confirm_action`'s test of the typed answer. */
  predicate ConfirmAction(answer: string) {
    Lower(Strip(answer)) == "y"
  }

  /** Exactly a "y" or a "Y", with any surrounding whitespace, confirms. */
  lemma ConfirmActionIff(answer: string)
    ensures ConfirmAction(answer) <==> Strip(answer) == "y" || Strip(answer) == "Y"
  {
    var t := Strip(answer);
    if Lower(t) == "y" {
      assert |t| == 1 && LowerChar(t[0]) == 'y';
      assert t == [t[0]];
    }
  }

  /** A lone "y" or "Y", padded or not, confirms. */
  lemma ConfirmActionAccepts()
    ensures ConfirmAction("y") && ConfirmAction("Y") && ConfirmAction(" y ")
  {
    ConfirmLone("y");
    ConfirmLone("Y");
    StripPaddedY();
    ConfirmActionIff(" y ");
  }

  lemma ConfirmLone(a: string)
    requires a == "y" || a == "Y"
    ensures ConfirmAction(a)
  {
    StripNoSpace(a);
    assert Lower(a)[0] == 'y';
    assert Lower(a) == "y";
  }

  /** Anything else, "yes" and the empty answer included, declines. */
  lemma ConfirmActionRejects()
    ensures !ConfirmAction("yes") && !ConfirmAction("")
  {
    var t := Strip("yes");
    StripNoSpace("yes");
    assert t == "yes";
    assert |Strip("")| == 0;
    assert Lower(t)[1] == 'e';
  }

  lemma StripPaddedY()
    ensures Strip(" y ") == "y"
  {
    assert " y "[1..] == "y ";
    assert LStrip("y ") == "y ";
    assert LStrip(" y ") == "y ";
    assert "y "[..1] == "y";
    assert RStrip("y") == "y";
    assert RStrip("y ") == "y";
  }

  /** What `main` ends with. `secondPrompt` is whether the copy
      confirmation was asked; `synced` lists the repositories phase 3
      finished, in visiting order; `failedAt` is the repository at which
      `sync_repo` raised `SameFileError`, which nothing catches, so the
      run ends there with exit status 1. */
  datatype SyncOutcome = SyncOutcome(
    exitCode: int, secondPrompt: bool, synced: seq<string>, failedAt: Option<string>)

  /** Some planned copy for repository `name` has `name` itself as its
      source: `copy_file` is asked to copy a file onto itself, and
      `shutil.copy2` raises `SameFileError`. */
  predicate SelfCopy(items: seq<CopyItem>, name: string) {
    name in Sources(items)
  }

  /** The source of each planned copy, in order. */
  function Sources(items: seq<CopyItem>): (ss: seq<string>)
    ensures |ss| == |items| && forall k :: 0 <= k < |items| ==> ss[k] == items[k].source
  {
    if |items| == 0 then [] else [items[0].source] + Sources(items[1..])
  }

  /** The position in `order` of the first repository with a planned
      self-copy; `|order|` when there is none. */
  function FirstSelfCopy(plan: Plan, order: seq<string>): (k: nat)
    ensures k <= |order|
    ensures forall j :: 0 <= j < k ==> !SelfCopy(Lookup(plan, order[j]), order[j])
    ensures k < |order| ==> SelfCopy(Lookup(plan, order[k]), order[k])
    decreases |order|
  {
    if |order| == 0 then 0
    else if SelfCopy(Lookup(plan, order[0]), order[0]) then 0
    else 1 + FirstSelfCopy(plan, order[1..])
  }

  /** Phase 3 after both confirmations: the planned repositories in sorted
      order, each finished in turn, until the first one asked to copy a
      file onto itself raises. */
  function PhaseThree(plan: Plan): (o: SyncOutcome)
    requires Distinct(Keys(plan))
    ensures o.secondPrompt
    ensures o.exitCode == (if o.failedAt.Some? then 1 else 0)
    ensures Sorted(o.synced) && Distinct(o.synced)
    ensures forall n :: n in o.synced ==> n in Keys(plan) && !SelfCopy(Lookup(plan, n), n)
    ensures o.failedAt.Some? ==>
      o.failedAt.value in Keys(plan) && SelfCopy(Lookup(plan, o.failedAt.value), o.failedAt.value)
      && forall n :: n in o.synced ==> LexLe(n, o.failedAt.value) && n != o.failedAt.value
    ensures forall n :: n in Keys(plan) ==> n in o.synced || (o.failedAt.Some? && LexLe(o.failedAt.value, n))
  {
    var order := Sort(Keys(plan));
    VisitingOrder(plan);
    var stop := FirstSelfCopy(plan, order);
    if stop == |order| then
      SyncOutcome(0, true, order, None)
    else
      StopSplitsOrder(order, stop);
      SyncOutcome(1, true, order[..stop], Some(order[stop]))
  }

  /** `sorted(copy_plan.keys())`: every key once, in sorted order. */
  lemma VisitingOrder(plan: Plan)
    requires Distinct(Keys(plan))
    ensures Sorted(Sort(Keys(plan))) && Distinct(Sort(Keys(plan)))
    ensures forall n :: n in Sort(Keys(plan)) <==> n in Keys(plan)
  {
    SortKeepsDistinct(Keys(plan));
    assert forall n :: n in Sort(Keys(plan)) <==> n in multiset(Keys(plan));
  }

  /** `main` from target discovery on. Phase 1 (committing worktree
      changes) is represented by whether it found anything and the answer
      to its prompt; the copy plan is built over the repositories as they
      are afterwards. */
  function RunSync(repos: seq<Repo>, paths: seq<string>, master: Option<string>,
                   hasUncommitted: bool, answer1: string, answer2: string): (o: SyncOutcome)
    requires DistinctNames(repos)
    ensures |repos| == 0 ==> o == SyncOutcome(1, false, [], None)
    ensures o.exitCode == (if |repos| == 0 || o.failedAt.Some? then 1 else 0)
    ensures |repos| > 0 && hasUncommitted && !ConfirmAction(answer1) ==> o == SyncOutcome(0, false, [], None)
    ensures |repos| > 0 && (!hasUncommitted || ConfirmAction(answer1)) ==>
      (o.secondPrompt <==> |BuildCopyPlan(repos, paths, master)| > 0)
    ensures |BuildCopyPlan(repos, paths, master)| == 0 ==> !o.secondPrompt && o.synced == [] && o.failedAt.None?
    ensures |o.synced| > 0 || o.failedAt.Some? ==> o.secondPrompt && ConfirmAction(answer2)
    ensures o.secondPrompt && ConfirmAction(answer2) ==> o == PhaseThree(BuildCopyPlan(repos, paths, master))
    ensures !(o.secondPrompt && ConfirmAction(answer2)) ==> o.synced == [] && o.failedAt.None?
  {
    if |repos| == 0 then SyncOutcome(1, false, [], None)
    else if hasUncommitted && !ConfirmAction(answer1) then SyncOutcome(0, false, [], None)
    else
      var plan := BuildCopyPlan(repos, paths, master);
      if |plan| == 0 then SyncOutcome(0, false, [], None)
      else if !ConfirmAction(answer2) then SyncOutcome(0, true, [], None)
      else PhaseThree(plan)
  }

  /** Phase 3 stopping at position `stop` of a sorted, duplicate-free
      order has finished exactly the names sorted before the one there. */
  lemma StopSplitsOrder(order: seq<string>, stop: nat)
    requires Sorted(order) && Distinct(order) && stop < |order|
    ensures Sorted(order[..stop]) && Distinct(order[..stop])
    ensures forall n :: n in order[..stop] ==> LexLe(n, order[stop]) && n != order[stop]
    ensures forall n :: n in order ==> n in order[..stop] || LexLe(order[stop], n)
  {
    forall n | n in order
      ensures n in order[..stop] || LexLe(order[stop], n)
    {
      var j :| 0 <= j < |order| && order[j] == n;
      if j < stop {
        assert order[..stop][j] == n;
      } else if j == stop {
        LexLeRefl(n);
      }
    }
  }

  /** A self-copy in a concatenation is one in either part. */
  lemma SelfCopyConcat(a: seq<CopyItem>, b: seq<CopyItem>, n: string)
    ensures SelfCopy(a + b, n) <==> SelfCopy(a, n) || SelfCopy(b, n)
  {
    assert Sources(a + b) == Sources(a) + Sources(b);
  }

  /** Two repositories of a list without repeated names that share a name
      are the same repository. */
  lemma SameNameSameRepo(repos: seq<Repo>, a: Repo, b: Repo)
    requires DistinctNames(repos) && a in repos && b in repos && a.name == b.name
    ensures a == b
  {
    var i :| 0 <= i < |repos| && repos[i] == a;
    var j :| 0 <= j < |repos| && repos[j] == b;
    assert NamesOf(repos)[i] == NamesOf(repos)[j];
  }

  /** The copy planned for `n` at one path has `n` as its source only when
      the source is itself one of that path's outliers. */
  lemma PlannedSelfCopy(repos: seq<Repo>, path: string, master: Option<string>, n: string)
    requires DistinctNames(repos)
    ensures PlannedItem(repos, path, master, n).Some? && PlannedItem(repos, path, master, n).value.source == n
      <==> SourceFor(repos, path, master).Some? && SourceFor(repos, path, master).value.name == n
           && SourceFor(repos, path, master).value in DetectOutliers(repos, path).1
  {
    var (majority, outliers) := DetectOutliers(repos, path);
    var src := SourceFor(repos, path, master);
    if src.Some? && n in NamesOf(outliers) && src.value.name == n {
      var r := NamedMember(outliers, n);
      SameNameSameRepo(repos, r, src.value);
    }
    if src.Some? && src.value in outliers {
      MemberName(outliers, src.value);
    }
  }

  /** A name of the list belongs to one of its repositories. */
  lemma NamedMember(rs: seq<Repo>, n: string) returns (r: Repo)
    requires n in NamesOf(rs)
    ensures r in rs && r.name == n
  {
    var k :| 0 <= k < |rs| && NamesOf(rs)[k] == n;
    r := rs[k];
  }

  /** The name of a repository of the list is among its names. */
  lemma MemberName(rs: seq<Repo>, r: Repo)
    requires r in rs
    ensures r.name in NamesOf(rs)
  {
    var k :| 0 <= k < |rs| && rs[k] == r;
    assert NamesOf(rs)[k] == r.name;
  }

  /** Without a named master the source holds the majority digest, so it
      is never one of the outliers. */
  lemma NoMasterSourceAgrees(repos: seq<Repo>, path: string)
    ensures SourceFor(repos, path, None).Some? ==>
      SourceFor(repos, path, None).value !in DetectOutliers(repos, path).1
  {
  }

  /** Without a named master no repository is planned a copy from itself. */
  lemma {:induction false} NoMasterNoSelfCopy(repos: seq<Repo>, paths: seq<string>, n: string)
    requires DistinctNames(repos)
    ensures !SelfCopy(PlanFor(repos, paths, None, n), n)
    decreases |paths|
  {
    if |paths| > 0 {
      var prefix := paths[..|paths| - 1];
      var path := paths[|paths| - 1];
      NoMasterNoSelfCopy(repos, prefix, n);
      PlannedSelfCopy(repos, path, None, n);
      NoMasterSourceAgrees(repos, path);
      var last := PlannedItem(repos, path, None, n);
      var tail := if last.Some? then [last.value] else [];
      assert !SelfCopy(tail, n);
      SelfCopyConcat(PlanFor(repos, prefix, None, n), tail, n);
    }
  }

  /** Without a named master phase 3 never stops early: once confirmed it
      finishes every planned repository. */
  lemma NoMasterSyncsAll(repos: seq<Repo>, paths: seq<string>, hasUncommitted: bool, answer1: string, answer2: string)
    requires DistinctNames(repos)
    ensures var o := RunSync(repos, paths, None, hasUncommitted, answer1, answer2);
      o.failedAt.None?
      && (o.secondPrompt && ConfirmAction(answer2) ==>
            forall n :: n in o.synced <==> n in Keys(BuildCopyPlan(repos, paths, None)))
  {
    var plan := BuildCopyPlan(repos, paths, None);
    CopyPlanIsPerRepoPlan(repos, paths, None);
    forall n
      ensures !SelfCopy(Lookup(plan, n), n)
    {
      NoMasterNoSelfCopy(repos, paths, n);
    }
  }

  /** `PlanFor` over one more path appends that path's planned item. */
  lemma PlanForSnoc(repos: seq<Repo>, paths: seq<string>, master: Option<string>, n: string)
    requires |paths| > 0
    ensures var last := PlannedItem(repos, paths[|paths| - 1], master, n);
      PlanFor(repos, paths, master, n)
      == PlanFor(repos, paths[..|paths| - 1], master, n) + (if last.Some? then [last.value] else [])
  {
  }

  /** A planned item for some synchronised path is among the repository's
      planned copies. */
  lemma {:induction false} PlanForHasItem(repos: seq<Repo>, paths: seq<string>, master: Option<string>,
                                          n: string, p: string, item: CopyItem)
    requires p in paths && PlannedItem(repos, p, master, n) == Some(item)
    ensures item in PlanFor(repos, paths, master, n)
    decreases |paths|
  {
    var prefix := paths[..|paths| - 1];
    var last := PlannedItem(repos, paths[|paths| - 1], master, n);
    var tail := if last.Some? then [last.value] else [];
    var before := PlanFor(repos, prefix, master, n);
    PlanForSnoc(repos, paths, master, n);
    if p == paths[|paths| - 1] {
      assert tail == [item];
    } else {
      InPrefix(paths, p);
      PlanForHasItem(repos, prefix, master, n, p, item);
    }
    InConcat(before, tail, item);
  }

  /** An element other than the last is in the list without its last. */
  lemma InPrefix<T>(s: seq<T>, x: T)
    requires x in s && x != s[|s| - 1]
    ensures x in s[..|s| - 1]
  {
    var j :| 0 <= j < |s| && s[j] == x;
    assert s[..|s| - 1][j] == x;
  }

  /** An element of either part is an element of a concatenation. */
  lemma InConcat<T>(a: seq<T>, b: seq<T>, x: T)
    requires x in a || x in b
    ensures x in a + b
  {
  }

  /** A named master that holds a synchronised path with a digest other
      than the majority's is one of its own outliers there; once both
      prompts are answered yes, phase 3 stops with `SameFileError`. */
  lemma DisagreeingMasterAborts(repos: seq<Repo>, paths: seq<string>, master: Option<string>,
                                hasUncommitted: bool, answer1: string, answer2: string, p: string)
    requires DistinctNames(repos)
    requires p in paths && NamedMasterHolds(repos, p, master)
    requires SourceFor(repos, p, master).value.files[p] != MajorityHash(repos, p).value
    requires !hasUncommitted || ConfirmAction(answer1)
    requires ConfirmAction(answer2)
    ensures RunSync(repos, paths, master, hasUncommitted, answer1, answer2).failedAt.Some?
  {
    var src := SourceFor(repos, p, master).value;
    assert src in repos && Holds(src, p);
    assert src.name == master.value;
    assert src in DetectOutliers(repos, p).1;
    PlannedSelfCopy(repos, p, master, src.name);
    var item := PlannedItem(repos, p, master, src.name).value;
    PlanForHasItem(repos, paths, master, src.name, p, item);
    var items := PlanFor(repos, paths, master, src.name);
    var k :| 0 <= k < |items| && items[k] == item;
    assert Sources(items)[k] == src.name;
    CopyPlanIsPerRepoPlan(repos, paths, master);
    var plan := BuildCopyPlan(repos, paths, master);
    assert src.name in Keys(plan);
  }

  // ---------------------------------------------------------------------
  // One synchronisation round

  /** Overwrite `path` with digest `d` in every repository `hit` selects. */
  function CopyOnto(repos: seq<Repo>, path: string, d: Digest, hit: Repo -> bool): (r: seq<Repo>)
    ensures |r| == |repos|
    ensures forall i :: 0 <= i < |repos| ==>
      r[i] == (if hit(repos[i]) then repos[i].(files := repos[i].files[path := d]) else repos[i])
  {
    seq(|repos|, i requires 0 <= i < |repos| =>
      if hit(repos[i]) then repos[i].(files := repos[i].files[path := d]) else repos[i])
  }

  /** What a round leaves: the repositories, and whether phase 3 stopped
      with `SameFileError` on reaching the source among the outliers. */
  datatype Round = Round(repos: seq<Repo>, aborted: bool)

  /** An outlier that phase 3, visiting the outliers in name order, reaches
      before the repository called `name`. */
  function OutlierBefore(path: string, d: Digest, name: string): Repo -> bool {
    (x: Repo) => DiffersFrom(path, d)(x) && LexLe(x.name, name) && x.name != name
  }

  /** One round for one path, as the source does it: outliers are measured
      against the majority and the chosen source's copy is written over
      each of them in name order. A named master that disagrees with the
      majority is one of those outliers; the copy onto itself raises
      `SameFileError` and ends the run, so only the outliers named before
      it are written. The source's own copy is never changed. */
  function SyncRound(repos: seq<Repo>, path: string, master: Option<string>): (r: Round)
    ensures |r.repos| == |repos|
    ensures r.aborted <==>
      SourceFor(repos, path, master).Some? && SourceFor(repos, path, master).value in DetectOutliers(repos, path).1
    ensures forall i :: 0 <= i < |repos| && SourceFor(repos, path, master) == Some(repos[i]) ==>
      r.repos[i] == repos[i]
  {
    var (majority, outliers) := DetectOutliers(repos, path);
    if |outliers| == 0 then Round(repos, false)
    else
      match FindMasterRepo(repos, path, majority, master)
      case None => Round(repos, false)
      case Some(src) =>
        if DiffersFrom(path, majority.value)(src) then
          Round(CopyOnto(repos, path, src.files[path], OutlierBefore(path, majority.value, src.name)), true)
        else
          Round(CopyOnto(repos, path, src.files[path], DiffersFrom(path, majority.value)), false)
  }

  /** A round with outliers stops early exactly when the chosen source
      does not hold the majority digest, and it leaves nothing to do
      exactly when the source does: with a named master that disagrees
      the repositories still disagree afterwards. */
  lemma SyncRoundConvergesIff(repos: seq<Repo>, path: string, master: Option<string>)
    requires DetectOutliers(repos, path).1 != []
    ensures SourceFor(repos, path, master).Some?
    ensures SyncRound(repos, path, master).aborted
      <==> SourceFor(repos, path, master).value.files[path] != MajorityHash(repos, path).value
    ensures DetectOutliers(SyncRound(repos, path, master).repos, path).1 == []
      <==> SourceFor(repos, path, master).value.files[path] == MajorityHash(repos, path).value
  {
    SyncRoundIsCopy(repos, path, master);
    if SourceFor(repos, path, master).value.files[path] == MajorityHash(repos, path).value {
      RoundFromMajoritySettles(repos, path, master);
    } else {
      RoundFromOutlierUnsettled(repos, path, master);
    }
  }

  /** Copying the majority digest over the outliers leaves none. */
  lemma RoundFromMajoritySettles(repos: seq<Repo>, path: string, master: Option<string>)
    requires DetectOutliers(repos, path).1 != []
    requires MajorityHash(repos, path).Some? && SourceFor(repos, path, master).Some?
    requires SourceFor(repos, path, master).value.files[path] == MajorityHash(repos, path).value
    ensures DetectOutliers(SyncRound(repos, path, master).repos, path).1 == []
  {
    var maj := MajorityHash(repos, path).value;
    assert DetectOutliers(repos, path).1[0] in repos;
    SyncRoundIsCopy(repos, path, master);
    CopyOntoSettles(repos, path, maj);
  }

  /** With outliers, a round writes the source's digest over all of them
      when the source holds the majority, and otherwise over those named
      before the source, stopping there. */
  lemma SyncRoundIsCopy(repos: seq<Repo>, path: string, master: Option<string>)
    requires DetectOutliers(repos, path).1 != []
    ensures MajorityHash(repos, path).Some? && SourceFor(repos, path, master).Some?
    ensures var maj := MajorityHash(repos, path).value;
      var src := SourceFor(repos, path, master).value;
      SyncRound(repos, path, master)
      == if src.files[path] == maj
         then Round(CopyOnto(repos, path, src.files[path], DiffersFrom(path, maj)), false)
         else Round(CopyOnto(repos, path, src.files[path], OutlierBefore(path, maj, src.name)), true)
  {
    SourceAlwaysFound(repos, path, master);
  }

  /** Writing `d` over everyone who differs from `d` leaves no outliers. */
  lemma CopyOntoSettles(repos: seq<Repo>, path: string, d: Digest)
    requires |repos| > 0
    ensures DetectOutliers(CopyOnto(repos, path, d, DiffersFrom(path, d)), path) == (Some(d), [])
  {
    var after := CopyOnto(repos, path, d, DiffersFrom(path, d));
    CopyOntoAllHold(repos, path, d);
    AllSameMajority(after, path, d);
    FilterNone(after, DiffersFrom(path, d));
  }

  /** A round from a source without the majority digest leaves the
      repositories split: the majority holders and the source are both
      untouched. */
  lemma RoundFromOutlierUnsettled(repos: seq<Repo>, path: string, master: Option<string>)
    requires DetectOutliers(repos, path).1 != []
    requires MajorityHash(repos, path).Some? && SourceFor(repos, path, master).Some?
    requires SourceFor(repos, path, master).value.files[path] != MajorityHash(repos, path).value
    ensures DetectOutliers(SyncRound(repos, path, master).repos, path).1 != []
  {
    var maj := MajorityHash(repos, path).value;
    var src := SourceFor(repos, path, master).value;
    SyncRoundIsCopy(repos, path, master);
    var after := SyncRound(repos, path, master).repos;
    var h, _ := MajorityAndOutlier(repos, path);
    var k :| 0 <= k < |repos| && repos[k] == src;
    assert after[h] == repos[h];
    assert after[k] == src;
    assert Holds(after[h], path) && after[h].files[path] == maj;
    assert Holds(after[k], path) && after[k].files[path] != maj;
    NoOutliersMeansAgreement(after, path);
  }

  /** What a round with outliers does to each repository: a majority
      holder is untouched; an outlier is given the source's digest when
      the round does not stop early or the outlier is named before the
      source, and is untouched otherwise. */
  lemma SyncRoundShape(repos: seq<Repo>, path: string, master: Option<string>)
    requires DetectOutliers(repos, path).1 != []
    ensures MajorityHash(repos, path).Some? && SourceFor(repos, path, master).Some?
    ensures var maj := MajorityHash(repos, path).value;
      var src := SourceFor(repos, path, master).value;
      var after := SyncRound(repos, path, master);
      |after.repos| == |repos| > 0
      && forall i :: 0 <= i < |repos| ==>
        (!DiffersFrom(path, maj)(repos[i]) ==> after.repos[i] == repos[i])
        && (DiffersFrom(path, maj)(repos[i])
            && (!after.aborted || (LexLe(repos[i].name, src.name) && repos[i].name != src.name)) ==>
              Holds(after.repos[i], path) && after.repos[i].files[path] == src.files[path])
        && (DiffersFrom(path, maj)(repos[i]) && after.aborted && LexLe(src.name, repos[i].name) ==>
              after.repos[i] == repos[i])
  {
    SyncRoundIsCopy(repos, path, master);
    assert DetectOutliers(repos, path).1[0] in repos;
    var src := SourceFor(repos, path, master).value;
    forall i | 0 <= i < |repos| && LexLe(src.name, repos[i].name) && LexLe(repos[i].name, src.name)
      ensures repos[i].name == src.name
    {
      LexLeAntisym(src.name, repos[i].name);
    }
  }

  /** With outliers there is a repository holding the majority digest and
      an outlier. */
  lemma MajorityAndOutlier(repos: seq<Repo>, path: string) returns (h: nat, k: nat)
    requires DetectOutliers(repos, path).1 != []
    ensures MajorityHash(repos, path).Some?
    ensures h < |repos| && !DiffersFrom(path, MajorityHash(repos, path).value)(repos[h])
    ensures k < |repos| && DiffersFrom(path, MajorityHash(repos, path).value)(repos[k])
  {
    var maj := MajorityHash(repos, path).value;
    h :| 0 <= h < |repos| && Holds(repos[h], path) && repos[h].files[path] == maj;
    var o := DetectOutliers(repos, path).1[0];
    assert o in repos;
    k :| 0 <= k < |repos| && repos[k] == o;
  }

  /** Five repositories: A and B hold "a", the named master M holds "b",
      C and Z lack the file. */
  function SelfCopyRepos(): seq<Repo> {
    [Repo("A", map["w.yml" := "a"]), Repo("B", map["w.yml" := "a"]), Repo("C", map[]),
     Repo("M", map["w.yml" := "b"]), Repo("Z", map[])]
  }

  /** `SelfCopyRepos` after the round: only C, named before M, got M's
      copy. */
  function SelfCopyAfter(): seq<Repo> {
    [Repo("A", map["w.yml" := "a"]), Repo("B", map["w.yml" := "a"]), Repo("C", map["w.yml" := "b"]),
     Repo("M", map["w.yml" := "b"]), Repo("Z", map[])]
  }

  /** The source's own behaviour on `SelfCopyRepos`: M is the source and
      one of the outliers C, M and Z; phase 3 copies onto C, then raises
      `SameFileError` at M, so Z never gets the file, the repositories
      still disagree, and every later run plans the same copies again. */
  lemma MasterSelfCopyExample()
    ensures SourceFor(SelfCopyRepos(), "w.yml", Some("M")) == Some(SelfCopyRepos()[3])
    ensures DetectOutliers(SelfCopyRepos(), "w.yml")
      == (Some("a"), [SelfCopyRepos()[2], SelfCopyRepos()[3], SelfCopyRepos()[4]])
    ensures SyncRound(SelfCopyRepos(), "w.yml", Some("M")) == Round(SelfCopyAfter(), true)
  {
    SelfCopyMajority();
    SelfCopySource();
    SelfCopyOutliers();
    SelfCopyRound();
    SelfCopyChanges();
  }

  lemma SelfCopyRound()
    ensures SyncRound(SelfCopyRepos(), "w.yml", Some("M"))
      == Round(CopyOnto(SelfCopyRepos(), "w.yml", "b", OutlierBefore("w.yml", "a", "M")), true)
  {
    SelfCopyMajority();
    SelfCopySource();
    SelfCopyOutliers();
  }

  lemma SelfCopyChanges()
    ensures CopyOnto(SelfCopyRepos(), "w.yml", "b", OutlierBefore("w.yml", "a", "M")) == SelfCopyAfter()
  {
    var repos := SelfCopyRepos();
    var hit := OutlierBefore("w.yml", "a", "M");
    var after := CopyOnto(repos, "w.yml", "b", hit);
    var p := DiffersFrom("w.yml", "a");
    assert !p(repos[0]) && !p(repos[1]) && p(repos[2]) && p(repos[4]);
    assert !hit(repos[0]) && !hit(repos[1]) && !hit(repos[3]);
    assert LexLe("C", "M") && !LexLe("Z", "M");
    assert hit(repos[2]) && !hit(repos[4]);
    assert after[2] == SelfCopyAfter()[2];
    assert after[0] == repos[0] && after[1] == repos[1] && after[3] == repos[3] && after[4] == repos[4];
  }

  lemma SelfCopyMajority()
    ensures MajorityHash(SelfCopyRepos(), "w.yml") == Some("a")
  {
    var hs := SelfCopyHashes();
    var maj := MajorityHash(SelfCopyRepos(), "w.yml").value;
    assert IsMostCommon(hs, maj);
    assert Cnt(hs, hs[0]) <= Cnt(hs, maj);
  }

  /** The digests of `SelfCopyRepos`, and how often each occurs. */
  lemma SelfCopyHashes() returns (hs: seq<Digest>)
    ensures hs == Hashes(SelfCopyRepos(), "w.yml") == ["a", "a", "b"]
    ensures Cnt(hs, "a") == 2 && Cnt(hs, "b") == 1
    ensures forall d :: d in hs ==> d == "a" || d == "b"
  {
    var repos := SelfCopyRepos();
    hs := Hashes(repos, "w.yml");
    HashesStep(repos[4..], "w.yml");
    assert repos[4..][1..] == [];
    HashesStep(repos[3..], "w.yml");
    assert repos[3..][1..] == repos[4..];
    HashesStep(repos[2..], "w.yml");
    assert repos[2..][1..] == repos[3..];
    HashesStep(repos[1..], "w.yml");
    assert repos[1..][1..] == repos[2..];
    HashesStep(repos, "w.yml");
    assert hs == ["a", "a", "b"];
    TwoAsOneB();
  }

  /** The digest list "a", "a", "b" counted. */
  lemma TwoAsOneB()
    ensures Cnt(["a", "a", "b"], "a") == 2 && Cnt(["a", "a", "b"], "b") == 1
    ensures forall d :: d in ["a", "a", "b"] ==> d == "a" || d == "b"
  {
    assert multiset(["a", "a", "b"]) == multiset{"a", "a", "b"};
  }

  /** `Hashes` of a non-empty list: the head's digest, if it holds the
      file, then the rest's. */
  lemma HashesStep(repos: seq<Repo>, path: string)
    requires |repos| > 0
    ensures Hashes(repos, path)
      == (if Holds(repos[0], path) then [repos[0].files[path]] else []) + Hashes(repos[1..], path)
  {
  }

  lemma SelfCopySource()
    ensures SourceFor(SelfCopyRepos(), "w.yml", Some("M")) == Some(SelfCopyRepos()[3])
  {
    var repos := SelfCopyRepos();
    assert FindIndex(repos[3..], HasName("M")) == Some(0);
    assert FindIndex(repos[2..], HasName("M")) == Some(1);
    assert FindIndex(repos[1..], HasName("M")) == Some(2);
    assert FindIndex(repos, HasName("M")) == Some(3);
    assert NamedMasterHolds(repos, "w.yml", Some("M"));
  }

  lemma SelfCopyOutliers()
    requires MajorityHash(SelfCopyRepos(), "w.yml") == Some("a")
    ensures DetectOutliers(SelfCopyRepos(), "w.yml")
      == (Some("a"), [SelfCopyRepos()[2], SelfCopyRepos()[3], SelfCopyRepos()[4]])
  {
    var repos := SelfCopyRepos();
    var p := DiffersFrom("w.yml", "a");
    assert !p(repos[0]) && !p(repos[1]);
    assert repos[2..] == SelfCopyRepos()[2..];
    SelfCopyLaterOutliers();
    assert repos[1..][1..] == repos[2..];
    assert Filter(repos[1..], p) == Filter(repos[2..], p);
  }

  /** The last three of `SelfCopyRepos` all differ from "a". */
  lemma SelfCopyLaterOutliers()
    ensures Filter(SelfCopyRepos()[2..], DiffersFrom("w.yml", "a"))
      == [SelfCopyRepos()[2], SelfCopyRepos()[3], SelfCopyRepos()[4]]
  {
    var repos := SelfCopyRepos();
    var p := DiffersFrom("w.yml", "a");
    assert p(repos[2]) && p(repos[3]) && p(repos[4]);
    assert repos[4..] == [repos[4]];
    assert repos[3..][1..] == repos[4..];
    assert repos[2..][1..] == repos[3..];
    assert Filter(repos[4..], p) == [repos[4]];
    assert Filter(repos[3..], p) == [repos[3], repos[4]];
  }

  // ---------------------------------------------------------------------
  // The corrected round

  /** Outliers measured against the chosen source: the repositories that
      lack the file or differ from the source's copy. Without a named
      master this is the same list as before. */
  function OutliersAgainstSource(repos: seq<Repo>, path: string, master: Option<string>): (out: seq<Repo>)
    ensures SourceFor(repos, path, master).None? ==> out == []
    ensures SourceFor(repos, path, master).Some? ==> SourceFor(repos, path, master).value !in out
    ensures forall x :: x in out <==>
      (SourceFor(repos, path, master).Some? && x in repos
       && DiffersFrom(path, SourceFor(repos, path, master).value.files[path])(x))
  {
    match SourceFor(repos, path, master)
    case None => []
    case Some(src) => Filter(repos, DiffersFrom(path, src.files[path]))
  }

  /** The round with outliers measured against the source. The source is
      never among them, so no copy onto itself is attempted and the round
      never stops early. */
  function SyncRoundFixed(repos: seq<Repo>, path: string, master: Option<string>): (r: seq<Repo>)
    ensures |r| == |repos|
    ensures forall i :: 0 <= i < |repos| && SourceFor(repos, path, master) == Some(repos[i]) ==>
      r[i] == repos[i]
  {
    match SourceFor(repos, path, master)
    case None => repos
    case Some(src) =>
      var out := OutliersAgainstSource(repos, path, master);
      if |out| == 0 then repos else CopyOnto(repos, path, src.files[path], DiffersFrom(path, src.files[path]))
  }

  /** One corrected round always converges: afterwards every repository
      holds the source's copy, so neither the corrected outlier list nor
      the source's own majority check finds anything to do. */
  lemma SyncRoundFixedConverges(repos: seq<Repo>, path: string, master: Option<string>)
    requires MajorityHash(repos, path).Some?
    ensures var after := SyncRoundFixed(repos, path, master);
      OutliersAgainstSource(after, path, master) == [] && DetectOutliers(after, path).1 == []
  {
    var s := SyncRoundFixedShape(repos, path, master);
    var after := SyncRoundFixed(repos, path, master);
    AllSameMajority(after, path, s);
    FilterNone(after, DiffersFrom(path, s));
    SourceHolds(after, path, master, s);
  }

  /** After a corrected round every repository holds the source's digest. */
  lemma SyncRoundFixedShape(repos: seq<Repo>, path: string, master: Option<string>) returns (s: Digest)
    requires MajorityHash(repos, path).Some?
    ensures var after := SyncRoundFixed(repos, path, master);
      |after| == |repos| > 0
      && forall i :: 0 <= i < |after| ==> Holds(after[i], path) && after[i].files[path] == s
  {
    SourceAlwaysFound(repos, path, master);
    var src := SourceFor(repos, path, master).value;
    s := src.files[path];
    assert |repos| > 0 by {
      assert src in repos;
    }
    var hit := DiffersFrom(path, s);
    assert OutliersAgainstSource(repos, path, master) == Filter(repos, hit);
    if |Filter(repos, hit)| == 0 {
      assert SyncRoundFixed(repos, path, master) == repos;
      FilterEmptyAllHold(repos, path, s);
    } else {
      assert SyncRoundFixed(repos, path, master) == CopyOnto(repos, path, s, hit);
      CopyOntoAllHold(repos, path, s);
    }
  }

  /** Copying `s` onto everybody who differs from it leaves everybody
      holding `s`. */
  lemma CopyOntoAllHold(repos: seq<Repo>, path: string, s: Digest)
    ensures var after := CopyOnto(repos, path, s, DiffersFrom(path, s));
      forall i :: 0 <= i < |after| ==> Holds(after[i], path) && after[i].files[path] == s
  {
  }

  /** Nobody differs from `s`: everybody holds it. */
  lemma FilterEmptyAllHold(repos: seq<Repo>, path: string, s: Digest)
    requires Filter(repos, DiffersFrom(path, s)) == []
    ensures forall i :: 0 <= i < |repos| ==> Holds(repos[i], path) && repos[i].files[path] == s
  {
    forall i | 0 <= i < |repos|
      ensures Holds(repos[i], path) && repos[i].files[path] == s
    {
      assert repos[i] in repos;
    }
  }

  /** When every repository holds `s`, so does whatever source is picked. */
  lemma SourceHolds(repos: seq<Repo>, path: string, master: Option<string>, s: Digest)
    requires |repos| > 0
    requires forall i :: 0 <= i < |repos| ==> Holds(repos[i], path) && repos[i].files[path] == s
    ensures OutliersAgainstSource(repos, path, master) == []
  {
    AllSameMajority(repos, path, s);
    SourceAlwaysFound(repos, path, master);
    var src := SourceFor(repos, path, master).value;
    assert src in repos;
    FilterNone(repos, DiffersFrom(path, src.files[path]));
  }

  /** Whenever the source holds the majority digest (always so without a
      named master) the corrected outliers are the source's outliers. */
  lemma FixedAgreesWithMajoritySource(repos: seq<Repo>, path: string, master: Option<string>)
    requires MajorityHash(repos, path).Some?
    requires SourceFor(repos, path, master).Some?
    requires SourceFor(repos, path, master).value.files[path] == MajorityHash(repos, path).value
    ensures OutliersAgainstSource(repos, path, master) == DetectOutliers(repos, path).1
  {
  }

  /** Without a usable named master the source holds the majority. */
  lemma MajoritySourceWithoutMaster(repos: seq<Repo>, path: string, master: Option<string>)
    requires MajorityHash(repos, path).Some?
    requires !NamedMasterHolds(repos, path, master)
    ensures SourceFor(repos, path, master).Some?
    ensures SourceFor(repos, path, master).value.files[path] == MajorityHash(repos, path).value
  {
    SourceAlwaysFound(repos, path, master);
  }
}

=== FILE: wrappers.dfy ===
/** Failure-carrying datatypes shared by every module of the model.
    - Option<T> stands for Python's `T | None`.
    - Result<T> stands for "returned a T" or "raised an exception", the
      exception being described by its Python class name. */
module Wrappers {

  datatype Option<+T> = None | Some(value: T) {

    /** The value, or `default` when absent (Python's `x or default`
        for values that are only ever None or truthy). */
    function GetOr(default: T): T {
      match this
      case Some(v) => v
      case None => default
    }
  }

  datatype Result<+T> = Success(value: T) | Failure(exception: string) {

    predicate IsFailure() {
      Failure?
    }

    function PropagateFailure<U>(): Result<U>
      requires Failure?
    {
      Failure(exception)
    }

    function Extract(): T
      requires Success?
    {
      value
    }
  }
}
